=== FILE: README.md ===
# latex-to-myst: the tree-rewriting core in Dafny

latex-to-myst is a chain of pandoc filters. It takes the document tree pandoc builds from a LaTeX
source and rewrites it so that pandoc writes MyST Markdown. `main.py` runs the filters.

**Preparation.** `prepare` walks the tree once and fills two tables:

- the nesting level of every directive-block candidate (`element_levels`);
- every label a cross-reference can point at (`element_labels`).

**Passes.** Four actions then run over the whole tree, in this order:

- **Math** turns theorem-like Divs into `prf:<kind>` directives and other classed Divs into
  generic `div` directives. Display math is meant to become a `math` directive, but as written
  it raises AttributeError (see Findings).
- **Link** cleans URLs and turns links that carry a `reference` attribute into MyST role
  references: `{numref}`, `{ref}`, `{eq}` or `{prf:ref}`.
- **Figure** is listed in `ACTIONS`.
- **Basic** drops label-only paragraphs and the words "section"/"figure"/"fig" in front of a
  reference. It records header anchors, strips code-block attributes and builds generic Div
  blocks.

**Finalisation.** `finalize` puts an anchor block `(label)=` in front of every recorded header.

**Building a block.** Every directive is assembled by one builder. It writes an opening fence of
`level + 2` backticks with the block type, label and front matter, then the content, then a
closing fence of the same width.

**Older revisions.** The repository also holds older revisions of the builder, which the figure
code still calls: `directive.py` and `declarative.py`. It also holds an older revision of the
math pass, `latex_math.py`. These are modelled too, beside the current ones.

**How the model works.**

- A node is an immutable datatype value. Its `id` stands for Python object identity, and fresh
  nodes take fresh identities from a counter.
- The document-level tables live in a `Ctx` value that every operation takes and returns:
  levels, labels, recorded headers, image substitutions and the counter.
- Python exceptions become a `Result` whose failure names the exception.
- panflute's `walk` is modelled as a post-order traversal, and `stringify` as the concatenation
  of each walked node's text.

**Modules.** There is one module per source file:

| module | source file |
|---|---|
| `Helpers` | `helpers.py` |
| `Directives` | `directives.py` |
| `AmsMath` | `math.py` |
| `Hyperlink` | `hyperlink.py` |
| `Basic` | `basic.py` |
| `Pipeline` | `main.py` |
| `Figures` | `figures.py` |
| `LegacyDirective` | `directive.py` |
| `Declarative` | `declarative.py` |
| `LegacyMath` | `latex_math.py` |

These rest on shared modules:

- `Wrappers`: Option, Result and the exceptions;
- `Text`: the `str` methods the code uses;
- `Tree`: nodes, walk, stringify, ordered dictionaries;
- `Nesting`: the level calculation, which all three builder revisions share.

## Model

| member | source | states |
|---|---|---|
| `Helpers.WalkCountsImages` | latex_to_myst/helpers.py:50-60 | Counting the images the walk visits gives the structural image count of the subtree. |
| `Helpers.HasMultipleFigures` | latex_to_myst/helpers.py:50-60 | True exactly when the subtree holds at least two Image nodes. |
| `Helpers.GetElementType` | latex_to_myst/helpers.py:63-79 | The type is "figure" iff the node is an Image. It is "subfigures" iff the node is a Para with two or more images. It is "displaymath" iff display math, "amsthm" iff a Div with a supported class, "header" iff a Header, and None otherwise. Each case is an iff. |
| `Helpers.NeedLinebreak` | latex_to_myst/helpers.py:39-47 | A break is needed before iff a previous sibling exists whose text does not end in a newline. A break is needed after iff a next sibling exists whose text does not start with one. |
| `Helpers.RemoveEmphPreserves` | latex_to_myst/helpers.py:82-90 | After emphasis removal no Emph is left in the walk. Every walked node keeps its identity and text, in order, so `stringify` is unchanged. |
| `Helpers.LabelAtIsMatch` | latex_to_myst/main.py:55-59 | The position-wise matcher accepts exactly the `\label{X}` regular-expression matches (X without a closing brace). |
| `Helpers.SearchLabel` | latex_to_myst/main.py:56 | `re.search`: the result is a match, and no earlier position matches. None means no position matches at all. |
| `Helpers.FirstLabelOccurrence` | latex_to_myst/math.py:174-177 | The first marker the search finds is also the first place its literal text occurs, so `replace` starts cutting there. |
| `Helpers.UntilMatchStep` | latex_to_myst/helpers.py:149-170 | One call appends exactly the node's text piece and the node, and stops iff the stripped concatenation equals the stripped target. |
| `Helpers.StringifyUntilMatch` | latex_to_myst/helpers.py:99-170 | The walk stops at the shortest prefix whose stripped text equals the stripped target. None means no prefix matches. |
| `Helpers.FreeCounter` | latex_to_myst/helpers.py:218-221 | The counter reached is the first from the start whose minted name is not yet a label. Every counter skipped is taken. |
| `Helpers.GetBlockIdentifier` | latex_to_myst/helpers.py:173-223 | An existing identifier wins and nothing changes. Otherwise "label" and "name" are popped from non-empty attributes, and a non-empty "name" is preferred. Otherwise, on request, a fresh `<type>-<n>` name is minted and registered, with n the first free counter from the prefix count. Identity, classes and children are kept. |
| `Nesting.MaxLevelIsMax` | latex_to_myst/directives.py:204-205 | The `max` over the children bounds every child's level and is attained by one of them. |
| `Nesting.LevelAtLeastStart` | latex_to_myst/directives.py:197-198 | The level is at least the starting level, plus one when the node is itself a directive. |
| `Nesting.ChildBound` | latex_to_myst/directives.py:199-207 | A node's level is at least that of each child the calculation inspects, plus one when the node is a directive. |
| `Nesting.LevelBoundsPaths` | latex_to_myst/directives.py:195-222 | No inspected downward path holds more directive nodes than the level. |
| `Nesting.LevelIsDeepestPath` | latex_to_myst/directives.py:195-222 | The level is exactly the largest number of directive nodes on an inspected downward path. |
| `Nesting.LevelMonotone` | latex_to_myst/directives.py:195-222 | A directive test that holds wherever another holds never gives a lower level. |
| `Nesting.DirectiveAboveDescendants` | latex_to_myst/directives.py:195-222 | A directive node's level is strictly above that of every node its calculation reaches below it. |
| `Directives.IsDirectiveBlock` | latex_to_myst/directives.py:184-192 | Directive iff display math, any Div, any Image, or a Para or Table holding at least two images. |
| `Directives.DirectiveLevel` | latex_to_myst/directives.py:195-222 | The level is at least the start, plus one for a directive node. |
| `Directives.LeafDirectiveLevel` | latex_to_myst/directives.py:195-222 | A node without children has the starting level, plus one if it is a directive. |
| `Directives.DirectiveAboveNested` | latex_to_myst/directives.py:195-222 | A directive's level is strictly greater than that of any node on an inspected path below it, so nested directives get lower levels. |
| `Directives.DirectiveLevelIsDeepestPath` | latex_to_myst/directives.py:195-222 | The level from 0 is the maximum count of directive nodes over inspected paths, attained by some path. |
| `Directives.Fence` | latex_to_myst/directives.py:31 | The fence is exactly level + 2 backticks. |
| `Directives.FenceBalance` | latex_to_myst/directives.py:30-41 | The header starts with the footer's run of backticks, and a brace follows it. The footer is backticks only, so the closing fence matches the opening one. |
| `Directives.OuterFenceWider` | latex_to_myst/directives.py:30-41 | An enclosing directive's fence is strictly wider than that of any directive nested in it, whatever labels they carry. |
| `Directives.BlockAttrs` | latex_to_myst/directives.py:139-150 | The front matter holds the identifier under "label" or "name", then the element's attributes, which win on a clash. Without an identifier it holds just the attributes. |
| `Directives.Wrapped` | latex_to_myst/directives.py:181 | The wrapper has the given identity and children, and is a Div exactly for the Div class. |
| `Directives.ResolveLevel` | latex_to_myst/directives.py:114-128 | A recorded level is used as it is. A missing one is computed by `directive_level` and recorded, and nothing else in the tables changes. |
| `Directives.HeaderOpens` | latex_to_myst/directives.py:30-41 | The rendered header starts with the opening line (fence, `{type}`, label), and the footer is preceded by a newline. |
| `Directives.BlockChildren` | latex_to_myst/directives.py:163-180 | A block element gets RawBlock header and footer around the content. An inline element gets RawInline header+newline and newline+footer, then the shared line break when one is needed after. |
| `Directives.CreateDirectiveBlock` | latex_to_myst/directives.py:71-181 | A non-directive comes back unchanged. A directive takes three fresh identities for wrapper, header and footer. |
| `Directives.DirectiveBlockFrame` | latex_to_myst/directives.py:106-181 | The block frames the content, in order, between a header opening with the resolved level's fence and a footer of the same fence. The level is recorded and the labels change only by `get_block_identifier`. |
| `Directives.DirectiveBlockHeader` | latex_to_myst/directives.py:130-161 | The header carries the front matter built from the resolved identifier and the element's attributes. |
| `Directives.DirectiveBlockForm` | latex_to_myst/directives.py:163-181 | Block elements use RawBlocks, inline ones RawInlines plus the trailing line break exactly when the next sibling does not start a new line. |
| `Directives.CreateGenericDivBlock` | latex_to_myst/directives.py:44-68 | Only a classed, non-empty Div that does not start with a RawBlock and has no theorem class becomes a "div" block labelled with its classes joined by spaces. Anything else comes back unchanged. |
| `Directives.GenericDivSpec` | latex_to_myst/directives.py:44-68 | A non-candidate comes back as it is. A candidate becomes a Div framing its own children under a `div` fence labelled with its classes, with its level recorded and the labels untouched. |
| `AmsMath.NumberEnd` | latex_to_myst/math.py:95 | The end of the longest run of `[0-9\|. ]` characters. |
| `AmsMath.TitledAtIsMatch` | latex_to_myst/math.py:95-96 | The titled matcher accepts exactly the matches of `(Kind [0-9\|. ]*)\(([^)]*)\)\.?` at a position. |
| `AmsMath.SearchTitled` | latex_to_myst/math.py:107-110 | The leftmost titled match, or None when there is none. |
| `AmsMath.SearchUntitled` | latex_to_myst/math.py:99 | The leftmost `Kind ` occurrence with its number run, or None exactly when `Kind ` never occurs. |
| `AmsMath.Boilerplate` | latex_to_myst/math.py:99-116 | No boilerplate iff `Kind ` never occurs. Otherwise it is the leftmost titled match when there is one, else the leftmost untitled one. |
| `AmsMath.FirstStr` | latex_to_myst/math.py:92-93 | The first walk position holding a Str equal to the keyword, or None when there is none. |
| `AmsMath.ReplaceAtShape` | latex_to_myst/math.py:92-93 | Replacing a leaf by a leaf changes the walk at that one position only. |
| `AmsMath.ReplaceKeywordSpec` | latex_to_myst/math.py:92-93 | Without the keyword the Div is unchanged. Otherwise only its first occurrence in walk order is replaced, and every other node keeps identity and text. |
| `AmsMath.RemoveIdsShape` | latex_to_myst/math.py:119-142 | Removing the nodes of a covered walk prefix leaves the walk from the first uncovered node on, with identities and texts kept. |
| `AmsMath.FirstSupported` | latex_to_myst/math.py:75-81 | The kind is the first class in the list that is a supported theorem kind. |
| `AmsMath.MarkedDiv` | latex_to_myst/math.py:71-84 | The Div gets the resolved identifier and, for a "nonumber" class, the "nonumber" attribute. Its children are untouched. |
| `AmsMath.PreparedDivSpec` | latex_to_myst/math.py:86 | After marking and emphasis removal no Emph remains, and the walk and text are unchanged. |
| `AmsMath.StripBoilerplateLabel` | latex_to_myst/math.py:107-116 | Without boilerplate nothing changes. The label is the title of the leftmost titled match, or "" without one. |
| `AmsMath.StripBoilerplateRemoval` | latex_to_myst/math.py:119-142 | Exactly the scanned walk prefix is removed. No match leaves the Div unchanged, and a full match empties it. |
| `AmsMath.CleanAmsthmSpec` | latex_to_myst/math.py:86-142 | A proof has its first "Proof." emptied, using one fresh identity, and no label. Other kinds lose their boilerplate and take the title as label, leaving the tables untouched. |
| `AmsMath.AmsthmIdentifierKey` | latex_to_myst/directives.py:140-146 | For a theorem-like Div the identifier is written under "label", except for proofs, which use "name". |
| `AmsMath.CreateAmsthmBlocks` | latex_to_myst/math.py:47-52 | A Div with no theorem class comes back unchanged, with the side tables. |
| `AmsMath.AmsthmBlockSpec` | latex_to_myst/math.py:146-155 | The block is a Div framing the cleaned content with a `prf:<kind>` fence labelled with the title. The level is recorded, and the labels are untouched. |
| `AmsMath.DisplayContent` | latex_to_myst/math.py:174-178 | Without a well-formed marker the text is kept and the label is "". Otherwise the label is the marker's non-empty group. |
| `AmsMath.DisplayContentFirst` | latex_to_myst/math.py:177 | Everything before the first marker is kept verbatim, and every later copy of the marker is removed. |
| `AmsMath.CreateDisplaymath` | latex_to_myst/math.py:158-182 | As written (see Findings): anything but display math comes back unchanged, and display math always raises AttributeError, at line 178 with a label marker and at line 179 without one. |
| `AmsMath.DisplaymathRaises` | latex_to_myst/math.py:178-182 | Every display formula makes the builder as written raise AttributeError, while the corrected builder frames it in a Span. |
| `AmsMath.DisplayElem` | latex_to_myst/math.py:178 | Corrected (see Findings): a found label becomes the element's identifier. Without one the element is unchanged. |
| `AmsMath.CreateDisplaymathCorrected` | latex_to_myst/math.py:170-182 | Corrected (see Findings): anything but display math comes back unchanged. Display math takes one identity for the formula and three for the block. |
| `AmsMath.DisplaymathSpec` | latex_to_myst/math.py:180-182 | Corrected (see Findings): the block is a Span framing one raw node that holds the formula with its marker cut out, at the element's level. |
| `AmsMath.DisplaymathHeader` | latex_to_myst/math.py:174-182 | Corrected (see Findings): a found label is written under "label" in the header's front matter. Without one the header has no front matter. |
| `AmsMath.MathAction` | latex_to_myst/math.py:185-197 | The pass fails exactly on display math, and then with AttributeError. Inline math is replaced by itself, and any node other than math or a classed Div is kept, the side tables unchanged. |
| `AmsMath.MathActionSpec` | latex_to_myst/math.py:185-197 | A theorem Div is replaced by one Div framing its cleaned content under a `prf:<kind>` fence labelled with the title. Display math raises AttributeError. Another classed Div is replaced by itself unless it is a generic candidate, which becomes one Div framing its children under a `div` fence labelled with its classes. On success the labels are untouched and the element's level is recorded. |
| `Hyperlink.RoleFor` | latex_to_myst/hyperlink.py:26-34 | A role is chosen exactly for the six listed type strings, tested in the order of hyperlink.py. |
| `Hyperlink.RoleText` | latex_to_myst/hyperlink.py:27 | The text is `{role}` followed by the target in backticks. |
| `Hyperlink.RoleOfTarget` | latex_to_myst/hyperlink.py:22-34 | Classifying a target and then picking its role gives the role expected for its node kind. Every classified target gets a role, so the error branch at line 34 is unreachable. |
| `Hyperlink.CleanUrl` | latex_to_myst/hyperlink.py:11-12 | Spaces are removed iff the URL mentions "http". |
| `Hyperlink.CleanUrlIdempotent` | latex_to_myst/hyperlink.py:11-12 | A cleaned web URL has no space left, and cleaning twice changes nothing more. |
| `Hyperlink.Cleared` | latex_to_myst/hyperlink.py:18-19 | The attributes are emptied and the URL becomes the target. Identifier, classes and children are kept. |
| `Hyperlink.Resolve` | latex_to_myst/hyperlink.py:21-38 | A reference rewrite touches no table but the identity counter. |
| `Hyperlink.LinkAction` | latex_to_myst/hyperlink.py:8-38 | Non-links are kept. A link without attributes gets a cleaned URL. Attributes without "reference" keep the link. A "reference" is resolved. The action never fails. |
| `Hyperlink.ReferenceSpec` | latex_to_myst/hyperlink.py:15-38 | An unknown target gives a fresh `{ref}` node, and a target with a role gives a fresh node for that role. Any other target gives the cleared link. |
| `Basic.IsIsolatedLabel` | latex_to_myst/basic.py:10-23 | None gives no label, and a node without children is an AttributeError. A label is returned only for a single labelled Span whose stripped text is `[label]`. |
| `Basic.HeaderLabel` | latex_to_myst/basic.py:40-50 | The anchor is the next paragraph's non-empty isolated label, else the header's identifier. It fails exactly when that check fails. |
| `Basic.BasicAction` | latex_to_myst/basic.py:26-61 | Only Headers can fail. A node is deleted only if it is an isolated-label paragraph or a reference word before a link. Every paragraph whose isolated label is non-empty is deleted, and every other paragraph is kept. Nodes other than Headers and Divs leave the tables alone. |
| `Basic.LabelParaIsIsolated` | latex_to_myst/basic.py:10-23 | The paragraph LaTeX's `\label{l}` produces is recognised, with its own label. |
| `Basic.LabelParaDeleted` | latex_to_myst/basic.py:28-29 | Such a paragraph with a non-empty label is deleted. |
| `Basic.StrSpec` | latex_to_myst/basic.py:31-38 | A Str disappears exactly when it is "section", "figure" or "fig" (any case) and a Link follows within two siblings. Otherwise it stays. |
| `Basic.HeaderSpec` | latex_to_myst/basic.py:40-54 | The header is recorded under its identity with its anchor, the only change to the tables. It loses identifier and classes and keeps attributes and children. |
| `Basic.HeaderTakesNextLabel` | latex_to_myst/basic.py:41-48 | A header followed by a label paragraph anchors that label. |
| `Basic.CodeBlockSpec` | latex_to_myst/basic.py:56-58 | A code block keeps identifier, classes and text and loses its key/value attributes. |
| `Basic.DivSpec` | latex_to_myst/basic.py:60-61 | A Div is replaced by itself, tables unchanged, unless it is a generic candidate (classes, children, no leading raw block, no theorem class). A candidate becomes one Div framing its children under a `div` fence labelled with its classes; its level is recorded and the labels are untouched. |
| `Pipeline.LevelTableKeys` | latex_to_myst/main.py:41-48 | An identity is in the level table iff some walked directive block has it. |
| `Pipeline.LevelTableLast` | latex_to_myst/main.py:43-46 | The level recorded is `directive_level` of the last directive walked under that identity. |
| `Pipeline.LevelOfEveryDirective` | latex_to_myst/main.py:41-48 | With distinct identities every directive of the walk has its own level recorded. |
| `Pipeline.RegisterAll` | latex_to_myst/main.py:54-63 | Registering a node under some keys maps exactly those keys to it and leaves the others alone. |
| `Pipeline.RegisteredKeys` | latex_to_myst/main.py:52-65 | A key is registered iff some walked node registers it. |
| `Pipeline.RegisteredLast` | latex_to_myst/main.py:52-65 | A registered key maps to a node that registers it, with no later node registering it. |
| `Pipeline.LabelTableSpec` | latex_to_myst/main.py:52-65 | A key is in `element_labels` iff some walked node has it as identifier or first display-math marker. It maps to the last such node. |
| `Pipeline.DisplayLabelRegistered` | latex_to_myst/main.py:55-59 | A display formula's `\label{X}` is registered to it unless a later node claims X. |
| `Pipeline.MaxId` | latex_to_myst/main.py:71-77 | The bound is at least every identity in the document, so counters above it are fresh. |
| `Pipeline.Prepare` | latex_to_myst/main.py:36-68 | Preparation starts with no recorded headers and no substitutions. |
| `Pipeline.IndexOf` | latex_to_myst/main.py:32 | `list.index`: the first position with that identity, or None when there is none. |
| `Pipeline.InsertAt` | latex_to_myst/main.py:33 | `list.insert`: the node goes at the index, with the prefix kept and the rest shifted by one. |
| `Pipeline.FinalizeFrom` | latex_to_myst/main.py:29-33 | Each anchor adds one block, and the only failure is `index`'s ValueError. |
| `Pipeline.FigureNodeIdentity` | latex_to_myst/main.py:24 | A pass whose action keeps every node leaves the tree and the tables as they were. |
| `Pipeline.PassErrors` | latex_to_myst/main.py:21-26 | A pass can raise at most AttributeError, and the Math and Basic passes can raise it. |
| `Pipeline.NodeErrors` | latex_to_myst/main.py:72-77 | Walking a node fails only with an error its pass's action can raise. |
| `Pipeline.RunErrors` | latex_to_myst/main.py:21-26 | Running the passes fails only with AttributeError, raised by the Math pass on display math or by the Basic pass. |
| `Pipeline.MathPassFailure` | latex_to_myst/math.py:185-197 | The Math pass over a list of blocks fails exactly when some node of their walk is display math, and then with AttributeError. |
| `Pipeline.MathNodeFailure` | latex_to_myst/math.py:185-197 | The Math pass over one node fails exactly when its subtree holds display math. |
| `Pipeline.DisplayMathFailsConversion` | latex_to_myst/main.py:21-26 | The Math pass runs first, so a document holding display math anywhere fails to convert with AttributeError. |
| `Pipeline.ConvertErrors` | latex_to_myst/main.py:71-77 | A conversion fails only with AttributeError or `finalize`'s ValueError. |
| `Pipeline.FinalizeFailure` | latex_to_myst/main.py:31-32 | `finalize` fails exactly when some recorded header is not a top-level block. |
| `Pipeline.FinalizeRestores` | latex_to_myst/main.py:29-33 | Removing the anchors from the finalized document gives the document back. |
| `Pipeline.EveryHeaderAnchored` | latex_to_myst/main.py:31-33 | Every recorded header stands immediately after an anchor carrying its label. |
| `Figures.BreakPiecesSpec` | latex_to_myst/figures.py:20-30 | Every line starts with the indent and ends with a newline, and there is one line per block number. The lines' words, read in order, are the pieces. |
| `Figures.BreakLongStringSpec` | latex_to_myst/figures.py:15-32 | The output starts with the indent and ends with a newline. Its words are the input's pieces split on single spaces, and joining them with spaces gives the input. |
| `Figures.FirstUnitMatchIsLeftmost` | latex_to_myst/figures.py:46-48 | The first match of `([0-9\|.]*)(unit)` is the leftmost, and its prefix is the longest run before the unit. |
| `Figures.Width` | latex_to_myst/figures.py:46-51 | A value without the unit is unchanged. A bare unit gives "100%", and a numeric prefix gives its percentage. A malformed prefix is a ValueError. |
| `Figures.PrefixedWidth` | latex_to_myst/figures.py:48-49 | A width written as a prefix and the unit becomes the prefix's percentage, whatever follows. |
| `Figures.WidthValue` | latex_to_myst/figures.py:46-57 | The two rewrites fail only with ValueError. |
| `Figures.BareWidthIsFull` | latex_to_myst/figures.py:50-51 | A bare `\textwidth` or `\linewidth` is "100%". |
| `Figures.AttrString` | latex_to_myst/figures.py:42-58 | The attribute lines fail only with ValueError. |
| `Figures.AttrStringPlain` | latex_to_myst/figures.py:43-58 | Without widths the lines are `:name: value` for every attribute but "height", in order. |
| `Figures.ImageContentSpec` | latex_to_myst/figures.py:60-70 | The content opens with the name line iff the image has an identifier. It carries the attribute lines iff there are any, and drops the caption exactly when the text is "image". |
| `Figures.BuildImage` | latex_to_myst/figures.py:35-71 | Building fails iff the attribute lines do, and only the identity counter moves. |
| `Figures.CreateImage` | latex_to_myst/figures.py:35-71 | A non-Image gives nothing. An Image fails exactly when its attributes do. |
| `Figures.BuildImageUnleveled` | latex_to_myst/figures.py:71 | Without a level entry the image comes back as it is. |
| `Figures.BuildImageSpec` | latex_to_myst/figures.py:65-71 | With a level entry the image takes the "figure" form labelled with its URL around its content. |
| `Figures.SubstitutionKey` | latex_to_myst/figures.py:83-85 | The key reads `figure-<n>` and ends with the identifier. |
| `Figures.NumberedKeyUnique` | latex_to_myst/figures.py:83-85 | A key carries one number only. |
| `Figures.FreshKey` | latex_to_myst/figures.py:87 | With keys numbered by position the next key is never present, so the assertion cannot fire. |
| `Figures.DuplicateKeyFires` | latex_to_myst/figures.py:87 | A table holding "figure-1" alone makes the next image's key collide, and the assertion fires. |
| `Figures.GridStep` | latex_to_myst/figures.py:79-98 | A step fails only on an image, with AssertionError exactly when the key is taken, or with ValueError. |
| `Figures.StepSpec` | latex_to_myst/figures.py:80-98 | A row break only opens a row. An image closes the row, is stored under the next key, and adds its `* - ` or `  - ` line. |
| `Figures.GridFold` | latex_to_myst/figures.py:79-98 | The loop fails only with AssertionError or ValueError. |
| `Figures.GridCounts` | latex_to_myst/figures.py:79-98 | One line and one stored entry per image. Earlier entries are untouched, and only substitutions and the counter change. |
| `Figures.GridRows` | latex_to_myst/figures.py:78-94 | After the loop a row is open exactly when no image came since the last row break. |
| `Figures.GridLineAt` | latex_to_myst/figures.py:79-98 | The image at position i gets line j, where j counts the images before it. That line starts a row exactly when the row was open, and the image is stored as entry base + j. |
| `Figures.GridKeysNumbered` | latex_to_myst/figures.py:83-89 | Numbered keys stay numbered, and the only failure left is ValueError. |
| `Figures.CreateSubplots` | latex_to_myst/figures.py:135-165 | Non-Para/Table is a TypeError. It fails exactly when the loop does, and never by AssertionError on numbered tables. |
| `Figures.SubplotsBuilt` | latex_to_myst/figures.py:142-165 | The result is the list-table block over the loop's lines. Without a level entry the element comes back. |
| `Figures.SubplotsSpec` | latex_to_myst/figures.py:151-165 | A leveled subplot takes the list-table form around its label line and image lines. |
| `LegacyDirective.SupportedLegacyExtends` | latex_to_myst/directive.py:28-45 | The older list is the newer one plus exactly "result" and "center". |
| `LegacyDirective.IsDirectiveBlock` | latex_to_myst/directive.py:118-129 | Directive iff display math, a Div with a supported class, an Image, or a Para/Table with two images. |
| `LegacyDirective.AgreesWithNewer` | latex_to_myst/directive.py:118-129 | Only Divs tell the revisions apart. An unsupported Div is a directive only in the newer one. |
| `LegacyDirective.LevelNoDeeperThanNewer` | latex_to_myst/directive.py:132-159 | The older level never exceeds the newer one. |
| `LegacyDirective.Ancestor` | latex_to_myst/directive.py:61-71 | `ancestor(k)` is the k-th enclosing node, or None beyond the chain. |
| `LegacyDirective.FiguresIn` | latex_to_myst/directive.py:48-58 | A missing ancestor is an AttributeError, and an existing one gives its two-image test. |
| `LegacyDirective.ImageInSubplot` | latex_to_myst/directive.py:61-71 | It fails exactly without a parent paragraph when the cell chain runs out. A true answer means some ancestor holds two images. |
| `LegacyDirective.SubplotIsDirective` | latex_to_myst/directive.py:61-71 | An image is in a subplot exactly when its paragraph, or the table around its cell, is a subfigure directive. |
| `LegacyDirective.CreateDirectiveBlock` | latex_to_myst/directive.py:74-115 | A non-directive or unleveled element comes back with the tables. A leveled one becomes a fresh node, and only the counter moves. |
| `LegacyDirective.DivFormSpec` | latex_to_myst/directive.py:97-104 | The Div form puts the opening fence, type and label, then the content, then the same fence, with three fresh identities. |
| `LegacyDirective.InlineFormSpec` | latex_to_myst/directive.py:106-114 | The inline form puts a line break of its own (panflute instantiates the `pf.SoftBreak` class it is given), the opening line, the content, and then the fence between newlines. |
| `LegacyDirective.OuterFenceWider` | latex_to_myst/directive.py:132-159 | Nested directives get strictly narrower fences. |
| `Declarative.IsDeclarativeBlock` | latex_to_myst/declarative.py:80-94 | The test is exactly directive.py's. |
| `Declarative.LevelIsLegacyLevel` | latex_to_myst/declarative.py:97-118 | The level is directive.py's level. |
| `Declarative.ImageInSubplot` | latex_to_myst/declarative.py:33-43 | The code is directive.py's. |
| `Declarative.CreateDeclarativeBlock` | latex_to_myst/declarative.py:46-77 | A non-declarative or unleveled node comes back. Otherwise the content is framed in order, with three fresh identities. |
| `Declarative.DeclarativeForm` | latex_to_myst/declarative.py:60-77 | The header holds the fence and `{type}` with no label, and the footer holds the same fence. Inline blocks put each on its own line. |
| `Declarative.OuterFenceWider` | latex_to_myst/declarative.py:97-118 | Nested declarative blocks get strictly narrower fences. |
| `LegacyMath.DropLabelledClean` | latex_to_myst/latex_math.py:149-158 | Dropping labelled Spans leaves none behind. |
| `LegacyMath.SpanIdentifierSpec` | latex_to_myst/latex_math.py:146-158 | Without its own identifier the Div keeps no labelled Span, and every other child is kept in order. The identifier is the last such Span's label. A Div without labelled Spans comes back unchanged with identifier "". |
| `LegacyMath.DropLabelledUnchanged` | latex_to_myst/latex_math.py:149-156 | A subtree holding no labelled Span is returned unchanged by the walk. |
| `LegacyMath.Unlabelled` | latex_to_myst/latex_math.py:153-155 | The surviving children hold no labelled Span, each comes from the original list, and every child that is not a labelled Span is among them. |
| `LegacyMath.DropLabelledSeqKeeps` | latex_to_myst/latex_math.py:149-156 | The children after the walk are exactly the children that are not labelled Spans, in order, each cleaned the same way. |
| `LegacyMath.StripLegacy` | latex_to_myst/latex_math.py:170-212 | No children is an IndexError, and no `Kind ` in the first child is a RuntimeError. Otherwise it succeeds, keeping identity and attributes. |
| `LegacyMath.StripLegacySpec` | latex_to_myst/latex_math.py:177-212 | The label is the leftmost titled match's title, and the matched walk prefix is removed. No match leaves the Div unchanged, and a match of the whole walk empties it. |
| `LegacyMath.Cleanup` | latex_to_myst/latex_math.py:165-212 | "center" is untouched, and "proof" gets no label. |
| `LegacyMath.Preamble` | latex_to_myst/latex_math.py:214-219 | The preamble is `:label: id` when there is an identifier and `:nonumber:` for nonumber, in that order. |
| `LegacyMath.CreateAmsthmBlocks` | latex_to_myst/latex_math.py:112-228 | An unsupported Div comes back. Failures are the clean-up's IndexError or RuntimeError. |
| `LegacyMath.AmsthmBlockSpec` | latex_to_myst/latex_math.py:214-225 | A successful block is a fresh Div. Its opening fence carries `prf:<first class>` and the title, then come the preamble, the cleaned children, and the closing fence. |
| `LegacyMath.NoNonumberBoilerplate` | latex_to_myst/latex_math.py:171-175 | A "nonumber" kind without "Nonumber " text fails with RuntimeError. |
| `LegacyMath.FirstClassIsKind` | latex_to_myst/latex_math.py:162 | The kind is the first class, so a theorem Div listing "nonumber" first fails. |
| `LegacyMath.DisplayContent` | latex_to_myst/latex_math.py:246-250 | A `\label` without a well-formed marker is an IndexError. Otherwise the result is the newer revision's cleaned text and label. |
| `LegacyMath.CreateDisplaymath` | latex_to_myst/latex_math.py:231-261 | Other nodes come back. Display math fails exactly on a malformed marker (IndexError) or a missing level (AttributeError). |
| `LegacyMath.DisplaymathSpec` | latex_to_myst/latex_math.py:251-261 | The block is a Span: a newline, then the opening line, then the label line between line breaks, then the cleaned formula, then the fence. |
| `Text.LStripSpec` | latex_to_myst/basic.py:21 | `lstrip` drops exactly the leading run of stripped characters. |
| `Text.RStripSpec` | latex_to_myst/basic.py:21 | `rstrip` drops exactly the trailing run. |
| `Text.JoinSplit` | latex_to_myst/figures.py:17-20 | Joining a split with its separator gives the string back. |
| `Text.JoinSplitRemoves` | latex_to_myst/hyperlink.py:12 | Joining a split with nothing drops every separator. |
| `Text.ReplaceAllFirst` | latex_to_myst/math.py:177 | `replace` copies everything before the first occurrence verbatim. |
| `Text.NatToStringInjective` | latex_to_myst/figures.py:83 | Different numbers have different numerals. |
| `Tree.PutLookup` | latex_to_myst/basic.py:51 | After `d[k] = v`, k gives v and other keys are unchanged. |
| `Tree.DelLookup` | latex_to_myst/helpers.py:200-201 | After `pop(k)`, k is gone and other keys are unchanged. |
| `Tree.PutAllLookup` | latex_to_myst/directives.py:149-150 | After `update`, the update's keys win and others are unchanged. |

## Left out

- Dependencies are modelled structurally, not line for line:
  - panflute's internals: `walk` is taken to be post-order (children first, left to right), and the element type checks are the `Node` constructors;
  - the Jinja templates: rendered structurally, as fence, `{type}`, label, and a `---` front-matter block;
  - regular expressions: modelled as position-wise matchers.
- Logging, the command-line front end (`cli.py`) and pandoc I/O are not modelled.
- The `Doc` root is represented by its list of top-level blocks.
- Python object identity is modelled as the `id` field. Nodes created by the filters take fresh identities from a counter that starts above every identity in the input.
- `MARKDOWN_LINEBREAK_ELEM` is one shared object with one fixed identity.
- The `Figure` entry of `ACTIONS` names an `action` that `figures.py` does not define. The pass is modelled as leaving every node unchanged (`Pipeline.FigureNodeIdentity`).
- `create_image` and `create_subplots` are modelled on their own.
- Table structure:
  - the children of a Table are one list whose first element stands for the head slot;
  - that head slot is the only one `directive_level` inspects, because of the early `return` inside its loop.
- `float(...)` in the width conversion is a function parameter. `None` stands for the ValueError of a malformed number.
- `Figures.BreakLongStringSpec`:
  - assumes `max_len > 0`;
  - numpy arrays are modelled as sequences;
  - the discarded `rstrip` result means the final newline stays, and both the as-written and the corrected breaker keep it.
- `create_subplots`:
  - it does not model the `substitutions` metadata entry's creation or the `MetaInlines` wrapping;
  - Para and Table nodes carry no `title`, so their caption is "".
- The quote characters that `stringify_until_match` adds around the children of a `Quoted` node (helpers.py:160-165) are not modelled. `Quoted` is not one of the modelled node kinds.
- `Directives.ResolveLevel` does not model the `AttributeError` and generic-exception branches of the level lookup (directives.py:122-128). `prepare` always creates `element_levels` before any pass runs.
- `Directives.BlockChildren`:
  - `need_before` is computed but overwritten (directives.py:171-173), so it has no effect;
  - the trailing `None` filter has no effect, since no child is `None`.
- `LegacyDirective.ImageInSubplot` takes the chain of enclosing nodes as a parameter. The model has no parent pointers.
- `elem_has_multiple_figures` and `SUPPORTED_AMSTHM_BLOCKS` are modelled once each; the copies in `declarative.py` and `directive.py` are identical to the ones modelled. `image_in_subplot` is modelled twice, as `LegacyDirective.ImageInSubplot` and `Declarative.ImageInSubplot`, and the second is proved equal to the first.
- `Helpers.GetBlockIdentifier` does not model re-creating a missing `element_labels` table. `prepare` always creates it.
- `Basic.IsIsolatedLabel`: Python's truthiness of the returned label is modelled as "non-empty".
- `AmsMath.CreateAmsthmBlocks`: the `except` branch of math.py:146-155, which logs and returns None, is not modelled. The builder it guards cannot fail in the model, so that branch is never reached.
- `pf.SoftBreak` named as a class in directive.py:107 and latex_math.py:252-257 is modelled as a fresh SoftBreak node. panflute's container type check instantiates a class it is handed.
- `str.lower()` and `str.capitalize()` map ASCII letters only (`Text.Lower`, `Text.Capitalize`). `Basic.StrSpec` compares a lowered word with "section", "figure" and "fig", and no non-ASCII character lowers onto one of their letters alone. `AmsMath` capitalizes only supported class names, which are ASCII.
- `LegacyMath.StripLegacy` capitalizes `classes[0]`, which may be any class, and places it in the pattern unescaped (latex_math.py:162,171). The model matches the capitalized class literally, with ASCII case mapping. It therefore differs from latex_math.py in three cases: a class whose first letter is non-ASCII ("élan" gives "Élan" in Python); a class holding a regex metacharacter such as "." (which matches any character in Python); and a class holding an unbalanced "(" or "[", for which Python raises `re.error`, uncaught.
- Helper functions that `math.py` and `latex_math.py` import from the other modules are the shared models (`Helpers`, `Directives`, `LegacyDirective`). `latex_math.py` does not import `remove_emph` (latex_math.py:21-29) or `stringify_until_match` (latex_math.py:38-109); it defines its own copies, which are identical to those in `helpers.py`, and `LegacyMath` uses the `Helpers` models of them.
- `Tree.Node`: the Math kind carries a `mathId` slot that panflute's Math does not have. It stands for the identifier math.py:178 means to set, and only the corrected `AmsMath.CreateDisplaymathCorrected` (through `AmsMath.DisplayElem`) writes or reads it. The as-written `AmsMath.CreateDisplaymath` raises before either, and the label table of `main.py` never reads it.

## Findings

| source | as written | input that shows it | evidently intended | confidence | as-written member | corrected member |
|---|---|---|---|---|---|---|
| latex_to_myst/math.py:178-179 | panflute's Math declares only `format` and `text` in its slots. Line 178 assigns `identifier`, and line 179 reads it, so every display formula raises AttributeError and the Math pass, uncaught, fails the whole conversion. | `create_displaymath(Math("x", format="DisplayMath"), doc)` raises at line 179; with the text `x \label{e}` it raises at line 178. | The formula becomes a `math` directive labelled with its marker's label, as the docstring at math.py:160-167 shows. | not executed | `AmsMath.DisplaymathRaises` | `AmsMath.CreateDisplaymathCorrected` |
| latex_to_myst/figures.py:17-20 | Joining the pieces of a split on " " with " " gives the string back unchanged, so runs of spaces survive. | `break_long_string("a  b", 70, 0)` returns "a  b\n". | Runs of spaces collapse to one, as the comment on line 19 says. | not executed | `Figures.AsWrittenKeepsRuns` | `Figures.CollapsedSpec` |

=== FILE: basic.dfy ===
/** The Basic pass (`latex_to_myst/basic.py`): label-only paragraphs disappear, the words
    "section"/"figure"/"fig" in front of a reference disappear, header identifiers move to the
    side table that `finalize` turns into anchors, code blocks lose their attributes and
    classed Divs become generic directive blocks. */
module Basic {
  import opened Wrappers
  import opened Text
  import opened Tree
  import opened Directives

  /** The characters `is_isolated_label` strips from the paragraph text. */
  const LabelJunk: set<char> := {' ', '\n', '\r'}

  /** `is_isolated_label`: the label of a node that holds nothing but one labelled Span whose
      text is "[label]" (up to surrounding blanks). No node gives None; a node without
      children (no `content` attribute) raises AttributeError. The label may be "", which the
      callers in basic.py treat as false. */
  function IsIsolatedLabel(n: Option<Node>): (r: Result<Option<string>>)
    ensures n.None? ==> r == Success(None)
    ensures n.Some? && !IsContainer(n.value) ==> r == Failure(AttributeError)
    ensures n.Some? && IsContainer(n.value) ==> r.Success?
    ensures r.Success? && r.value.Some? ==>
              && n.Some? && |Kids(n.value)| == 1 && Kids(n.value)[0].Span?
              && Lookup(Kids(n.value)[0].attr.attributes, "label") == r.value
              && StripChars(Stringify(n.value), LabelJunk) == "[" + r.value.value + "]"
  {
    match n
    case None => Success(None)
    case Some(e) =>
      if !IsContainer(e) then Failure(AttributeError)
      else if |e.content| == 1 && e.content[0].Span? then
        (match Lookup(e.content[0].attr.attributes, "label")
         case Some(l) =>
           if StripChars(Stringify(e), LabelJunk) == "[" + l + "]" then Success(Some(l))
           else Success(None)
         case None => Success(None))
      else Success(None)
  }

  /** Python truthiness of `is_isolated_label`'s result: a non-empty label. */
  predicate Truthy(r: Result<Option<string>>) {
    r.Success? && r.value.Some? && r.value.value != ""
  }

  // ---------------------------------------------------------------- a label paragraph

  /** The paragraph LaTeX's `\label{l}` turns into: one Span carrying the label, showing "[l]". */
  function LabelPara(pid: nat, sid: nat, tid: nat, l: string): Node {
    Para(pid, [Span(sid, Attr("", [], [("label", l)]), [Str(tid, "[" + l + "]")])])
  }

  lemma LStripKeeps(s: string, cs: set<char>)
    requires |s| > 0 && s[0] !in cs
    ensures LStrip(s, cs) == s
  {
  }

  /** Stripping a tail made only of stripped characters leaves the part before it. */
  lemma {:induction false} RStripTail(s: string, t: string, cs: set<char>)
    requires |s| > 0 && s[|s| - 1] !in cs
    requires forall i :: 0 <= i < |t| ==> t[i] in cs
    ensures RStrip(s + t, cs) == s
    decreases |t|
  {
    if |t| > 0 {
      var u := t[..|t| - 1];
      assert (s + t)[..|s + t| - 1] == s + u;
      assert (s + t)[|s + t| - 1] == t[|t| - 1];
      RStripTail(s, u, cs);
    } else {
      assert s + t == s;
    }
  }

  lemma LabelParaWalk(pid: nat, sid: nat, tid: nat, l: string)
    ensures var p := LabelPara(pid, sid, tid, l);
            Walk(p) == [p.content[0].content[0], p.content[0], p]
  {
    var p := LabelPara(pid, sid, tid, l);
    var span := p.content[0];
    var str := span.content[0];
    assert WalkSeq(span.content) == [str];
    assert WalkSeq(p.content) == [str, span];
  }

  lemma ConcatThree(a: Node, b: Node, c: Node)
    ensures Concat([a, b, c]) == Piece(a) + Piece(b) + Piece(c)
  {
    var w := [a, b, c];
    assert w[2..] == [c] && Concat([c]) == Piece(c);
    assert w[1..] == [b, c] && Concat([b, c]) == Piece(b) + Concat([c]);
  }

  lemma LabelParaText(pid: nat, sid: nat, tid: nat, l: string)
    ensures Stringify(LabelPara(pid, sid, tid, l)) == "[" + l + "]" + "\n\n"
  {
    var p := LabelPara(pid, sid, tid, l);
    LabelParaWalk(pid, sid, tid, l);
    ConcatThree(p.content[0].content[0], p.content[0], p);
  }

  /** Every label paragraph is recognised, with its own label. */
  lemma {:induction false} LabelParaIsIsolated(pid: nat, sid: nat, tid: nat, l: string)
    ensures IsIsolatedLabel(Some(LabelPara(pid, sid, tid, l))) == Success(Some(l))
  {
    var x := "[" + l + "]";
    LabelParaText(pid, sid, tid, l);
    assert StripChars(x + "\n\n", LabelJunk) == x by {
      LStripKeeps(x + "\n\n", LabelJunk);
      RStripTail(x, "\n\n", LabelJunk);
    }
  }

  // ---------------------------------------------------------------- the action

  /** The words basic.py drops in front of a link. */
  predicate RefWord(s: string) {
    Lower(s) in {"section", "figure", "fig"}
  }

  /** The next sibling, or the one after it, is a Link. */
  predicate LinkAhead(sib: Siblings) {
    (sib.next.Some? && sib.next.value.Link?) || (sib.next.Some? && sib.next2.Some? && sib.next2.value.Link?)
  }

  /** The anchor label a header records: the following paragraph's non-empty isolated label,
      else the header's own identifier. */
  function HeaderLabel(elem: Node, sib: Siblings): (r: Result<string>)
    requires elem.Header?
    ensures r.Failure? <==> IsIsolatedLabel(sib.next).Failure?
    ensures r.Success? && Truthy(IsIsolatedLabel(sib.next)) ==> r.value == IsIsolatedLabel(sib.next).value.value
    ensures r.Success? && !Truthy(IsIsolatedLabel(sib.next)) ==> r.value == elem.attr.identifier
  {
    var iso :- IsIsolatedLabel(sib.next);
    if iso.Some? && iso.value != "" then Success(iso.value) else Success(elem.attr.identifier)
  }

  /** The `action` of basic.py. */
  function BasicAction(elem: Node, sib: Siblings, ctx: Ctx): (r: Result<Step>)
    ensures r.Failure? ==> elem.Header? && r.error == AttributeError
    ensures r.Success? && r.value.outcome.Replace? && r.value.outcome.nodes == [] ==>
              (elem.Para? && Truthy(IsIsolatedLabel(Some(elem)))) || (elem.Str? && LinkAhead(sib) && RefWord(elem.text))
    ensures elem.Para? && Truthy(IsIsolatedLabel(Some(elem))) ==> r == Success(Step(Replace([]), ctx))
    ensures elem.Para? && !Truthy(IsIsolatedLabel(Some(elem))) ==> r == Success(Step(Keep, ctx))
    ensures !elem.Header? && !elem.Div? ==> r.Success? && r.value.ctx == ctx
  {
    if elem.Para? && Truthy(IsIsolatedLabel(Some(elem))) then Success(Step(Replace([]), ctx))
    else if elem.Str? then
      if LinkAhead(sib) && RefWord(elem.text) then Success(Step(Replace([]), ctx))
      else Success(Step(Replace([elem]), ctx))
    else if elem.Header? then
      var anchor :- HeaderLabel(elem, sib);
      var h := Header(elem.id, elem.depth, Attr("", [], elem.attr.attributes), elem.content);
      Success(Step(Replace([h]), ctx.(sections := Put(ctx.sections, elem.id, anchor))))
    else if elem.CodeBlock? then
      Success(Step(Replace([CodeBlock(elem.id, Attr(elem.attr.identifier, elem.attr.classes, []), elem.text)]), ctx))
    else if elem.Div? then
      var b := CreateGenericDivBlock(elem, ctx, sib);
      Success(Step(Replace([b.node]), b.ctx))
    else Success(Step(Keep, ctx))
  }

  /** A label paragraph with a non-empty label is deleted. */
  lemma LabelParaDeleted(pid: nat, sid: nat, tid: nat, l: string, sib: Siblings, ctx: Ctx)
    requires l != ""
    ensures BasicAction(LabelPara(pid, sid, tid, l), sib, ctx) == Success(Step(Replace([]), ctx))
  {
    LabelParaIsIsolated(pid, sid, tid, l);
  }

  /** A Str disappears exactly when it is one of the reference words and a Link follows
      within two siblings; otherwise it stays as it is. */
  lemma StrSpec(elem: Node, sib: Siblings, ctx: Ctx)
    requires elem.Str?
    ensures BasicAction(elem, sib, ctx) ==
              Success(Step(Replace(if LinkAhead(sib) && Lower(elem.text) in {"section", "figure", "fig"} then [] else [elem]), ctx))
  {
  }

  /** A header is recorded under its own identity with its anchor label (the only change to
      the side tables) and loses its identifier and classes; its attributes and children stay. */
  lemma HeaderSpec(elem: Node, sib: Siblings, ctx: Ctx)
    requires elem.Header? && IsIsolatedLabel(sib.next).Success?
    ensures var r := BasicAction(elem, sib, ctx);
      && r.Success? && r.value.outcome.Replace? && |r.value.outcome.nodes| == 1
      && var h := r.value.outcome.nodes[0];
      && h.Header? && h.id == elem.id && h.depth == elem.depth && h.content == elem.content
      && h.attr == Attr("", [], elem.attr.attributes)
      && Lookup(r.value.ctx.sections, elem.id) == Some(HeaderLabel(elem, sib).value)
      && (forall k :: k != elem.id ==> Lookup(r.value.ctx.sections, k) == Lookup(ctx.sections, k))
      && r.value.ctx.(sections := ctx.sections) == ctx
  {
    var anchor := HeaderLabel(elem, sib).value;
    forall k
      ensures Lookup(Put(ctx.sections, elem.id, anchor), k) == if k == elem.id then Some(anchor) else Lookup(ctx.sections, k)
    {
      PutLookup(ctx.sections, elem.id, anchor, k);
    }
  }

  /** A header followed by a label paragraph anchors that label, not its own identifier. */
  lemma HeaderTakesNextLabel(elem: Node, pid: nat, sid: nat, tid: nat, l: string, next2: Option<Node>, prev: Option<Node>)
    requires elem.Header? && l != ""
    ensures HeaderLabel(elem, Siblings(prev, Some(LabelPara(pid, sid, tid, l)), next2)) == Success(l)
  {
    LabelParaIsIsolated(pid, sid, tid, l);
  }

  /** A code block keeps identifier, classes and text and loses its key/value attributes. */
  lemma CodeBlockSpec(elem: Node, sib: Siblings, ctx: Ctx)
    requires elem.CodeBlock?
    ensures var r := BasicAction(elem, sib, ctx).value;
      && r.ctx == ctx && r.outcome.Replace? && |r.outcome.nodes| == 1
      && var c := r.outcome.nodes[0];
      && c.CodeBlock? && c.id == elem.id && c.text == elem.text
      && Ident(c) == Ident(elem) && Classes(c) == Classes(elem) && Attributes(c) == []
  {
  }

  /** A Div is replaced by itself, side tables unchanged, unless it is a generic candidate;
      then it is replaced by one Div framing its children under a "div" fence labelled with its
      classes, with its level recorded and the labels table untouched. */
  lemma DivSpec(elem: Node, sib: Siblings, ctx: Ctx)
    requires elem.Div?
    ensures BasicAction(elem, sib, ctx).Success?
    ensures var r := BasicAction(elem, sib, ctx).value;
            var level := ResolveLevel(elem, ctx).0;
            && r.outcome.Replace? && |r.outcome.nodes| == 1
            && (!GenericDivCandidate(elem) ==> r == Step(Replace([elem]), ctx))
            && (GenericDivCandidate(elem) ==>
                  var d := r.outcome.nodes[0];
                  d.Div? && r.ctx.labels == ctx.labels && r.ctx.levels == ctx.levels[elem.id := level]
                  && Framed(Kids(d), elem.content, level, "div", Join(" ", elem.attr.classes)))
  {
    GenericDivSpec(elem, ctx, sib);
  }
}

=== FILE: declarative.dfy ===
/** latex_to_myst/declarative.py, the oldest revision of the block builder: the same directive
    test and level calculation as directive.py under other names, and blocks that carry the
    block type but no label. */
module Declarative {
  import opened Wrappers
  import opened Text
  import opened Tree
  import opened Helpers
  import Nesting
  import Directives
  import LegacyDirective

  /** `is_declarative_block`: display math, a Div with one of the classes of
      `SUPPORTED_AMSTHM_BLOCKS` (the same list as directive.py's, "result" and "center"
      included), an Image, or a Para or Table holding at least two images. It is the directive
      test of directive.py. */
  function IsDeclarativeBlock(n: Node): (r: bool)
    ensures r == LegacyDirective.IsDirectiveBlock(n)
  {
    IsDisplayMath(n) || (n.Div? && AnyIn(n.attr.classes, LegacyDirective.SupportedLegacy)) || n.Image?
    || (n.Para? && HasMultipleFigures(n)) || (n.Table? && HasMultipleFigures(n))
  }

  /** `declarative_level(elem, doc, starting_level)` */
  function DeclarativeLevel(n: Node, start: nat): (r: nat)
    ensures r >= start + (if IsDeclarativeBlock(n) then 1 else 0)
  {
    Nesting.LevelAtLeastStart(IsDeclarativeBlock, n, start);
    Nesting.Level(IsDeclarativeBlock, n, start)
  }

  /** The level is the one directive.py computes. */
  lemma LevelIsLegacyLevel(n: Node, start: nat)
    ensures DeclarativeLevel(n, start) == LegacyDirective.DirectiveLevel(n, start)
  {
    Nesting.LevelMonotone(IsDeclarativeBlock, LegacyDirective.IsDirectiveBlock, n, start);
    Nesting.LevelMonotone(LegacyDirective.IsDirectiveBlock, IsDeclarativeBlock, n, start);
  }

  /** A declarative node's level is strictly above that of every node on a path the calculation
      inspects below it. */
  lemma DeclarativeAboveNested(n: Node, p: seq<nat>)
    requires IsDeclarativeBlock(n) && Nesting.ValidPath(n, p) && |p| > 0
    ensures DeclarativeLevel(n, 0) > DeclarativeLevel(Nesting.NodeAt(n, p), 0)
  {
    Nesting.DirectiveAboveDescendants(IsDeclarativeBlock, n, p);
  }

  /** `image_in_subplot` of this revision; the code is that of directive.py. */
  function ImageInSubplot(ancestors: seq<Node>): (r: Result<bool>)
    ensures r == LegacyDirective.ImageInSubplot(ancestors)
  {
    if |ancestors| >= 1 && ancestors[0].Para? then Success(HasMultipleFigures(ancestors[0]))
    else if |ancestors| >= 1 && ancestors[0].TableCell? then
      (if |ancestors| >= 4 then Success(HasMultipleFigures(ancestors[3])) else Failure(AttributeError))
    else if |ancestors| >= 2 && ancestors[1].TableCell? then
      (if |ancestors| >= 5 then Success(HasMultipleFigures(ancestors[4])) else Failure(AttributeError))
    else Success(false)
  }

  // ---------------------------------------------------------------- create_declarative_block

  /** The children of a declarative block around `content`; wrapper, header and footer take the
      identities k, k+1 and k+2. */
  function DeclarativeNodes(div: bool, k: nat, level: nat, blockType: string, content: seq<Node>): seq<Node> {
    var f := Directives.Fence(level);
    if div then [RawBlock(k + 1, f + "{" + blockType + "} ")] + content + [RawBlock(k + 2, f)]
    else [RawInline(k + 1, "\n" + f + "{" + blockType + "} ")] + content + [RawInline(k + 2, "\n" + f + "\n")]
  }

  /** `create_declarative_block(elem, doc, content, block_type, create_using)`: an element that
      is not declarative, or has no level entry, comes back as it is; otherwise the content is
      framed between a header naming the block type and a footer of the same fence. */
  function CreateDeclarativeBlock(elem: Node, ctx: Ctx, content: seq<Node>, blockType: string,
                                  using: Directives.Wrap): (r: Directives.Built)
    ensures !IsDeclarativeBlock(elem) || elem.id !in ctx.levels ==> r == Directives.Built(elem, ctx)
    ensures IsDeclarativeBlock(elem) && elem.id in ctx.levels ==>
              r.node.id == ctx.nextId && r.ctx == ctx.(nextId := ctx.nextId + 3)
              && |Kids(r.node)| == |content| + 2 && Kids(r.node)[1..|content| + 1] == content
  {
    if !IsDeclarativeBlock(elem) || elem.id !in ctx.levels then Directives.Built(elem, ctx)
    else
      var cs := DeclarativeNodes(using == Directives.WrapDiv, ctx.nextId, ctx.levels[elem.id], blockType, content);
      Directives.Built(Directives.Wrapped(using, ctx.nextId, cs), ctx.(nextId := ctx.nextId + 3))
  }

  /** The header holds the recorded level's fence followed by the block type and nothing else
      (no label); the footer holds the same fence; inline blocks put each on a line of its own. */
  lemma DeclarativeForm(elem: Node, ctx: Ctx, content: seq<Node>, blockType: string, using: Directives.Wrap)
    requires IsDeclarativeBlock(elem) && elem.id in ctx.levels
    ensures var r := CreateDeclarativeBlock(elem, ctx, content, blockType, using);
            var f := Directives.Fence(ctx.levels[elem.id]);
            var ks := Kids(r.node);
            && r.node == Directives.Wrapped(using, ctx.nextId, ks)
            && (using == Directives.WrapDiv ==>
                  ks[0] == RawBlock(ctx.nextId + 1, f + "{" + blockType + "} ")
                  && ks[|content| + 1] == RawBlock(ctx.nextId + 2, f))
            && (using != Directives.WrapDiv ==>
                  ks[0] == RawInline(ctx.nextId + 1, "\n" + f + "{" + blockType + "} ")
                  && ks[|content| + 1] == RawInline(ctx.nextId + 2, "\n" + f + "\n"))
  {
  }

  /** The label-free header is the label-free opening line of directive.py; only the inline
      framing differs: a leading newline instead of a line-break node, and no newline after the
      block type. */
  lemma HeaderIsUnlabelledOpening(level: nat, blockType: string)
    ensures Directives.Fence(level) + "{" + blockType + "} " == LegacyDirective.OpeningLine(level, blockType, "")
  {
  }

  /** Whatever the block types, a declarative block's fence is strictly wider than the fence of
      any declarative block nested in it when levels are those of `declarative_level`. */
  lemma OuterFenceWider(n: Node, p: seq<nat>)
    requires IsDeclarativeBlock(n) && Nesting.ValidPath(n, p) && |p| > 0
    ensures |Directives.Fence(DeclarativeLevel(n, 0))| > |Directives.Fence(DeclarativeLevel(Nesting.NodeAt(n, p), 0))|
  {
    DeclarativeAboveNested(n, p);
  }
}

=== FILE: directives.dfy ===
/** latex_to_myst/directives.py: which nodes become MyST directive blocks, how deeply they nest,
    and how a block is assembled from a header, the content and a footer. */
module Directives {
  import opened Wrappers
  import opened Text
  import opened Tree
  import opened Helpers
  import Nesting

  /** `is_directive_block`: display math, every Div, every Image, and a Para or Table holding at
      least two images. */
  function IsDirectiveBlock(n: Node): (r: bool)
    ensures r <==> IsDisplayMath(n) || n.Div? || n.Image? || ((n.Para? || n.Table?) && ImagesIn(n) >= 2)
  {
    IsDisplayMath(n) || n.Div? || n.Image? || (n.Para? && HasMultipleFigures(n))
    || (n.Table? && HasMultipleFigures(n))
  }

  /** `directive_level(elem, doc, starting_level)` */
  function DirectiveLevel(n: Node, start: nat): (r: nat)
    ensures r >= start + (if IsDirectiveBlock(n) then 1 else 0)
  {
    Nesting.LevelAtLeastStart(IsDirectiveBlock, n, start);
    Nesting.Level(IsDirectiveBlock, n, start)
  }

  /** A leaf's level is the start, plus one if the leaf is itself a directive. */
  lemma LeafDirectiveLevel(n: Node, start: nat)
    requires !IsContainer(n)
    ensures DirectiveLevel(n, start) == start + (if IsDirectiveBlock(n) then 1 else 0)
  {
  }

  /** The level of a directive node is strictly above that of every node on a downward path the
      calculation inspects, in particular every nested directive. */
  lemma DirectiveAboveNested(n: Node, p: seq<nat>)
    requires IsDirectiveBlock(n) && Nesting.ValidPath(n, p) && |p| > 0
    ensures DirectiveLevel(n, 0) > DirectiveLevel(Nesting.NodeAt(n, p), 0)
  {
    Nesting.DirectiveAboveDescendants(IsDirectiveBlock, n, p);
  }

  /** The level counts the directive nodes on the deepest inspected path. */
  lemma DirectiveLevelIsDeepestPath(n: Node)
    ensures forall p :: Nesting.ValidPath(n, p) ==> Nesting.PathCount(IsDirectiveBlock, n, p) <= DirectiveLevel(n, 0)
    ensures exists p :: Nesting.ValidPath(n, p) && Nesting.PathCount(IsDirectiveBlock, n, p) == DirectiveLevel(n, 0)
  {
    Nesting.LevelIsDeepestPath(IsDirectiveBlock, n);
  }

  // ---------------------------------------------------------------- header and footer

  /** `'`' * (block_level + 2)` */
  function Fence(level: nat): (r: string)
    ensures |r| == level + 2
    ensures forall i :: 0 <= i < |r| ==> r[i] == '`'
  {
    Repeat('`', level + 2)
  }

  /** One "name: val" line per attribute, in order. */
  function AttrLines(attrs: Dict<string, string>): string {
    if |attrs| == 0 then "" else attrs[0].0 + ": " + attrs[0].1 + "\n" + AttrLines(attrs[1..])
  }

  /** `DIRECTIVE_HEADER_TEMPLATE`, structurally: the opening fence with the block type and label,
      then, when there are attributes, a front-matter block delimited by "---" lines. */
  function HeaderText(level: nat, blockType: string, argument: string, attrs: Dict<string, string>): string {
    Fence(level) + "{" + blockType + "} " + argument + "\n"
    + (if |attrs| == 0 then "" else "---\n" + AttrLines(attrs) + "---")
  }

  /** `DIRECTIVE_FOOTER_TEMPLATE` */
  function FooterText(level: nat): string {
    Fence(level)
  }

  /** The header opens with a run of exactly level+2 backticks, the footer is that same run, so
      the closing fence matches the opening one. */
  lemma FenceBalance(level: nat, blockType: string, argument: string, attrs: Dict<string, string>)
    ensures StartsWith(HeaderText(level, blockType, argument, attrs), FooterText(level))
    ensures HeaderText(level, blockType, argument, attrs)[level + 2] == '{'
    ensures forall i :: 0 <= i < |FooterText(level)| ==> FooterText(level)[i] == '`'
  {
    var h := HeaderText(level, blockType, argument, attrs);
    assert h == Fence(level) + ("{" + blockType + "} " + argument + "\n"
                 + (if |attrs| == 0 then "" else "---\n" + AttrLines(attrs) + "---"));
    assert h[..level + 2] == Fence(level);
  }

  /** The fences of a directive block are strictly wider than those of any directive nested in
      it, whatever labels and attributes either carries. */
  lemma OuterFenceWider(n: Node, p: seq<nat>)
    requires IsDirectiveBlock(n) && Nesting.ValidPath(n, p) && |p| > 0
    ensures |FooterText(DirectiveLevel(n, 0))| > |FooterText(DirectiveLevel(Nesting.NodeAt(n, p), 0))|
  {
    DirectiveAboveNested(n, p);
  }

  // ---------------------------------------------------------------- attributes

  /** The key under which the identifier is written: "label" for display math and theorem-like
      blocks, except proofs, and "name" for everything else. */
  function IdentifierKey(elemType: Option<string>, blockType: string): string {
    if (elemType == Some("displaymath") || elemType == Some("amsthm")) && blockType != "prf:proof"
    then "label" else "name"
  }

  /** The front-matter attributes of a block: the identifier under its key, then every attribute
      of the element, which overwrite on a clash. */
  function BlockAttrs(elem: Node, blockType: string, identifier: string): (r: Dict<string, string>)
    ensures DistinctKeys(Attributes(elem)) ==>
              forall k :: HasKey(Attributes(elem), k) ==> Lookup(r, k) == Lookup(Attributes(elem), k)
    ensures DistinctKeys(Attributes(elem)) && identifier != ""
            && !HasKey(Attributes(elem), IdentifierKey(GetElementType(elem), blockType)) ==>
              Lookup(r, IdentifierKey(GetElementType(elem), blockType)) == Some(identifier)
    ensures DistinctKeys(Attributes(elem)) && identifier == "" ==> r == Attributes(elem)
  {
    var key := IdentifierKey(GetElementType(elem), blockType);
    var base: Dict<string, string> := if identifier != "" then [(key, identifier)] else [];
    UpdateLookups(base, Attributes(elem));
    if identifier != "" then
      assert base[0].0 == key;
      if |Attributes(elem)| > 0 then PutAll(base, Attributes(elem)) else base
    else
      PutAllAppendsIf(base, Attributes(elem));
      if |Attributes(elem)| > 0 then PutAll(base, Attributes(elem)) else base
  }

  lemma PutAllAppendsIf(base: Dict<string, string>, a: Dict<string, string>)
    requires base == []
    ensures DistinctKeys(a) ==> PutAll(base, a) == a
  {
    if DistinctKeys(a) {
      PutAllAppends(base, a);
    }
  }

  lemma UpdateLookups(base: Dict<string, string>, a: Dict<string, string>)
    ensures DistinctKeys(a) ==>
              forall k :: Lookup(if |a| > 0 then PutAll(base, a) else base, k)
                          == if HasKey(a, k) then Lookup(a, k) else Lookup(base, k)
  {
    forall k | DistinctKeys(a) ensures Lookup(if |a| > 0 then PutAll(base, a) else base, k)
                     == if HasKey(a, k) then Lookup(a, k) else Lookup(base, k) {
      PutAllLookup(base, a, k);
    }
  }

  // ---------------------------------------------------------------- blocks

  /** The class passed as `create_using`. */
  datatype Wrap = WrapDiv | WrapSpan | WrapPara

  function Wrapped(w: Wrap, id: nat, cs: seq<Node>): (r: Node)
    ensures r.id == id && Kids(r) == cs
    ensures r.Div? <==> w == WrapDiv
  {
    match w
    case WrapDiv => Div(id, NoAttr, cs)
    case WrapSpan => Span(id, NoAttr, cs)
    case WrapPara => Para(id, cs)
  }

  /** The built node and the side tables after building it. */
  datatype Built = Built(node: Node, ctx: Ctx)

  /** The level a block is built at: the recorded one, or a fresh computation that is then
      recorded. */
  function ResolveLevel(elem: Node, ctx: Ctx): (r: (nat, Ctx))
    ensures elem.id in ctx.levels ==> r == (ctx.levels[elem.id], ctx)
    ensures elem.id !in ctx.levels ==> r.0 == DirectiveLevel(elem, 0)
    ensures r.1 == ctx.(levels := ctx.levels[elem.id := r.0])
  {
    if elem.id in ctx.levels then (ctx.levels[elem.id], ctx)
    else
      var level := DirectiveLevel(elem, 0);
      (level, ctx.(levels := ctx.levels[elem.id := level]))
  }

  /** The first line of a header: the opening fence, the block type and the label. */
  function Opening(level: nat, blockType: string, argument: string): string {
    Fence(level) + "{" + blockType + "} " + argument + "\n"
  }

  lemma HeaderOpens(level: nat, blockType: string, argument: string, attrs: Dict<string, string>)
    ensures StartsWith(HeaderText(level, blockType, argument, attrs), Opening(level, blockType, argument))
    ensures StartsWith(HeaderText(level, blockType, argument, attrs) + "\n", Opening(level, blockType, argument))
    ensures EndsWith("\n" + FooterText(level), Fence(level))
  {
    var h := HeaderText(level, blockType, argument, attrs);
    var o := Opening(level, blockType, argument);
    assert h == o + (if |attrs| == 0 then "" else "---\n" + AttrLines(attrs) + "---");
    assert h[..|o|] == o;
    assert (h + "\n")[..|o|] == o;
    assert ("\n" + FooterText(level))[1..] == Fence(level);
  }

  /** `content` framed by an opening and a closing fence of the given level: the header first,
      the content in order right after it, then the footer. */
  predicate Framed(ks: seq<Node>, content: seq<Node>, level: nat, blockType: string, argument: string) {
    |ks| >= |content| + 2 && ks[1..|content| + 1] == content
    && HasText(ks[0]) && StartsWith(ks[0].text, Opening(level, blockType, argument))
    && HasText(ks[|content| + 1]) && EndsWith(ks[|content| + 1].text, Fence(level))
  }

  /** `block_content`: RawBlocks around the content for a block element; for an inline element,
      RawInlines with the header and footer each kept apart from the content by a newline, and
      the shared line break at the end when one is needed after. */
  function BlockChildren(inline: bool, k: nat, header: string, footer: string, content: seq<Node>, after: bool): (cs: seq<Node>)
    ensures |cs| == |content| + 2 + (if inline && after then 1 else 0)
    ensures cs[1..|content| + 1] == content
    ensures !inline ==> cs[0] == RawBlock(k + 1, header) && cs[|content| + 1] == RawBlock(k + 2, footer)
    ensures inline ==> cs[0] == RawInline(k + 1, header + "\n") && cs[|content| + 1] == RawInline(k + 2, "\n" + footer)
    ensures inline && after ==> cs[|cs| - 1] == MarkdownLinebreak
  {
    if !inline then [RawBlock(k + 1, header)] + content + [RawBlock(k + 2, footer)]
    else [RawInline(k + 1, header + "\n")] + content + [RawInline(k + 2, "\n" + footer)]
         + (if after then [MarkdownLinebreak] else [])
  }

  /** `create_directive_block(elem, doc, content, block_type, create_using, label,
      create_identifier_if_not_found)`. `sib` are the element's siblings, used only by the inline
      line-break test. Three fresh identities are taken: the wrapper, the header and the footer. */
  function CreateDirectiveBlock(elem: Node, ctx: Ctx, content: seq<Node>, blockType: string,
                                using: Option<Wrap>, argument: string, create: bool, sib: Siblings): (r: Built)
    ensures !IsDirectiveBlock(elem) ==> r == Built(elem, ctx)
    ensures IsDirectiveBlock(elem) ==> r.node.id == ctx.nextId && r.ctx.nextId == ctx.nextId + 3
  {
    if !IsDirectiveBlock(elem) then Built(elem, ctx)
    else
      var inline := IsInline(elem);
      var wrap := if using.Some? then using.value else if inline then WrapSpan else WrapDiv;
      var (level, ctx1) := ResolveLevel(elem, ctx);
      var res := GetBlockIdentifier(elem, ctx1.labels, create, blockType);
      var attrs := BlockAttrs(res.elem, blockType, res.identifier);
      var cs := BlockChildren(inline, ctx1.nextId, HeaderText(level, blockType, argument, attrs),
                              FooterText(level), content, NeedLinebreak(sib).1);
      Built(Wrapped(wrap, ctx1.nextId, cs), ctx1.(labels := res.labels, nextId := ctx1.nextId + 3))
  }

  /** A directive block frames the content between a header that opens with the block's
      fence, type and label and a footer that closes the same fence. The level is recorded, the
      labels table changes only as the identifier resolution says, and the wrapper takes the
      first fresh identity. */
  lemma DirectiveBlockFrame(elem: Node, ctx: Ctx, content: seq<Node>, blockType: string,
                            using: Option<Wrap>, argument: string, create: bool, sib: Siblings)
    requires IsDirectiveBlock(elem)
    ensures var r := CreateDirectiveBlock(elem, ctx, content, blockType, using, argument, create, sib);
            var level := ResolveLevel(elem, ctx).0;
            r.ctx.levels == ctx.levels[elem.id := level]
            && Framed(Kids(r.node), content, level, blockType, argument)
            && r.ctx.labels == GetBlockIdentifier(elem, ctx.labels, create, blockType).labels
            && r.ctx.sections == ctx.sections && r.ctx.substitutions == ctx.substitutions
            && (using.Some? ==> r.node == Wrapped(using.value, ctx.nextId, Kids(r.node)))
            && (using.None? ==> (r.node.Span? <==> IsInline(elem)) && (r.node.Div? <==> !IsInline(elem)))
  {
    var level := ResolveLevel(elem, ctx).0;
    var res := GetBlockIdentifier(elem, ctx.labels, create, blockType);
    HeaderOpens(level, blockType, argument, BlockAttrs(res.elem, blockType, res.identifier));
  }

  /** The header carries the front matter built from the resolved identifier and the element's
      attributes; an inline element's header ends with a newline of its own. */
  lemma DirectiveBlockHeader(elem: Node, ctx: Ctx, content: seq<Node>, blockType: string,
                             using: Option<Wrap>, argument: string, create: bool, sib: Siblings)
    requires IsDirectiveBlock(elem)
    ensures var r := CreateDirectiveBlock(elem, ctx, content, blockType, using, argument, create, sib);
            var res := GetBlockIdentifier(elem, ctx.labels, create, blockType);
            |Kids(r.node)| > 0
            && Kids(r.node)[0].text == HeaderText(ResolveLevel(elem, ctx).0, blockType, argument, BlockAttrs(res.elem, blockType, res.identifier))
                                       + (if IsInline(elem) then "\n" else "")
  {
  }

  /** A block element gets RawBlock header and footer around its content; an inline element gets
      RawInlines, the footer on a line of its own, and the shared line break after it when the
      next sibling does not start a new line. */
  lemma DirectiveBlockForm(elem: Node, ctx: Ctx, content: seq<Node>, blockType: string,
                           using: Option<Wrap>, argument: string, create: bool, sib: Siblings)
    requires IsDirectiveBlock(elem)
    ensures var r := CreateDirectiveBlock(elem, ctx, content, blockType, using, argument, create, sib);
            var level := ResolveLevel(elem, ctx).0;
            (!IsInline(elem) ==> Kids(r.node)[0].RawBlock? && |Kids(r.node)| == |content| + 2
                                 && Kids(r.node)[|content| + 1].text == Fence(level))
            && (IsInline(elem) ==> Kids(r.node)[0].RawInline? && Kids(r.node)[|content| + 1].text == "\n" + Fence(level)
                                   && |Kids(r.node)| == |content| + 2 + (if NeedLinebreak(sib).1 then 1 else 0)
                                   && (NeedLinebreak(sib).1 ==> Kids(r.node)[|Kids(r.node)| - 1] == MarkdownLinebreak))
  {
  }

  /** `create_generic_div_block`: a classed Div whose content is non-empty, does not already start
      with a raw block and has no theorem-like class becomes a "div" directive labelled with its
      classes; every other node comes back unchanged. */
  function CreateGenericDivBlock(elem: Node, ctx: Ctx, sib: Siblings): (r: Built)
    ensures r != Built(elem, ctx) ==>
              elem.Div? && |elem.attr.classes| > 0 && |elem.content| > 0 && !elem.content[0].RawBlock?
              && !AnyIn(elem.attr.classes, SupportedAmsthm)
    ensures elem.Div? && |elem.attr.classes| > 0 && |elem.content| > 0 && !elem.content[0].RawBlock?
            && !AnyIn(elem.attr.classes, SupportedAmsthm) ==>
              r == CreateDirectiveBlock(elem, ctx, elem.content, "div", Some(WrapDiv), Join(" ", elem.attr.classes), false, sib)
              && r.node.Div? && Kids(r.node)[1..|elem.content| + 1] == elem.content
  {
    if !elem.Div? || |elem.attr.classes| == 0 then Built(elem, ctx)
    else if |elem.content| == 0 then Built(elem, ctx)
    else if elem.content[0].RawBlock? then Built(elem, ctx)
    else if AnyIn(elem.attr.classes, SupportedAmsthm) then Built(elem, ctx)
    else
      var r := CreateDirectiveBlock(elem, ctx, elem.content, "div", Some(WrapDiv), Join(" ", elem.attr.classes), false, sib);
      DirectiveBlockFrame(elem, ctx, elem.content, "div", Some(WrapDiv), Join(" ", elem.attr.classes), false, sib);
      r
  }

  /** A Div that `create_generic_div_block` rewrites: classed, with children, not already
      opening with a raw block, and without a theorem-like class. */
  predicate GenericDivCandidate(elem: Node) {
    elem.Div? && |elem.attr.classes| > 0 && |elem.content| > 0 && !elem.content[0].RawBlock?
    && !AnyIn(elem.attr.classes, SupportedAmsthm)
  }

  /** A candidate Div becomes a Div framing its own children under a "div" fence labelled with
      its classes, its level recorded and the labels table untouched; any other node comes
      back as it is. */
  lemma GenericDivSpec(elem: Node, ctx: Ctx, sib: Siblings)
    ensures var r := CreateGenericDivBlock(elem, ctx, sib);
            var level := ResolveLevel(elem, ctx).0;
            && (!GenericDivCandidate(elem) ==> r == Built(elem, ctx))
            && (GenericDivCandidate(elem) ==>
                  r.node.Div? && r.ctx.labels == ctx.labels && r.ctx.levels == ctx.levels[elem.id := level]
                  && Framed(Kids(r.node), elem.content, level, "div", Join(" ", elem.attr.classes)))
  {
    if GenericDivCandidate(elem) {
      var argument := Join(" ", elem.attr.classes);
      DirectiveBlockFrame(elem, ctx, elem.content, "div", Some(WrapDiv), argument, false, sib);
      var res := GetBlockIdentifier(elem, ctx.labels, false, "div");
      assert res.labels == ctx.labels;
    }
  }
}

=== FILE: figures.dfy ===
/** latex_to_myst/figures.py: image directives, subfigure grids as MyST list-tables, and the
    line breaker for long strings. Blocks are built with the builder of directive.py, in its
    Span and Para forms. */
module Figures {
  import opened Wrappers
  import opened Text
  import opened Tree
  import opened Helpers
  import Directives
  import LegacyDirective

  // ---------------------------------------------------------------- break_long_string

  /** numpy's `cumsum` of `len(w) + 1` over `ws`, at its last position: the width of the words
      with one separator after each. */
  function CumLen(ws: seq<string>): nat {
    if |ws| == 0 then 0 else CumLen(ws[..|ws| - 1]) + |ws[|ws| - 1]| + 1
  }

  lemma {:induction false} CumLenMonotone(ws: seq<string>, i: nat, j: nat)
    requires i <= j <= |ws|
    ensures CumLen(ws[..i]) <= CumLen(ws[..j])
    decreases j - i
  {
    if i < j {
      CumLenMonotone(ws, i, j - 1);
      assert ws[..j][..j - 1] == ws[..j - 1];
    }
  }

  /** `floor(c / m)` for natural numbers, by repeated subtraction. */
  function FloorDiv(c: nat, m: nat): nat
    requires m > 0
    decreases c
  {
    if c < m then 0 else 1 + FloorDiv(c - m, m)
  }

  lemma {:induction false} FloorDivMonotone(a: nat, b: nat, m: nat)
    requires a <= b && m > 0
    ensures FloorDiv(a, m) <= FloorDiv(b, m)
    decreases a
  {
    if a >= m {
      FloorDivMonotone(a - m, b - m, m);
    }
  }

  /** `block_idx`: the line each word goes to, `floor(cum_len / max_len)`. */
  function BlockIndices(ws: seq<string>, maxLen: nat): (r: seq<nat>)
    requires maxLen > 0
    ensures |r| == |ws|
    decreases |ws|
  {
    if |ws| == 0 then [] else BlockIndices(ws[..|ws| - 1], maxLen) + [FloorDiv(CumLen(ws), maxLen)]
  }

  /** The line of the i-th word is fixed by the width of the words up to and including it. */
  lemma {:induction false} BlockIndexAt(ws: seq<string>, maxLen: nat, i: nat)
    requires maxLen > 0 && i < |ws|
    ensures BlockIndices(ws, maxLen)[i] == FloorDiv(CumLen(ws[..i + 1]), maxLen)
    decreases |ws|
  {
    if i < |ws| - 1 {
      BlockIndexAt(ws[..|ws| - 1], maxLen, i);
      assert ws[..|ws| - 1][..i + 1] == ws[..i + 1];
    } else {
      assert ws[..i + 1] == ws;
    }
  }

  predicate Sorted(idx: seq<nat>) {
    forall i, j :: 0 <= i <= j < |idx| ==> idx[i] <= idx[j]
  }

  /** Words never go back to an earlier line. */
  lemma BlockIndicesSorted(ws: seq<string>, maxLen: nat)
    requires maxLen > 0
    ensures Sorted(BlockIndices(ws, maxLen))
  {
    var idx := BlockIndices(ws, maxLen);
    forall i, j | 0 <= i <= j < |idx| ensures idx[i] <= idx[j] {
      BlockIndexAt(ws, maxLen, i);
      BlockIndexAt(ws, maxLen, j);
      CumLenMonotone(ws, i + 1, j + 1);
      FloorDivMonotone(CumLen(ws[..i + 1]), CumLen(ws[..j + 1]), maxLen);
    }
  }

  /** `max(block_idx)`; 0 for no words (latex_to_myst never passes none). */
  function MaxOf(idx: seq<nat>): (m: nat)
    ensures forall i :: 0 <= i < |idx| ==> idx[i] <= m
    ensures |idx| > 0 ==> exists i :: 0 <= i < |idx| && idx[i] == m
  {
    if |idx| == 0 then 0
    else
      var m := MaxOf(idx[1..]);
      assert forall i :: 1 <= i < |idx| ==> idx[i] == idx[1..][i - 1];
      if idx[0] >= m then idx[0] else m
  }

  /** `content[np.where(block_idx == b)]`: the words of line `b`, in order. */
  function InBlock(ws: seq<string>, idx: seq<nat>, b: nat): (r: seq<string>)
    requires |idx| == |ws|
    ensures |r| <= |ws|
    ensures forall w :: w in r ==> w in ws
  {
    if |ws| == 0 then [] else (if idx[0] == b then [ws[0]] else []) + InBlock(ws[1..], idx[1..], b)
  }

  /** The words of lines `lo` up to (not including) `n`, one line after the other. */
  function FlatFrom(ws: seq<string>, idx: seq<nat>, lo: nat, n: nat): seq<string>
    requires |idx| == |ws|
    decreases n - lo
  {
    if lo >= n then [] else InBlock(ws, idx, lo) + FlatFrom(ws, idx, lo + 1, n)
  }

  lemma {:induction false} InBlockNone(ws: seq<string>, idx: seq<nat>, b: nat)
    requires |idx| == |ws| && forall i :: 0 <= i < |idx| ==> idx[i] != b
    ensures InBlock(ws, idx, b) == []
    decreases |ws|
  {
    if |ws| > 0 {
      InBlockNone(ws[1..], idx[1..], b);
    }
  }

  /** Lines other than the first word's do not see it. */
  lemma {:induction false} FlatSkipsHead(ws: seq<string>, idx: seq<nat>, lo: nat, n: nat)
    requires |idx| == |ws| > 0 && idx[0] < lo
    ensures FlatFrom(ws, idx, lo, n) == FlatFrom(ws[1..], idx[1..], lo, n)
    decreases n - lo
  {
    if lo < n {
      FlatSkipsHead(ws, idx, lo + 1, n);
    }
  }

  lemma {:induction false} FlatEmpty(idx: seq<nat>, lo: nat, n: nat)
    requires |idx| == 0
    ensures FlatFrom([], idx, lo, n) == []
    decreases n - lo
  {
    if lo < n {
      FlatEmpty(idx, lo + 1, n);
    }
  }

  /** Reading lines `lo`..`n` in order gives the words back, when the line numbers are sorted
      and within range. */
  lemma {:induction false} FlatWords(ws: seq<string>, idx: seq<nat>, lo: nat, n: nat)
    requires |idx| == |ws| && Sorted(idx)
    requires forall i :: 0 <= i < |idx| ==> lo <= idx[i] < n
    ensures FlatFrom(ws, idx, lo, n) == ws
    decreases |ws|, n - lo
  {
    if |ws| == 0 {
      FlatEmpty(idx, lo, n);
    } else if idx[0] > lo {
      InBlockNone(ws, idx, lo);
      FlatWords(ws, idx, lo + 1, n);
    } else {
      SortedTail(idx, lo, n);
      FlatHead(ws, idx, lo, n);
      FlatWords(ws[1..], idx[1..], lo, n);
      assert ws == [ws[0]] + ws[1..];
    }
  }

  lemma SortedTail(idx: seq<nat>, lo: nat, n: nat)
    requires |idx| > 0 && Sorted(idx) && forall i :: 0 <= i < |idx| ==> lo <= idx[i] < n
    ensures Sorted(idx[1..]) && forall i :: 0 <= i < |idx[1..]| ==> lo <= idx[1..][i] < n
  {
    forall i, j | 0 <= i <= j < |idx[1..]| ensures idx[1..][i] <= idx[1..][j] {
      assert idx[1..][i] == idx[i + 1] && idx[1..][j] == idx[j + 1];
    }
  }

  /** The first line holds the first word when its number is the first. */
  lemma FlatHead(ws: seq<string>, idx: seq<nat>, lo: nat, n: nat)
    requires |idx| == |ws| > 0 && idx[0] == lo < n
    ensures FlatFrom(ws, idx, lo, n) == [ws[0]] + FlatFrom(ws[1..], idx[1..], lo, n)
  {
    FlatSkipsHead(ws, idx, lo + 1, n);
    var ws', idx' := ws[1..], idx[1..];
    assert FlatFrom(ws, idx, lo, n) == ([ws[0]] + InBlock(ws', idx', lo)) + FlatFrom(ws', idx', lo + 1, n);
    assert FlatFrom(ws', idx', lo, n) == InBlock(ws', idx', lo) + FlatFrom(ws', idx', lo + 1, n);
  }

  /** One output line: the indent, the line's words joined by single spaces, a newline. */
  function Line(ws: seq<string>, idx: seq<nat>, b: nat, indent: nat): string
    requires |idx| == |ws|
  {
    Repeat(' ', indent) + Join(" ", InBlock(ws, idx, b)) + "\n"
  }

  function LinesFrom(ws: seq<string>, idx: seq<nat>, indent: nat, lo: nat, n: nat): (r: seq<string>)
    requires |idx| == |ws|
    ensures |r| == if lo < n then n - lo else 0
    ensures forall b :: 0 <= b < |r| ==> r[b] == Line(ws, idx, lo + b, indent)
    decreases n - lo
  {
    if lo >= n then [] else [Line(ws, idx, lo, indent)] + LinesFrom(ws, idx, indent, lo + 1, n)
  }

  /** The lines `break_long_string` emits for the given pieces: one per line number from 0 to
      the largest, empty lines included. */
  function BreakPieces(ws: seq<string>, maxLen: nat, indent: nat): seq<string>
    requires maxLen > 0
  {
    var idx := BlockIndices(ws, maxLen);
    LinesFrom(ws, idx, indent, 0, MaxOf(idx) + 1)
  }

  /** `break_long_string(string, max_len, indent)` as written: its first statement joins the
      space-split pieces back with single spaces, which gives the string back unchanged, so the
      pieces placed on lines are those of one split on " ", empty ones included. The output
      keeps its final newline: the `rstrip` result is discarded. */
  function BreakLongString(s: string, maxLen: nat, indent: nat): (r: string)
    requires maxLen > 0
  {
    Cat(BreakPieces(Split(Join(" ", Split(s, ' ')), ' '), maxLen, indent))
  }

  lemma CatAppend(a: seq<string>, b: seq<string>)
    ensures Cat(a + b) == Cat(a) + Cat(b)
    decreases |b|
  {
    if |b| > 0 {
      CatAppend(a, b[..|b| - 1]);
      assert (a + b)[..|a + b| - 1] == a + b[..|b| - 1];
    } else {
      assert a + b == a;
    }
  }

  /** Every line starts with the indent and ends with a newline, there is at least one line,
      and reading the lines' words in order gives the pieces back. */
  lemma BreakPiecesSpec(ws: seq<string>, maxLen: nat, indent: nat)
    requires maxLen > 0 && |ws| > 0
    ensures var idx := BlockIndices(ws, maxLen);
            var lines := BreakPieces(ws, maxLen, indent);
            && |lines| == MaxOf(idx) + 1
            && (forall b :: 0 <= b < |lines| ==>
                  StartsWith(lines[b], Repeat(' ', indent)) && EndsWith(lines[b], "\n")
                  && lines[b] == Repeat(' ', indent) + Join(" ", InBlock(ws, idx, b)) + "\n")
            && FlatFrom(ws, idx, 0, MaxOf(idx) + 1) == ws
  {
    var idx := BlockIndices(ws, maxLen);
    BlockIndicesSorted(ws, maxLen);
    FlatWords(ws, idx, 0, MaxOf(idx) + 1);
  }

  /** A concatenation of lines starts as its first line does and ends as its last one. */
  lemma CatEnds(lines: seq<string>, p: string)
    requires |lines| > 0 && StartsWith(lines[0], p) && EndsWith(lines[|lines| - 1], "\n")
    ensures StartsWith(Cat(lines), p) && EndsWith(Cat(lines), "\n")
  {
    CatHead(lines);
    StartsWithAppend(lines[0], Cat(lines[1..]), p);
    EndsWithAppend(Cat(lines[..|lines| - 1]), lines[|lines| - 1], "\n");
  }

  lemma CatHead(lines: seq<string>)
    requires |lines| > 0
    ensures Cat(lines) == lines[0] + Cat(lines[1..])
  {
    var x, rest := lines[0], lines[1..];
    CatAppend([x], rest);
    CatSingle(x);
    assert [x] + rest == lines;
  }

  lemma CatSingle(x: string)
    ensures Cat([x]) == x
  {
    assert [x][..0] == [];
  }

  lemma StartsWithAppend(a: string, b: string, p: string)
    requires StartsWith(a, p)
    ensures StartsWith(a + b, p)
  {
    assert (a + b)[..|p|] == a[..|p|];
  }

  lemma EndsWithAppend(a: string, b: string, p: string)
    requires EndsWith(b, p)
    ensures EndsWith(a + b, p)
  {
    assert (a + b)[|a + b| - |p|..] == b[|b| - |p|..];
  }

  /** The output ends with a newline, starts with the indent, and the words of its lines are
      the pieces of the input split on single spaces, in order; joining them back with single
      spaces gives the input. */
  lemma BreakLongStringSpec(s: string, maxLen: nat, indent: nat)
    requires maxLen > 0
    ensures var ws := Split(s, ' ');
            var idx := BlockIndices(ws, maxLen);
            var r := BreakLongString(s, maxLen, indent);
            && r == Cat(BreakPieces(ws, maxLen, indent))
            && StartsWith(r, Repeat(' ', indent)) && EndsWith(r, "\n")
            && FlatFrom(ws, idx, 0, MaxOf(idx) + 1) == ws && Join(" ", ws) == s
  {
    var ws := Split(s, ' ');
    assert Join(" ", ws) == s by {
      JoinSplit(s, ' ');
      assert [' '] == " ";
    }
    BreakPiecesSpec(ws, maxLen, indent);
    CatEnds(BreakPieces(ws, maxLen, indent), Repeat(' ', indent));
  }

  // ---------------------------------------------------------------- runs of spaces

  /** No two consecutive spaces. */
  predicate NoDoubleSpace(s: string) {
    forall i :: 0 <= i < |s| - 1 ==> !(s[i] == ' ' && s[i + 1] == ' ')
  }

  /** The pieces of a split on " " that are not empty: the words once runs of spaces are
      collapsed. */
  function NonEmpty(ws: seq<string>): (r: seq<string>)
    ensures forall w :: w in r ==> w in ws && w != ""
  {
    if |ws| == 0 then [] else (if ws[0] != "" then [ws[0]] else []) + NonEmpty(ws[1..])
  }

  /** The words of the corrected breaker: the non-empty pieces, or one empty word for a string
      of spaces only, which is what splitting the collapsed string on " " gives. */
  function CollapsedWords(s: string): (r: seq<string>)
    ensures |r| > 0
    ensures forall w :: w in r ==> ' ' !in w
    ensures |r| > 1 ==> forall w :: w in r ==> w != ""
  {
    var ws := NonEmpty(Split(s, ' '));
    if |ws| == 0 then [""] else ws
  }

  /** `break_long_string` as its first statement evidently intends: runs of spaces collapse to
      one before the string is broken into lines. */
  function BreakLongStringCollapsed(s: string, maxLen: nat, indent: nat): string
    requires maxLen > 0
  {
    Cat(BreakPieces(CollapsedWords(s), maxLen, indent))
  }

  lemma JoinStartsWithHead(parts: seq<string>)
    requires |parts| > 0
    ensures StartsWith(Join(" ", parts), parts[0])
  {
  }

  /** Joining space-free pieces with single spaces leaves no run of spaces, provided no piece
      is empty or there is at most one piece. */
  lemma {:induction false} JoinNoDoubleSpace(parts: seq<string>)
    requires forall p :: p in parts ==> ' ' !in p
    requires |parts| > 1 ==> forall p :: p in parts ==> p != ""
    ensures NoDoubleSpace(Join(" ", parts))
    decreases |parts|
  {
    if |parts| >= 2 {
      var x, rest := parts[0], parts[1..];
      var y := Join(" ", rest);
      assert forall p :: p in rest ==> p in parts;
      JoinNoDoubleSpace(rest);
      JoinStartsWithHead(rest);
      assert rest[0] in parts;
      assert y[0] == rest[0][0] && rest[0][0] in rest[0];
      var j := Join(" ", parts);
      assert j == x + " " + y;
      forall i | 0 <= i < |j| - 1 ensures !(j[i] == ' ' && j[i + 1] == ' ') {
        if i < |x| {
          assert j[i] == x[i] && x[i] in x;
        } else if i == |x| {
          assert j[i + 1] == y[0];
        } else {
          assert j[i] == y[i - |x| - 1] && j[i + 1] == y[i - |x|];
        }
      }
    } else if |parts| == 1 {
      var j := Join(" ", parts);
      assert j == parts[0] && parts[0] in parts;
      forall i | 0 <= i < |j| - 1 ensures j[i] != ' ' {
        assert j[i] in parts[0];
      }
    }
  }

  /** In the corrected breaker no line holds a run of spaces after its indent, and the lines'
      words, read in order, are the non-empty pieces of the input. */
  lemma CollapsedSpec(s: string, maxLen: nat, indent: nat)
    requires maxLen > 0
    ensures var ws := CollapsedWords(s);
            var idx := BlockIndices(ws, maxLen);
            var lines := BreakPieces(ws, maxLen, indent);
            && (forall b :: 0 <= b < |lines| ==>
                  lines[b] == Repeat(' ', indent) + Join(" ", InBlock(ws, idx, b)) + "\n"
                  && NoDoubleSpace(Join(" ", InBlock(ws, idx, b))))
            && FlatFrom(ws, idx, 0, MaxOf(idx) + 1) == ws
            && (NonEmpty(Split(s, ' ')) != [] ==> ws == NonEmpty(Split(s, ' ')))
  {
    var ws := CollapsedWords(s);
    var idx := BlockIndices(ws, maxLen);
    BreakPiecesSpec(ws, maxLen, indent);
    forall b | 0 <= b < MaxOf(idx) + 1 ensures NoDoubleSpace(Join(" ", InBlock(ws, idx, b))) {
      JoinNoDoubleSpace(InBlock(ws, idx, b));
    }
  }

  // The steps of AsWrittenKeepsRuns below, one evaluation each, on the string "a  b".

  lemma RunsSplitTail()
    ensures Split(" b", ' ') == ["", "b"]
  {
    assert Split("b", ' ') == ["b"];
    assert " b"[..0] == "" && " b"[1..] == "b";
  }

  lemma RunsSplit()
    ensures Split("a  b", ' ') == ["a", "", "b"]
  {
    RunsSplitTail();
    var s := "a  b";
    assert s[..1] == "a" && s[2..] == " b";
    assert FirstIndex(s, ' ') == 1;
  }

  lemma RunsIndices()
    ensures BlockIndices(["a", "", "b"], 70) == [0, 0, 0]
  {
    var ws := ["a", "", "b"];
    assert ws[..1] == ["a"] && ws[..2] == ["a", ""] && ws[..3] == ws;
    assert ws[..2][..1] == ["a"] && ws[..1][..0] == [];
    assert CumLen(ws[..1]) == 2 && CumLen(ws[..2]) == 3 && CumLen(ws) == 5;
    BlockIndexAt(ws, 70, 0);
    BlockIndexAt(ws, 70, 1);
    BlockIndexAt(ws, 70, 2);
  }

  lemma RunsMax()
    ensures MaxOf([0, 0, 0]) == 0
  {
    var idx: seq<nat> := [0, 0, 0];
    assert idx[1..] == [0, 0] && idx[1..][1..] == [0] && idx[1..][1..][1..] == [];
  }

  lemma RunsInBlock()
    ensures InBlock(["a", "", "b"], [0, 0, 0], 0) == ["a", "", "b"]
  {
    var ws := ["a", "", "b"];
    var idx: seq<nat> := [0, 0, 0];
    assert ws[1..] == ["", "b"] && ws[1..][1..] == ["b"] && ws[1..][1..][1..] == [];
    assert idx[1..] == [0, 0] && idx[1..][1..] == [0] && idx[1..][1..][1..] == [];
  }

  lemma RunsLines()
    ensures BreakPieces(["a", "", "b"], 70, 0) == ["a  b\n"]
  {
    var ws := ["a", "", "b"];
    RunsIndices();
    RunsMax();
    RunsInBlock();
    assert Join(" ", ws) == "a  b" by {
      assert ws[1..] == ["", "b"] && ws[1..][1..] == ["b"];
    }
    var lines := BreakPieces(ws, 70, 0);
    assert |lines| == 1 && lines[0] == Line(ws, [0, 0, 0], 0, 0);
    assert Repeat(' ', 0) == "";
    assert Line(ws, [0, 0, 0], 0, 0) == "a  b\n";
    assert lines == [lines[0]];
  }

  /** As written, the breaker keeps a run of spaces: "a  b" comes out as "a  b" plus the
      newline, its three pieces "a", "" and "b" on one line. */
  lemma AsWrittenKeepsRuns()
    ensures BreakLongString("a  b", 70, 0) == "a  b\n"
    ensures !NoDoubleSpace(BreakLongString("a  b", 70, 0))
  {
    RunsSplit();
    BreakLongStringSpec("a  b", 70, 0);
    RunsLines();
    assert Cat(["a  b\n"]) == "a  b\n" by {
      assert ["a  b\n"][..0] == [];
    }
    assert "a  b\n"[1] == ' ' && "a  b\n"[2] == ' ';
  }

  // ---------------------------------------------------------------- create_image

  /** `[0-9|.]`: a character of the numeric prefix of a width. */
  predicate WidthChar(c: char) {
    '0' <= c <= '9' || c == '|' || c == '.'
  }

  /** Start of the longest run of prefix characters ending at `q`. */
  function RunStart(s: string, q: nat): (r: nat)
    requires q <= |s|
    ensures r <= q
    ensures forall t :: r <= t < q ==> WidthChar(s[t])
    ensures r > 0 ==> !WidthChar(s[r - 1])
    decreases q
  {
    if q > 0 && WidthChar(s[q - 1]) then RunStart(s, q - 1) else q
  }

  /** `([0-9|.]*)(unit)` matches `s` from `p`, with the unit at `q`. */
  predicate UnitMatch(s: string, unit: string, p: nat, q: nat) {
    p <= q && OccursAt(s, unit, q) && forall t :: p <= t < q ==> WidthChar(s[t])
  }

  /** The first match of `([0-9|.]*)(unit)`, as its start and the unit's position. */
  function FirstUnitMatch(s: string, unit: string): (r: Option<(nat, nat)>)
    ensures r.Some? ==> UnitMatch(s, unit, r.value.0, r.value.1)
    ensures r.None? <==> forall q :: 0 <= q <= |s| ==> !OccursAt(s, unit, q)
  {
    match FindFrom(s, unit, 0)
      case None => None
      case Some(q) => Some((RunStart(s, q), q))
  }

  /** The match found is the regular expression's: it starts leftmost, and from that start
      the unit can only sit where it was found (the unit's first character is not a prefix
      character, so the greedy prefix cannot run past it). */
  lemma FirstUnitMatchIsLeftmost(s: string, unit: string, p: nat, q: nat)
    requires |unit| > 0 && !WidthChar(unit[0]) && UnitMatch(s, unit, p, q)
    ensures FirstUnitMatch(s, unit).Some?
    ensures var m := FirstUnitMatch(s, unit).value;
            m.0 <= p && (p == m.0 ==> q == m.1)
  {
    var q0 := FindFrom(s, unit, 0).value;
    var r := RunStart(s, q0);
    assert q0 <= q;
    if p <= q0 {
      NotBeforeRun(s, q0, p);
    }
    if p == r {
      UnitEndsRun(s, unit, p, q, q0);
    }
  }

  /** A run of prefix characters ending at `q` starts no earlier than `RunStart`. */
  lemma {:induction false} NotBeforeRun(s: string, q: nat, p: nat)
    requires p <= q <= |s|
    requires forall t :: p <= t < q ==> WidthChar(s[t])
    ensures RunStart(s, q) <= p
    decreases q
  {
    if p < q {
      NotBeforeRun(s, q - 1, p);
    }
  }

  /** The unit cannot start inside a run of prefix characters. */
  lemma UnitEndsRun(s: string, unit: string, p: nat, q: nat, q0: nat)
    requires |unit| > 0 && !WidthChar(unit[0])
    requires UnitMatch(s, unit, p, q) && p <= q0 <= q && OccursAt(s, unit, q0)
    ensures q0 == q
  {
  }

  /** One width rewrite (lines 46-51, or 52-57): a value holding `unit` becomes "100%" when
      the matched prefix is empty and the percentage of the prefix otherwise; `percent` stands
      for `str(int(float(prefix) * 100))`, None where `float` raises ValueError on a malformed
      number such as "1.2.3" or "|". */
  function Width(val: string, unit: string, percent: string -> Option<string>): (r: Result<string>)
    ensures FirstUnitMatch(val, unit).None? ==> r == Success(val)
    ensures FirstUnitMatch(val, unit).Some? && FirstUnitMatch(val, unit).value.0 == FirstUnitMatch(val, unit).value.1 ==>
              r == Success("100%")
    ensures FirstUnitMatch(val, unit).Some? && FirstUnitMatch(val, unit).value.0 < FirstUnitMatch(val, unit).value.1 ==>
              var m := FirstUnitMatch(val, unit).value;
              && (percent(val[m.0..m.1]).None? ==> r == Failure(ValueError))
              && (percent(val[m.0..m.1]).Some? ==> r == Success(percent(val[m.0..m.1]).value + "%"))
  {
    match FirstUnitMatch(val, unit)
      case None => Success(val)
      case Some((p, q)) =>
        if p == q then Success("100%")
        else
          match percent(val[p..q])
            case None => Failure(ValueError)
            case Some(d) => Success(d + "%")
  }

  /** A width written with a numeric prefix, such as "0.5\\textwidth", becomes the percentage of
      that prefix, whatever follows it. */
  lemma PrefixedWidth(pre: string, unit: string, rest: string, percent: string -> Option<string>)
    requires unit == TextWidth || unit == LineWidth
    requires pre != "" && forall t :: 0 <= t < |pre| ==> WidthChar(pre[t])
    ensures Width(pre + unit + rest, unit, percent) ==
              if percent(pre).Some? then Success(percent(pre).value + "%") else Failure(ValueError)
  {
    var val := pre + unit + rest;
    assert val[..|pre|] == pre;
    assert val[|pre|..][..|unit|] == unit;
    assert OccursAt(val, unit, |pre|);
    FirstUnitMatchIsLeftmost(val, unit, 0, |pre|);
  }

  const TextWidth := "\\textwidth"
  const LineWidth := "\\linewidth"

  /** The value an attribute line carries: the text-width rewrite, then the line-width rewrite
      of its result. */
  function WidthValue(val: string, percent: string -> Option<string>): (r: Result<string>)
    ensures r.Failure? ==> r.error == ValueError
  {
    var v :- Width(val, TextWidth, percent);
    Width(v, LineWidth, percent)
  }

  /** A bare `\textwidth` or `\linewidth`, with nothing numeric in front, is the full width. */
  lemma BareWidthIsFull(val: string, unit: string, percent: string -> Option<string>)
    requires unit == TextWidth || unit == LineWidth
    requires val == unit
    ensures WidthValue(val, percent) == Success("100%")
  {
    assert OccursAt(val, unit, 0);
    assert RunStart(val, 0) == 0;
    if unit == TextWidth {
      assert Width(val, TextWidth, percent) == Success("100%");
      assert !OccursAt("100%", LineWidth, 0);
    } else {
      assert !OccursAt(val, TextWidth, 0);
      assert Width(val, TextWidth, percent) == Success(val);
    }
  }

  /** Lines 42-58: one ":name: value" line per attribute, in order, "height" skipped; the first
      failing conversion ends the loop. */
  function AttrString(attrs: Dict<string, string>, percent: string -> Option<string>): (r: Result<string>)
    ensures r.Failure? ==> r.error == ValueError
    decreases |attrs|
  {
    if |attrs| == 0 then Success("")
    else if attrs[0].0 == "height" then AttrString(attrs[1..], percent)
    else
      var v :- WidthValue(attrs[0].1, percent);
      var rest :- AttrString(attrs[1..], percent);
      Success(":" + attrs[0].0 + ": " + v + "\n" + rest)
  }

  /** The attributes other than "height", in order. */
  function WithoutHeight(attrs: Dict<string, string>): (r: Dict<string, string>)
    ensures forall i :: 0 <= i < |r| ==> r[i].0 != "height"
  {
    if |attrs| == 0 then []
    else (if attrs[0].0 == "height" then [] else [attrs[0]]) + WithoutHeight(attrs[1..])
  }

  /** The attribute lines when no value holds a width unit. */
  function PlainLines(attrs: Dict<string, string>): string {
    if |attrs| == 0 then "" else ":" + attrs[0].0 + ": " + attrs[0].1 + "\n" + PlainLines(attrs[1..])
  }

  predicate NoUnit(val: string) {
    forall q :: 0 <= q <= |val| ==> !OccursAt(val, TextWidth, q) && !OccursAt(val, LineWidth, q)
  }

  /** Without widths to rewrite, the attribute lines are exactly "name: value" for every
      attribute but "height", in their order. */
  lemma {:induction false} AttrStringPlain(attrs: Dict<string, string>, percent: string -> Option<string>)
    requires forall i :: 0 <= i < |attrs| ==> NoUnit(attrs[i].1)
    ensures AttrString(attrs, percent) == Success(PlainLines(WithoutHeight(attrs)))
    decreases |attrs|
  {
    if |attrs| > 0 {
      assert forall i :: 0 <= i < |attrs[1..]| ==> NoUnit(attrs[1..][i].1) by {
        forall i | 0 <= i < |attrs[1..]| ensures NoUnit(attrs[1..][i].1) {
          assert attrs[1..][i] == attrs[i + 1];
        }
      }
      AttrStringPlain(attrs[1..], percent);
      if attrs[0].0 == "height" {
        assert WithoutHeight(attrs) == [] + WithoutHeight(attrs[1..]);
        assert [] + WithoutHeight(attrs[1..]) == WithoutHeight(attrs[1..]);
      } else {
        assert NoUnit(attrs[0].1);
        assert WidthValue(attrs[0].1, percent) == Success(attrs[0].1);
        assert WithoutHeight(attrs) == [attrs[0]] + WithoutHeight(attrs[1..]);
        assert ([attrs[0]] + WithoutHeight(attrs[1..]))[1..] == WithoutHeight(attrs[1..]);
        assert ([attrs[0]] + WithoutHeight(attrs[1..]))[0] == attrs[0];
      }
    }
  }

  /** Lines 60-70: the ":name:" line when there is an identifier, the attribute lines when
      there are any, then the caption, unless the image's text is the default "image". */
  function ImageContent(elem: Node, attrStr: string, k: nat): (r: seq<Node>)
    requires elem.Image?
  {
    (if elem.attr.identifier != "" then [RawInline(k, ":name: " + elem.attr.identifier + "\n")] else [])
    + (if attrStr != "" then [RawInline(k + 1, attrStr)] else [])
    + (if Stringify(elem) == "image" then [] else elem.content)
  }

  /** The content opens with the name line exactly when the image has an identifier, carries
      the attribute lines exactly when there are some, and ends with the caption, dropped
      exactly when the image's text is "image". */
  lemma ImageContentSpec(elem: Node, attrStr: string, k: nat)
    requires elem.Image?
    ensures var r := ImageContent(elem, attrStr, k);
            var named := if elem.attr.identifier != "" then 1 else 0;
            var lined := if attrStr != "" then 1 else 0;
            var caption := if Stringify(elem) == "image" then [] else elem.content;
            && |r| == named + lined + |caption| && r[named + lined..] == caption
            && (elem.attr.identifier != "" ==> r[0] == RawInline(k, ":name: " + elem.attr.identifier + "\n"))
            && (attrStr != "" ==> r[named] == RawInline(k + 1, attrStr))
  {
  }

  /** `create_image` for an Image: a "figure" block labelled with the url, built as a Span. */
  function BuildImage(elem: Node, ctx: Ctx, percent: string -> Option<string>): (r: Result<Directives.Built>)
    requires elem.Image?
    ensures r.Failure? <==> AttrString(elem.attr.attributes, percent).Failure?
    ensures r.Failure? ==> r.error == ValueError
    ensures r.Success? ==> r.value.ctx == ctx.(nextId := r.value.ctx.nextId) && r.value.ctx.nextId >= ctx.nextId + 2
  {
    var attrStr :- AttrString(elem.attr.attributes, percent);
    var k := ctx.nextId;
    Success(LegacyDirective.CreateDirectiveBlock(elem, ctx.(nextId := k + 2), ImageContent(elem, attrStr, k),
                                                      "figure", Directives.WrapSpan, elem.url))
  }

  /** `create_image(elem, doc)`: nothing for a node that is not an Image. */
  function CreateImage(elem: Node, ctx: Ctx, percent: string -> Option<string>): (r: Result<Option<Directives.Built>>)
    ensures !elem.Image? ==> r == Success(None)
    ensures elem.Image? ==> (r.Failure? <==> AttrString(elem.attr.attributes, percent).Failure?)
    ensures r.Success? && elem.Image? ==> r.value.Some?
  {
    if !elem.Image? then Success(None)
    else
      var b :- BuildImage(elem, ctx, percent);
      Success(Some(b))
  }

  /** The image's block is the builder's, over the image content. */
  lemma BuildImageBuilt(elem: Node, ctx: Ctx, percent: string -> Option<string>)
    requires elem.Image? && AttrString(elem.attr.attributes, percent).Success?
    ensures var content := ImageContent(elem, AttrString(elem.attr.attributes, percent).value, ctx.nextId);
            BuildImage(elem, ctx, percent) ==
              Success(LegacyDirective.CreateDirectiveBlock(elem, ctx.(nextId := ctx.nextId + 2), content,
                                                                "figure", Directives.WrapSpan, elem.url))
  {
    var attrStr := AttrString(elem.attr.attributes, percent).value;
    assert BuildImage(elem, ctx, percent) ==
             Success(LegacyDirective.CreateDirectiveBlock(elem, ctx.(nextId := ctx.nextId + 2), ImageContent(elem, attrStr, ctx.nextId),
                                                               "figure", Directives.WrapSpan, elem.url));
  }

  /** Without a level entry the image comes back as it is. */
  lemma BuildImageUnleveled(elem: Node, ctx: Ctx, percent: string -> Option<string>)
    requires elem.Image? && AttrString(elem.attr.attributes, percent).Success? && elem.id !in ctx.levels
    ensures BuildImage(elem, ctx, percent) == Success(Directives.Built(elem, ctx.(nextId := ctx.nextId + 2)))
  {
    BuildImageBuilt(elem, ctx, percent);
  }

  /** The figure form: a Span holding a line break, the "figure" opening line carrying the url
      (identity `first`), the image content, and the closing fence of the same level (identity
      `first + 1`). */
  predicate FigureShaped(node: Node, first: nat, level: nat, url: string, content: seq<Node>) {
    var ks := Kids(node);
    && node.Span? && |ks| == |content| + 3 && ks[2..|content| + 2] == content
    && ks[1] == RawInline(first, LegacyDirective.OpeningLine(level, "figure", url) + "\n")
    && ks[|content| + 2] == RawInline(first + 1, "\n" + Directives.Fence(level) + "\n")
  }

  /** With a level entry, the image takes the figure form around its content, and six
      identities are used. */
  lemma BuildImageSpec(elem: Node, ctx: Ctx, percent: string -> Option<string>)
    requires elem.Image? && AttrString(elem.attr.attributes, percent).Success? && elem.id in ctx.levels
    ensures var b := BuildImage(elem, ctx, percent).value;
            && b.ctx == ctx.(nextId := ctx.nextId + 6)
            && FigureShaped(b.node, ctx.nextId + 3, ctx.levels[elem.id], elem.url,
                            ImageContent(elem, AttrString(elem.attr.attributes, percent).value, ctx.nextId))
  {
    BuildImageBuilt(elem, ctx, percent);
    var content := ImageContent(elem, AttrString(elem.attr.attributes, percent).value, ctx.nextId);
    FigureShape(elem, ctx.(nextId := ctx.nextId + 2), content);
  }

  lemma FigureShape(elem: Node, c: Ctx, content: seq<Node>)
    requires elem.Image? && elem.id in c.levels
    ensures var b := LegacyDirective.CreateDirectiveBlock(elem, c, content, "figure", Directives.WrapSpan, elem.url);
            b.ctx == c.(nextId := c.nextId + 4) && FigureShaped(b.node, c.nextId + 1, c.levels[elem.id], elem.url, content)
  {
    assert LegacyDirective.IsDirectiveBlock(elem);
    LegacyDirective.InlineFormSpec(elem, c, content, "figure", Directives.WrapSpan, elem.url);
  }

  // ---------------------------------------------------------------- subplots

  /** `key` reads "figure-<i>", alone or followed by ':' and more. */
  predicate NumberedKey(key: string, i: nat) {
    var p := "figure-" + NatToString(i);
    StartsWith(key, p) && (|key| == |p| || key[|p|] == ':')
  }

  /** The key an image is stored under when the substitution table holds `n` entries:
      "figure-<n>", followed by ":<identifier>" when the image has one. */
  function SubstitutionKey(n: nat, identifier: string): (r: string)
    ensures NumberedKey(r, n)
    ensures EndsWith(r, identifier)
  {
    var p := "figure-" + NatToString(n);
    var r := p + (if identifier != "" then ":" + identifier else "");
    assert r[..|p|] == p;
    assert identifier != "" ==> r[|r| - |identifier|..] == identifier;
    r
  }

  predicate IsDigit(c: char) {
    '0' <= c <= '9'
  }

  /** The end of the run of digits starting at `t`. */
  function DigitsEnd(s: string, t: nat): (r: nat)
    requires t <= |s|
    ensures t <= r <= |s|
    decreases |s| - t
  {
    if t < |s| && IsDigit(s[t]) then DigitsEnd(s, t + 1) else t
  }

  /** A digit string at `t` followed by a non-digit, or by the end, is the whole run. */
  lemma {:induction false} DigitsEndAt(s: string, t: nat, d: string)
    requires t + |d| <= |s| && s[t..t + |d|] == d
    requires forall i :: 0 <= i < |d| ==> IsDigit(d[i])
    requires t + |d| == |s| || !IsDigit(s[t + |d|])
    ensures DigitsEnd(s, t) == t + |d|
    decreases |d|
  {
    if |d| > 0 {
      assert s[t] == d[0];
      assert s[t + 1..t + 1 + |d[1..]|] == d[1..];
      DigitsEndAt(s, t + 1, d[1..]);
    }
  }

  /** The number a numbered key carries is the run of digits after "figure-". */
  lemma KeyNumber(key: string, i: nat)
    requires NumberedKey(key, i)
    ensures DigitsEnd(key, 7) == 7 + |NatToString(i)| && key[7..DigitsEnd(key, 7)] == NatToString(i)
  {
    var p := "figure-" + NatToString(i);
    assert key[..|p|] == p;
    assert key[7..|p|] == NatToString(i);
    DigitsEndAt(key, 7, NatToString(i));
  }

  /** A key carries one number only. */
  lemma NumberedKeyUnique(key: string, i: nat, j: nat)
    ensures NumberedKey(key, i) && NumberedKey(key, j) ==> i == j
  {
    if NumberedKey(key, i) && NumberedKey(key, j) {
      KeyNumber(key, i);
      KeyNumber(key, j);
      NatToStringInjective(i, j);
    }
  }

  /** Every entry carries its own position as its number, as the keys the subplots store do. */
  predicate NumberedKeys(subs: Dict<string, Node>) {
    forall i :: 0 <= i < |subs| ==> NumberedKey(subs[i].0, i)
  }

  /** With numbered keys, the key of the next image is never already present, so the duplicate
      check (lines 87 and 117) cannot fire. */
  lemma FreshKey(subs: Dict<string, Node>, identifier: string)
    requires NumberedKeys(subs)
    ensures !HasKey(subs, SubstitutionKey(|subs|, identifier))
  {
    var key := SubstitutionKey(|subs|, identifier);
    forall i | 0 <= i < |subs|
      ensures subs[i].0 != key
    {
      NumberedKeyUnique(subs[i].0, i, |subs|);
    }
  }

  /** A row break: a LineBreak among a paragraph's children, a TableRow in a table's walk. */
  predicate Resets(e: Node, table: bool) {
    if table then e.TableRow? else e.LineBreak?
  }

  /** One list-table line: a new row starts with "* - ", a further cell with "  - ". */
  function GridLine(startsRow: bool, key: string): string {
    (if startsRow then "* - " else "  - ") + "{{" + key + "}}\n"
  }

  /** The state of the loop over the images: the list-table lines so far, whether the next image
      starts a row, and the side tables. */
  datatype Grid = Grid(lines: seq<Node>, rowOpen: bool, ctx: Ctx)

  /** One element of the loop (lines 80-97, 109-129): a row break opens a row; an image is
      stored, under a fresh key, as its figure block, and gets a line. */
  function GridStep(g: Grid, e: Node, table: bool, percent: string -> Option<string>): (r: Result<Grid>)
    ensures r.Failure? ==> e.Image? && (r.error == AssertionError || r.error == ValueError)
    ensures r.Failure? && r.error == AssertionError ==> HasKey(g.ctx.substitutions, SubstitutionKey(|g.ctx.substitutions|, e.attr.identifier))
  {
    var startsRow := g.rowOpen || Resets(e, table);
    if !e.Image? then Success(g.(rowOpen := startsRow))
    else
      var key := SubstitutionKey(|g.ctx.substitutions|, e.attr.identifier);
      if HasKey(g.ctx.substitutions, key) then Failure(AssertionError)
      else
        match BuildImage(e, g.ctx, percent)
        case Failure(err) => Failure(err)
        case Success(b) =>
          Success(Grid(g.lines + [RawInline(b.ctx.nextId, GridLine(startsRow, key))], false,
                       b.ctx.(substitutions := Put(b.ctx.substitutions, key, b.node), nextId := b.ctx.nextId + 1)))
  }

  /** What a step adds: nothing but the row flag for an element that is not an image; for an
      image, one line naming the fresh key after the lines so far, and one entry stored under
      that key after the entries so far, the row closed, and nothing else of the side tables
      changed but the identity counter. */
  /** An image's step from `g` to `r`: the row closes, the image's line under `key` follows the
      earlier lines, the key is appended to the substitution table, and only fresh identities
      are used. */
  predicate ImageStepped(g: Grid, r: Grid, key: string) {
    var subs := r.ctx.substitutions;
    && !r.rowOpen
    && |r.lines| == |g.lines| + 1 && r.lines[..|g.lines|] == g.lines
    && r.lines[|g.lines|].RawInline? && r.lines[|g.lines|].text == GridLine(g.rowOpen, key)
    && |subs| == |g.ctx.substitutions| + 1 && subs[..|g.ctx.substitutions|] == g.ctx.substitutions
    && subs[|g.ctx.substitutions|].0 == key
    && r.ctx == g.ctx.(substitutions := subs, nextId := r.ctx.nextId)
    && r.ctx.nextId > g.ctx.nextId
  }

  lemma StepSpec(g: Grid, e: Node, table: bool, percent: string -> Option<string>)
    requires GridStep(g, e, table, percent).Success?
    ensures var r := GridStep(g, e, table, percent).value;
            !e.Image? ==> r == g.(rowOpen := g.rowOpen || Resets(e, table))
    ensures e.Image? ==>
              ImageStepped(g, GridStep(g, e, table, percent).value, SubstitutionKey(|g.ctx.substitutions|, e.attr.identifier))
  {
    if e.Image? {
      var key := SubstitutionKey(|g.ctx.substitutions|, e.attr.identifier);
      var b := BuildImage(e, g.ctx, percent).value;
      PutAppends(b.ctx.substitutions, key, b.node);
      var subs := Put(b.ctx.substitutions, key, b.node);
      assert subs[..|g.ctx.substitutions|] == g.ctx.substitutions;
      assert GridStep(g, e, table, percent).value ==
               Grid(g.lines + [RawInline(b.ctx.nextId, GridLine(g.rowOpen, key))], false,
                    b.ctx.(substitutions := subs, nextId := b.ctx.nextId + 1));
    }
  }

  /** The loop over `nodes`, starting with no lines and a row open. */
  function GridFold(nodes: seq<Node>, table: bool, ctx: Ctx, percent: string -> Option<string>): (r: Result<Grid>)
    ensures r.Failure? ==> r.error == AssertionError || r.error == ValueError
    decreases |nodes|
  {
    if |nodes| == 0 then Success(Grid([], true, ctx))
    else
      match GridFold(nodes[..|nodes| - 1], table, ctx, percent)
      case Failure(err) => Failure(err)
      case Success(g) => GridStep(g, nodes[|nodes| - 1], table, percent)
  }

  /** The last row break among `nodes`. */
  function LastReset(nodes: seq<Node>, table: bool): (r: Option<nat>)
    ensures r.Some? ==> r.value < |nodes| && Resets(nodes[r.value], table)
    ensures forall t :: (if r.Some? then r.value + 1 else 0) <= t < |nodes| ==> !Resets(nodes[t], table)
    decreases |nodes|
  {
    if |nodes| == 0 then None
    else if Resets(nodes[|nodes| - 1], table) then Some(|nodes| - 1)
    else LastReset(nodes[..|nodes| - 1], table)
  }

  /** After `nodes`, the next image starts a row exactly when no image has come since the last
      row break, or since the start when there is none. */
  predicate RowOpen(nodes: seq<Node>, table: bool) {
    CountImages(nodes[RowFrom(nodes, table)..]) == 0
  }

  /** Where the current row began: after the last row break, or at the start. */
  function RowFrom(nodes: seq<Node>, table: bool): (r: nat)
    ensures r <= |nodes|
  {
    var last := LastReset(nodes, table);
    if last.None? then 0 else last.value + 1
  }

  lemma RowOpenStep(ns: seq<Node>, e: Node, table: bool)
    ensures RowOpen(ns + [e], table) == if Resets(e, table) then true else if e.Image? then false else RowOpen(ns, table)
  {
    var w := ns + [e];
    assert w[..|w| - 1] == ns;
    if !Resets(e, table) {
      var from := RowFrom(ns, table);
      assert RowFrom(w, table) == from;
      assert w[from..] == ns[from..] + [e];
      CountImagesAppend(ns[from..], [e]);
    }
  }

  /** The loop's counts: one line and one stored entry per image, earlier entries untouched, and
      nothing but the substitutions and the identity counter changed. */
  lemma {:induction false} GridCounts(nodes: seq<Node>, table: bool, ctx: Ctx, percent: string -> Option<string>)
    requires GridFold(nodes, table, ctx, percent).Success?
    ensures var g := GridFold(nodes, table, ctx, percent).value;
            && |g.lines| == CountImages(nodes)
            && |g.ctx.substitutions| == |ctx.substitutions| + CountImages(nodes)
            && g.ctx.substitutions[..|ctx.substitutions|] == ctx.substitutions
            && g.ctx == ctx.(substitutions := g.ctx.substitutions, nextId := g.ctx.nextId)
            && g.ctx.nextId >= ctx.nextId
    decreases |nodes|
  {
    if |nodes| > 0 {
      var ns := nodes[..|nodes| - 1];
      GridCounts(ns, table, ctx, percent);
      StepSpec(GridFold(ns, table, ctx, percent).value, nodes[|nodes| - 1], table, percent);
      assert nodes == ns + [nodes[|nodes| - 1]];
      CountImagesAppend(ns, [nodes[|nodes| - 1]]);
    }
  }

  /** The loop's row flag is the reference one. */
  lemma {:induction false} GridRows(nodes: seq<Node>, table: bool, ctx: Ctx, percent: string -> Option<string>)
    requires GridFold(nodes, table, ctx, percent).Success?
    ensures GridFold(nodes, table, ctx, percent).value.rowOpen == RowOpen(nodes, table)
    decreases |nodes|
  {
    if |nodes| > 0 {
      var ns := nodes[..|nodes| - 1];
      GridRows(ns, table, ctx, percent);
      StepSpec(GridFold(ns, table, ctx, percent).value, nodes[|nodes| - 1], table, percent);
      assert nodes == ns + [nodes[|nodes| - 1]];
      RowOpenStep(ns, nodes[|nodes| - 1], table);
    }
  }

  /** Line `j` of the grid names the key "figure-<base + j>" (with the image's identifier),
      marked as starting a row or not, and entry `base + j` is stored under that key. */
  predicate ImageLine(g: Grid, base: nat, j: nat, startsRow: bool, identifier: string) {
    var key := SubstitutionKey(base + j, identifier);
    && j < |g.lines| && base + j < |g.ctx.substitutions|
    && g.lines[j].RawInline? && g.lines[j].text == GridLine(startsRow, key)
    && g.ctx.substitutions[base + j].0 == key
  }

  /** The image at position `i` gets line number `j`, the count of images before it: it starts
      a row exactly when the reference says a row is open there, and it names the key stored as
      entry `j` after the entries already present. */
  lemma {:induction false} GridLineAt(nodes: seq<Node>, table: bool, ctx: Ctx, percent: string -> Option<string>, i: nat)
    requires GridFold(nodes, table, ctx, percent).Success?
    requires i < |nodes| && nodes[i].Image?
    ensures ImageLine(GridFold(nodes, table, ctx, percent).value, |ctx.substitutions|, CountImages(nodes[..i]),
                      RowOpen(nodes[..i], table), nodes[i].attr.identifier)
    decreases |nodes|
  {
    var n := |nodes|;
    var ns := nodes[..n - 1];
    var g' := GridFold(ns, table, ctx, percent).value;
    var g := GridFold(nodes, table, ctx, percent).value;
    assert GridStep(g', nodes[n - 1], table, percent) == Success(g);
    if i < n - 1 {
      assert ns[..i] == nodes[..i];
      GridLineAt(ns, table, ctx, percent, i);
      StepKeepsLine(g', nodes[n - 1], table, percent, g, |ctx.substitutions|, CountImages(nodes[..i]),
                    RowOpen(nodes[..i], table), nodes[i].attr.identifier);
    } else {
      assert nodes[..i] == ns;
      GridSizes(ns, table, ctx, percent);
      GridRows(ns, table, ctx, percent);
      StepAddsLine(g', nodes[n - 1], table, percent, g, |ctx.substitutions|);
    }
  }

  lemma GridSizes(nodes: seq<Node>, table: bool, ctx: Ctx, percent: string -> Option<string>)
    requires GridFold(nodes, table, ctx, percent).Success?
    ensures var g := GridFold(nodes, table, ctx, percent).value;
            |g.lines| == CountImages(nodes) && |g.ctx.substitutions| == |ctx.substitutions| + CountImages(nodes)
  {
    GridCounts(nodes, table, ctx, percent);
  }

  /** A step leaves earlier lines and entries where they were. */
  lemma StepKeepsLine(g': Grid, e: Node, table: bool, percent: string -> Option<string>, g: Grid,
                      base: nat, j: nat, startsRow: bool, identifier: string)
    requires GridStep(g', e, table, percent) == Success(g)
    requires ImageLine(g', base, j, startsRow, identifier)
    ensures ImageLine(g, base, j, startsRow, identifier)
  {
    StepSpec(g', e, table, percent);
    if e.Image? {
      assert g.lines[..|g'.lines|][j] == g.lines[j];
      assert g.ctx.substitutions[..|g'.ctx.substitutions|][base + j] == g.ctx.substitutions[base + j];
    }
  }

  /** An image's step adds its own line after the others. */
  lemma StepAddsLine(g': Grid, e: Node, table: bool, percent: string -> Option<string>, g: Grid, base: nat)
    requires GridStep(g', e, table, percent) == Success(g) && e.Image?
    requires |g'.ctx.substitutions| == base + |g'.lines|
    ensures ImageLine(g, base, |g'.lines|, g'.rowOpen, e.attr.identifier)
  {
    StepSpec(g', e, table, percent);
    SteppedLine(g', g, base, e.attr.identifier);
  }

  lemma SteppedLine(g': Grid, g: Grid, base: nat, identifier: string)
    requires |g'.ctx.substitutions| == base + |g'.lines|
    requires ImageStepped(g', g, SubstitutionKey(base + |g'.lines|, identifier))
    ensures ImageLine(g, base, |g'.lines|, g'.rowOpen, identifier)
  {
  }

  /** Numbered keys stay numbered, and the only failure left is a malformed width. */
  lemma {:induction false} GridKeysNumbered(nodes: seq<Node>, table: bool, ctx: Ctx, percent: string -> Option<string>)
    requires NumberedKeys(ctx.substitutions)
    ensures var r := GridFold(nodes, table, ctx, percent);
            && (r.Success? ==> NumberedKeys(r.value.ctx.substitutions))
            && (r.Failure? ==> r.error == ValueError)
    decreases |nodes|
  {
    if |nodes| > 0 {
      var ns := nodes[..|nodes| - 1];
      var e := nodes[|nodes| - 1];
      GridKeysNumbered(ns, table, ctx, percent);
      var r := GridFold(ns, table, ctx, percent);
      if r.Success? {
        StepKeepsNumbered(r.value, e, table, percent);
      }
    }
  }

  lemma StepKeepsNumbered(g: Grid, e: Node, table: bool, percent: string -> Option<string>)
    requires NumberedKeys(g.ctx.substitutions)
    ensures var r := GridStep(g, e, table, percent);
            && (r.Success? ==> NumberedKeys(r.value.ctx.substitutions))
            && (r.Failure? ==> r.error == ValueError)
  {
    if e.Image? {
      var before := g.ctx.substitutions;
      FreshKey(before, e.attr.identifier);
      var r := GridStep(g, e, table, percent);
      if r.Success? {
        StepSpec(g, e, table, percent);
        AppendKeepsNumbered(before, r.value.ctx.substitutions);
      }
    }
  }

  lemma AppendKeepsNumbered(before: Dict<string, Node>, subs: Dict<string, Node>)
    requires NumberedKeys(before)
    requires |subs| == |before| + 1 && subs[..|before|] == before && NumberedKey(subs[|before|].0, |before|)
    ensures NumberedKeys(subs)
  {
    forall i | 0 <= i < |before|
      ensures NumberedKey(subs[i].0, i)
    {
      assert subs[i] == subs[..|before|][i];
    }
  }

  /** The check does fire on a table whose entries are not numbered by position: an entry
      "figure-1" alone makes the next image's key collide. */
  lemma DuplicateKeyFires(img: Node, stored: Node, ctx: Ctx, percent: string -> Option<string>)
    requires img.Image? && img.attr.identifier == ""
    requires ctx.substitutions == [("figure-1", stored)]
    ensures GridFold([img], false, ctx, percent) == Failure(AssertionError)
  {
    assert NatToString(1) == "1";
    assert [img][..0] == [];
    assert SubstitutionKey(1, "") == "figure-1";
    assert ctx.substitutions[0].0 == "figure-1";
  }

  /** The elements the loop visits: a paragraph's children, or every node of a table in the
      order `walk` visits them, children first. */
  function GridNodes(elem: Node): seq<Node> {
    if elem.Table? then Walk(elem) else Kids(elem)
  }

  /** `create_subplots(elem, doc)`: a "list-table" block, built as a Para, holding the label line
      and one line per image; the images themselves go to the substitution table. */
  function CreateSubplots(elem: Node, ctx: Ctx, percent: string -> Option<string>): (r: Result<Directives.Built>)
    ensures !elem.Para? && !elem.Table? ==> r == Failure(TypeError)
    ensures r.Failure? ==> r.error == TypeError || r.error == AssertionError || r.error == ValueError
    ensures r.Failure? && NumberedKeys(ctx.substitutions) ==> r.error == TypeError || r.error == ValueError
    ensures (elem.Para? || elem.Table?) ==> (r.Failure? <==> GridFold(GridNodes(elem), elem.Table?, ctx, percent).Failure?)
  {
    if !elem.Para? && !elem.Table? then Failure(TypeError)
    else
      match GridFold(GridNodes(elem), elem.Table?, ctx, percent)
      case Failure(err) =>
        assert NumberedKeys(ctx.substitutions) ==> err == ValueError by {
          if NumberedKeys(ctx.substitutions) {
            GridKeysNumbered(GridNodes(elem), elem.Table?, ctx, percent);
          }
        }
        Failure(err)
      case Success(g) => Success(ListTableBlock(elem, g))
  }

  /** The "list-table" block around the label line and the image lines, built as a Para after
      the loop has run. */
  function ListTableBlock(elem: Node, g: Grid): Directives.Built {
    LegacyDirective.CreateDirectiveBlock(elem, g.ctx.(nextId := g.ctx.nextId + 1),
                                              [RawInline(g.ctx.nextId, LabelLine(elem))] + g.lines,
                                              "list-table", Directives.WrapPara, "")
  }

  /** The label line: "\n:label: <identifier>" for a Table with an identifier, "\n" otherwise. */
  function LabelLine(elem: Node): string {
    if elem.Table? && elem.attr.identifier != "" then "\n:label: " + elem.attr.identifier else "\n"
  }

  /** A subplot goes through the loop and then the list-table builder; one without a level
      entry comes back as it is. */
  lemma SubplotsBuilt(elem: Node, ctx: Ctx, percent: string -> Option<string>, g: Grid)
    requires (elem.Para? || elem.Table?) && HasMultipleFigures(elem)
    requires GridFold(GridNodes(elem), elem.Table?, ctx, percent) == Success(g)
    ensures CreateSubplots(elem, ctx, percent) == Success(ListTableBlock(elem, g))
    ensures elem.id !in ctx.levels ==> ListTableBlock(elem, g).node == elem
  {
    GridKeepsLevels(GridNodes(elem), elem.Table?, ctx, percent);
  }

  /** The list-table form: a Para holding a line break, the "list-table" opening line with no
      argument (identity `first`), the label line `head`, the image lines in order, and the
      closing fence of the same level (identity `first + 1`). */
  predicate ListTableShaped(node: Node, first: nat, level: nat, head: Node, lines: seq<Node>) {
    var ks := Kids(node);
    && node.Para? && |ks| == |lines| + 4
    && ks[1] == RawInline(first, LegacyDirective.OpeningLine(level, "list-table", "") + "\n")
    && ks[2] == head && ks[3..|lines| + 3] == lines
    && ks[|lines| + 3] == RawInline(first + 1, "\n" + Directives.Fence(level) + "\n")
  }

  /** A subplot with a level entry takes the list-table form around its label line and its
      image lines. */
  lemma SubplotsSpec(elem: Node, ctx: Ctx, percent: string -> Option<string>, g: Grid)
    requires (elem.Para? || elem.Table?) && HasMultipleFigures(elem) && elem.id in ctx.levels
    requires GridFold(GridNodes(elem), elem.Table?, ctx, percent) == Success(g)
    ensures ListTableShaped(CreateSubplots(elem, ctx, percent).value.node, g.ctx.nextId + 2, ctx.levels[elem.id],
                            RawInline(g.ctx.nextId, LabelLine(elem)), g.lines)
  {
    SubplotsBuilt(elem, ctx, percent, g);
    GridKeepsLevels(GridNodes(elem), elem.Table?, ctx, percent);
    ListTableBlockShape(elem, g);
  }

  lemma ListTableBlockShape(elem: Node, g: Grid)
    requires (elem.Para? || elem.Table?) && HasMultipleFigures(elem) && elem.id in g.ctx.levels
    ensures ListTableShaped(ListTableBlock(elem, g).node, g.ctx.nextId + 2, g.ctx.levels[elem.id],
                            RawInline(g.ctx.nextId, LabelLine(elem)), g.lines)
  {
    var c := g.ctx.(nextId := g.ctx.nextId + 1);
    var head := RawInline(g.ctx.nextId, LabelLine(elem));
    assert LegacyDirective.IsDirectiveBlock(elem);
    ListTableShape(elem, c, head, g.lines);
    assert ListTableBlock(elem, g) == LegacyDirective.CreateDirectiveBlock(elem, c, [head] + g.lines, "list-table", Directives.WrapPara, "");
  }

  lemma GridKeepsLevels(nodes: seq<Node>, table: bool, ctx: Ctx, percent: string -> Option<string>)
    requires GridFold(nodes, table, ctx, percent).Success?
    ensures GridFold(nodes, table, ctx, percent).value.ctx.levels == ctx.levels
  {
    GridCounts(nodes, table, ctx, percent);
  }

  lemma ListTableShape(elem: Node, c: Ctx, head: Node, lines: seq<Node>)
    requires LegacyDirective.IsDirectiveBlock(elem) && elem.id in c.levels
    ensures ListTableShaped(LegacyDirective.CreateDirectiveBlock(elem, c, [head] + lines, "list-table", Directives.WrapPara, "").node,
                            c.nextId + 1, c.levels[elem.id], head, lines)
  {
    var content := [head] + lines;
    LegacyDirective.InlineFormSpec(elem, c, content, "list-table", Directives.WrapPara, "");
    assert content[1..] == lines;
  }
}

=== FILE: helpers.dfy ===
/** latex_to_myst/helpers.py: classification of elements, the line-break test around inline
    blocks, emphasis removal, the walk-until-match scan and the block identifier resolver. */
module Helpers {
  import opened Wrappers
  import opened Text
  import opened Tree

  /** `SUPPORTED_AMSTHM_BLOCKS` */
  const SupportedAmsthm: seq<string> := [
    "proof", "axiom", "theorem", "lemma", "algorithm", "definition", "remark", "conjecture",
    "corollary", "criterion", "example", "property", "observation", "proposition"]

  /** Some class of the list is one of `supported`. */
  predicate AnyIn(classes: seq<string>, supported: seq<string>) {
    exists i :: 0 <= i < |classes| && classes[i] in supported
  }

  // ---------------------------------------------------------------- images

  /** Number of Image nodes in a list of nodes. */
  function CountImages(ns: seq<Node>): nat {
    if |ns| == 0 then 0 else (if ns[0].Image? then 1 else 0) + CountImages(ns[1..])
  }

  lemma CountImagesAppend(a: seq<Node>, b: seq<Node>)
    ensures CountImages(a + b) == CountImages(a) + CountImages(b)
  {
    if |a| == 0 {
      assert a + b == b;
    } else {
      assert (a + b)[1..] == a[1..] + b;
      CountImagesAppend(a[1..], b);
    }
  }

  /** Image nodes in the subtree rooted at `n`, counted structurally. */
  function ImagesIn(n: Node): nat
    decreases n
  {
    (if n.Image? then 1 else 0) + (if IsContainer(n) then ImagesInSeq(n.content) else 0)
  }

  function ImagesInSeq(cs: seq<Node>): nat
    decreases cs
  {
    if |cs| == 0 then 0 else ImagesIn(cs[0]) + ImagesInSeq(cs[1..])
  }

  /** Counting the images the walk visits is the structural image count. */
  lemma {:induction false} WalkCountsImages(n: Node)
    ensures CountImages(Walk(n)) == ImagesIn(n)
    decreases n, 1
  {
    if IsContainer(n) {
      WalkSeqCountsImages(n.content);
      CountImagesAppend(WalkSeq(n.content), [n]);
    } else {
      assert Walk(n) == [n];
    }
  }

  lemma {:induction false} WalkSeqCountsImages(cs: seq<Node>)
    ensures CountImages(WalkSeq(cs)) == ImagesInSeq(cs)
    decreases cs, 0
  {
    if |cs| > 0 {
      WalkCountsImages(cs[0]);
      WalkSeqCountsImages(cs[1..]);
      CountImagesAppend(Walk(cs[0]), WalkSeq(cs[1..]));
    }
  }

  /** `elem_has_multiple_figures`: the walk meets more than one Image. */
  function HasMultipleFigures(n: Node): (r: bool)
    ensures r <==> ImagesIn(n) >= 2
  {
    WalkCountsImages(n);
    CountImages(Walk(n)) > 1
  }

  // ---------------------------------------------------------------- classification

  /** `get_element_type`. Tables are never classified. */
  function GetElementType(n: Node): (r: Option<string>)
    ensures r == Some("figure") <==> n.Image?
    ensures r == Some("subfigures") <==> n.Para? && ImagesIn(n) >= 2
    ensures r == Some("displaymath") <==> IsDisplayMath(n)
    ensures r == Some("amsthm") <==> n.Div? && AnyIn(n.attr.classes, SupportedAmsthm)
    ensures r == Some("header") <==> n.Header?
    ensures r.None? <==> !(n.Image? || (n.Para? && ImagesIn(n) >= 2) || IsDisplayMath(n)
                           || (n.Div? && AnyIn(n.attr.classes, SupportedAmsthm)) || n.Header?)
  {
    if n.Image? then Some("figure")
    else if n.Para? && HasMultipleFigures(n) then Some("subfigures")
    else if n.Math? && n.display then Some("displaymath")
    else if n.Div? && |n.attr.classes| > 0 && AnyIn(n.attr.classes, SupportedAmsthm) then Some("amsthm")
    else if n.Header? then Some("header")
    else None
  }

  // ---------------------------------------------------------------- line breaks

  /** `MARKDOWN_LINEBREAK_ELEM`: one shared module-level object, hence one fixed identity. */
  const MarkdownLinebreak: Node := RawInline(0, "\n")

  predicate EndsInNewline(s: string) {
    |s| > 0 && s[|s| - 1] in {'\r', '\n'}
  }

  predicate StartsWithNewline(s: string) {
    |s| > 0 && s[0] in {'\r', '\n'}
  }

  lemma NewlineForms(t: string)
    ensures EndsInNewline(t) <==> EndsWith(t, "\r") || EndsWith(t, "\n")
    ensures StartsWithNewline(t) <==> StartsWith(t, "\r") || StartsWith(t, "\n")
  {
    if |t| > 0 {
      assert t[|t| - 1..] == [t[|t| - 1]];
      assert t[..1] == [t[0]];
    }
  }

  /** `need_linebreak`: (before, after). A line break is needed before an inline block unless
      the previous sibling's text already ends in one, and after it unless the next sibling's
      text starts with one; no sibling, no line break. */
  function NeedLinebreak(sib: Siblings): (r: (bool, bool))
    ensures r.0 <==> sib.prev.Some? && !(EndsWith(Stringify(sib.prev.value), "\r") || EndsWith(Stringify(sib.prev.value), "\n"))
    ensures r.1 <==> sib.next.Some? && !(StartsWith(Stringify(sib.next.value), "\r") || StartsWith(Stringify(sib.next.value), "\n"))
  {
    var before := sib.prev.Some? && !EndsInNewline(Stringify(sib.prev.value));
    var after := sib.next.Some? && !StartsWithNewline(Stringify(sib.next.value));
    NewlineForms(if sib.prev.Some? then Stringify(sib.prev.value) else "");
    NewlineForms(if sib.next.Some? then Stringify(sib.next.value) else "");
    (before, after)
  }

  // ---------------------------------------------------------------- emphasis

  predicate NoEmph(ns: seq<Node>) {
    forall i :: 0 <= i < |ns| ==> !ns[i].Emph?
  }

  /** `elem.walk(remove_emph)`: every Emph becomes a Span holding the same children. The new
      Span takes over the Emph's identity (nothing refers to the discarded Emph). */
  function RemoveEmph(n: Node): (r: Node)
    ensures r.id == n.id
    decreases n, 1
  {
    if !IsContainer(n) then n
    else
      var cs := RemoveEmphSeq(n.content);
      if n.Emph? then Span(n.id, NoAttr, cs) else WithKids(n, cs)
  }

  function RemoveEmphSeq(cs: seq<Node>): (r: seq<Node>)
    ensures |r| == |cs|
    decreases cs, 0
  {
    if |cs| == 0 then [] else [RemoveEmph(cs[0])] + RemoveEmphSeq(cs[1..])
  }

  lemma NoEmphAppend(a: seq<Node>, b: seq<Node>)
    ensures NoEmph(a + b) <==> NoEmph(a) && NoEmph(b)
  {
    if NoEmph(a) && NoEmph(b) {
      forall i | 0 <= i < |a + b| ensures !(a + b)[i].Emph? {
        if i >= |a| { assert (a + b)[i] == b[i - |a|]; }
      }
    }
    if NoEmph(a + b) {
      forall i | 0 <= i < |a| ensures !a[i].Emph? {
        assert (a + b)[i] == a[i];
      }
      forall i | 0 <= i < |b| ensures !b[i].Emph? {
        assert (a + b)[|a| + i] == b[i];
      }
    }
  }

  /** Emphasis removal leaves no Emph behind and keeps every walked node's identity and text,
      in walk order; hence the stringified text is unchanged. */
  lemma RemoveEmphPreserves(n: Node)
    ensures NoEmph(Walk(RemoveEmph(n)))
    ensures Shape(Walk(RemoveEmph(n))) == Shape(Walk(n))
    ensures Stringify(RemoveEmph(n)) == Stringify(n)
  {
    RemoveEmphWalk(n);
    SameShapeSameText(Walk(RemoveEmph(n)), Walk(n));
  }

  lemma {:induction false} RemoveEmphWalk(n: Node)
    ensures NoEmph(Walk(RemoveEmph(n)))
    ensures Shape(Walk(RemoveEmph(n))) == Shape(Walk(n))
    decreases n, 2
  {
    if IsContainer(n) {
      RemoveEmphInner(n);
    } else {
      RemoveEmphLeaf(n);
    }
  }

  lemma RemoveEmphLeaf(n: Node)
    requires !IsContainer(n)
    ensures NoEmph(Walk(RemoveEmph(n))) && Shape(Walk(RemoveEmph(n))) == Shape(Walk(n))
  {
    assert RemoveEmph(n) == n;
    LeafWalk(n);
  }

  lemma {:induction false} RemoveEmphInner(n: Node)
    requires IsContainer(n)
    ensures NoEmph(Walk(RemoveEmph(n)))
    ensures Shape(Walk(RemoveEmph(n))) == Shape(Walk(n))
    decreases n, 1
  {
    RemoveEmphShape(n);
    RemoveEmphSeqPreserves(n.content);
    ParentWalk(RemoveEmph(n), n);
  }

  /** A container whose children walk like another's, with no Emph among them, walks like it
      too when the two agree on identity and text and it is no Emph itself. */
  lemma ParentWalk(r: Node, n: Node)
    requires IsContainer(r) && IsContainer(n) && !r.Emph? && r.id == n.id && Piece(r) == Piece(n)
    requires NoEmph(WalkSeq(r.content)) && Shape(WalkSeq(r.content)) == Shape(WalkSeq(n.content))
    ensures NoEmph(Walk(r)) && Shape(Walk(r)) == Shape(Walk(n))
  {
    ContainerWalk(r);
    ContainerWalk(n);
    NoEmphAppend(WalkSeq(r.content), [r]);
    ShapeAppend(WalkSeq(r.content), [r]);
    ShapeAppend(WalkSeq(n.content), [n]);
  }

  lemma {:induction false} RemoveEmphSeqPreserves(cs: seq<Node>)
    ensures NoEmph(WalkSeq(RemoveEmphSeq(cs)))
    ensures Shape(WalkSeq(RemoveEmphSeq(cs))) == Shape(WalkSeq(cs))
    decreases cs, 0
  {
    if |cs| > 0 {
      var r := RemoveEmphSeq(cs);
      var h := RemoveEmph(cs[0]);
      var t := RemoveEmphSeq(cs[1..]);
      assert r[0] == h && r[1..] == t;
      RemoveEmphWalk(cs[0]);
      RemoveEmphSeqPreserves(cs[1..]);
      assert WalkSeq(r) == Walk(h) + WalkSeq(t);
      NoEmphAppend(Walk(h), WalkSeq(t));
      ShapeAppend(Walk(h), WalkSeq(t));
      ShapeAppend(Walk(cs[0]), WalkSeq(cs[1..]));
    }
  }

  lemma RemoveEmphShape(n: Node)
    ensures IsContainer(RemoveEmph(n)) == IsContainer(n) && Piece(RemoveEmph(n)) == Piece(n)
    ensures !RemoveEmph(n).Emph?
    ensures IsContainer(n) ==> RemoveEmph(n).content == RemoveEmphSeq(n.content)
    ensures n.Div? ==> RemoveEmph(n) == Div(n.id, n.attr, RemoveEmphSeq(n.content))
    ensures !n.Emph? ==> Ident(RemoveEmph(n)) == Ident(n) && Classes(RemoveEmph(n)) == Classes(n)
                         && Attributes(RemoveEmph(n)) == Attributes(n)
  {
    if !IsContainer(n) {
      RemoveEmphUnfold(n);
    } else if n.Emph? {
      RemoveEmphUnfold(n);
      EmphSpanShape(n, RemoveEmphSeq(n.content));
    } else {
      RemoveEmphUnfold(n);
    }
  }

  lemma RemoveEmphUnfold(n: Node)
    ensures !IsContainer(n) ==> RemoveEmph(n) == n
    ensures n.Emph? ==> RemoveEmph(n) == Span(n.id, NoAttr, RemoveEmphSeq(n.content))
    ensures IsContainer(n) && !n.Emph? ==> RemoveEmph(n) == WithKids(n, RemoveEmphSeq(n.content))
  {
  }

  lemma EmphSpanShape(n: Node, cs: seq<Node>)
    requires n.Emph?
    ensures IsContainer(Span(n.id, NoAttr, cs)) && Piece(Span(n.id, NoAttr, cs)) == Piece(n)
  {
  }

  // ---------------------------------------------------------------- the \label{...} marker

  const LabelOpen := "\\label{"

  /** The regular expression `\\label\{([^\}]*)\}` (or with `+`, when `allowEmpty` is false)
      matching at position `i` with group `x`. */
  predicate LabelMatch(s: string, i: nat, x: string, allowEmpty: bool) {
    OccursAt(s, LabelOpen + x + "}", i) && '}' !in x && (allowEmpty || |x| > 0)
  }

  /** The same pattern tried at position `i`: the group runs to the first closing brace. */
  function LabelAt(s: string, i: nat, allowEmpty: bool): Option<string> {
    if !OccursAt(s, LabelOpen, i) then None
    else match FindChar(s, '}', i + |LabelOpen|)
      case None => None
      case Some(k) => if k == i + |LabelOpen| && !allowEmpty then None else Some(s[i + |LabelOpen|..k])
  }

  /** `LabelAt` decides exactly the regular-expression match at a position. */
  lemma LabelAtIsMatch(s: string, i: nat, x: string, allowEmpty: bool)
    ensures LabelAt(s, i, allowEmpty) == Some(x) <==> LabelMatch(s, i, x, allowEmpty)
  {
    var o := |LabelOpen|;
    if LabelMatch(s, i, x, allowEmpty) {
      assert s[i..i + o] == (LabelOpen + x + "}")[..o] == LabelOpen;
      assert forall t :: i + o <= t < i + o + |x| ==> s[t] == x[t - i - o] by {
        forall t | i + o <= t < i + o + |x| ensures s[t] == x[t - i - o] {
          assert s[t] == (LabelOpen + x + "}")[t - i];
        }
      }
      assert s[i + o + |x|] == (LabelOpen + x + "}")[o + |x|];
      assert s[i + o..i + o + |x|] == x;
    }
    if LabelAt(s, i, allowEmpty) == Some(x) {
      var k := FindChar(s, '}', i + o).value;
      assert s[i..k + 1] == LabelOpen + x + "}";
    }
  }

  /** `re.search`: the leftmost position from `i` on where the pattern matches. */
  function SearchLabel(s: string, allowEmpty: bool, i: nat): (r: Option<(nat, string)>)
    ensures r.Some? ==> i <= r.value.0 && LabelAt(s, r.value.0, allowEmpty) == Some(r.value.1)
    ensures r.Some? ==> forall q :: i <= q < r.value.0 ==> LabelAt(s, q, allowEmpty).None?
    ensures r.None? ==> forall q :: i <= q <= |s| ==> LabelAt(s, q, allowEmpty).None?
    decreases |s| + 1 - i
  {
    if i > |s| then None
    else match LabelAt(s, i, allowEmpty)
      case Some(x) => Some((i, x))
      case None => SearchLabel(s, allowEmpty, i + 1)
  }

  /** The first marker found by the search is the first place its own text occurs. */
  lemma FirstLabelOccurrence(s: string, p: nat, x: string)
    requires LabelAt(s, p, false) == Some(x)
    requires forall q :: 0 <= q < p ==> LabelAt(s, q, false).None?
    ensures OccursAt(s, LabelOpen + x + "}", p)
    ensures forall q :: 0 <= q < p ==> !OccursAt(s, LabelOpen + x + "}", q)
  {
    LabelAtIsMatch(s, p, x, false);
    forall q | 0 <= q < p ensures !OccursAt(s, LabelOpen + x + "}", q) {
      LabelAtIsMatch(s, q, x, false);
    }
  }

  // ---------------------------------------------------------------- stringify_until_match

  function Cat(parts: seq<string>): string {
    if |parts| == 0 then "" else Cat(parts[..|parts| - 1]) + parts[|parts| - 1]
  }

  /** The state `stringify_until_match` keeps between calls. */
  datatype Scan = Scan(substrings: seq<string>, nodes: seq<Node>, stop: bool)

  /** One call of `stringify_until_match` on node `e`: one piece and one node appended;
      `stop` is the `StopIteration`. */
  function UntilMatchStep(st: Scan, e: Node, target: string): (r: Scan)
    ensures |r.substrings| == |st.substrings| + 1 && r.substrings[..|st.substrings|] == st.substrings
    ensures r.substrings[|st.substrings|] == Piece(e)
    ensures r.nodes == st.nodes + [e]
    ensures r.stop <==> Strip(Cat(st.substrings) + Piece(e)) == Strip(target)
  {
    var subs := st.substrings + [Piece(e)];
    assert subs[..|subs| - 1] == st.substrings;
    Scan(subs, st.nodes + [e], Strip(Cat(subs)) == Strip(target))
  }

  /** The stripped text of the first `j` walked nodes equals the stripped target. */
  predicate MatchesAt(walk: seq<Node>, target: string, j: nat)
    requires j <= |walk|
  {
    Strip(Concat(walk[..j])) == Strip(target)
  }

  /** `walk(stringify_until_match)` until it raises: the number of walked nodes at the stop,
      or None when the walk ends without a match. */
  function StringifyUntilMatch(walk: seq<Node>, target: string): (r: Option<nat>)
    ensures r.Some? ==> 1 <= r.value <= |walk| && MatchesAt(walk, target, r.value)
    ensures r.Some? ==> forall j :: 1 <= j < r.value ==> !MatchesAt(walk, target, j)
    ensures r.None? ==> forall j :: 1 <= j <= |walk| ==> !MatchesAt(walk, target, j)
  {
    ScanFrom(walk, target, 0, Scan([], [], false))
  }

  lemma CatSnoc(p: seq<string>, x: string)
    ensures Cat(p + [x]) == Cat(p) + x
  {
    assert (p + [x])[..|p|] == p;
  }

  lemma ConcatPrefixStep(walk: seq<Node>, i: nat)
    requires i < |walk|
    ensures Concat(walk[..i + 1]) == Concat(walk[..i]) + Piece(walk[i])
  {
    assert walk[..i + 1] == walk[..i] + [walk[i]];
    ConcatAppend(walk[..i], [walk[i]]);
  }

  function ScanFrom(walk: seq<Node>, target: string, i: nat, st: Scan): (r: Option<nat>)
    requires i <= |walk|
    requires st.nodes == walk[..i] && Cat(st.substrings) == Concat(walk[..i])
    requires forall j :: 1 <= j <= i ==> !MatchesAt(walk, target, j)
    ensures r.Some? ==> i < r.value <= |walk| && MatchesAt(walk, target, r.value)
    ensures r.Some? ==> forall j :: 1 <= j < r.value ==> !MatchesAt(walk, target, j)
    ensures r.None? ==> forall j :: 1 <= j <= |walk| ==> !MatchesAt(walk, target, j)
    decreases |walk| - i
  {
    if i == |walk| then None
    else
      var st' := UntilMatchStep(st, walk[i], target);
      ScanStep(walk, target, i, st, st');
      if st'.stop then Some(i + 1)
      else ScanFrom(walk, target, i + 1, st')
  }

  lemma ScanStep(walk: seq<Node>, target: string, i: nat, st: Scan, st': Scan)
    requires i < |walk|
    requires st.nodes == walk[..i] && Cat(st.substrings) == Concat(walk[..i])
    requires st' == UntilMatchStep(st, walk[i], target)
    ensures st'.nodes == walk[..i + 1] && Cat(st'.substrings) == Concat(walk[..i + 1])
    ensures st'.stop <==> MatchesAt(walk, target, i + 1)
  {
    assert st'.substrings == st.substrings + [Piece(walk[i])];
    CatSnoc(st.substrings, Piece(walk[i]));
    ConcatPrefixStep(walk, i);
    assert walk[..i + 1] == walk[..i] + [walk[i]];
  }

  // ---------------------------------------------------------------- identifiers

  function Minted(blockType: string, n: nat): string {
    blockType + "-" + NatToString(n)
  }

  ghost function MaxLen(s: set<string>): (m: nat)
    ensures forall k :: k in s ==> |k| <= m
  {
    if s == {} then 0
    else
      var k :| k in s;
      var m := MaxLen(s - {k});
      if |k| > m then |k| else m
  }

  /** The `while identifier in doc.element_labels` loop: the first free counter from `ctr` on. */
  function FreeCounter(labels: map<string, Node>, blockType: string, ctr: nat): (c: nat)
    ensures c >= ctr && Minted(blockType, c) !in labels
    ensures forall j :: ctr <= j < c ==> Minted(blockType, j) in labels
    decreases Pow10(MaxLen(labels.Keys)) - ctr
  {
    if Minted(blockType, ctr) !in labels then ctr
    else
      ShortNumeralIsSmall(ctr, MaxLen(labels.Keys));
      FreeCounter(labels, blockType, ctr + 1)
  }

  /** The starting counter: how many labels begin with the block type. */
  function PrefixCount(labels: map<string, Node>, blockType: string): nat {
    |set k | k in labels.Keys && StartsWith(k, blockType)|
  }

  /** What `get_block_identifier` returns and leaves behind: the identifier, the element with
      its attributes possibly popped, and the label table. */
  datatype Resolved = Resolved(identifier: string, elem: Node, labels: map<string, Node>)

  /** The attributes left after popping "label" and "name". */
  function PopLabelName(a: Dict<string, string>): Dict<string, string> {
    Del(Del(a, "label"), "name")
  }

  lemma PopKeepsDistinct(a: Dict<string, string>)
    ensures DistinctKeys(a) ==> DistinctKeys(PopLabelName(a))
  {
    if DistinctKeys(a) {
      DelDistinct(a, "label");
      DelDistinct(Del(a, "label"), "name");
    }
  }

  /** The identifier found in the attributes: a non-empty "name" wins over "label". */
  function AttrIdentifier(a: Dict<string, string>): string {
    var lab := Lookup(a, "label").GetOr("");
    var name := Lookup(Del(a, "label"), "name").GetOr("");
    if name != "" then name else lab
  }

  /** `get_block_identifier(elem, doc, create_if_not_found, block_type)` */
  function GetBlockIdentifier(elem: Node, labels: map<string, Node>, create: bool, blockType: string): (r: Resolved)
    // 1. an existing identifier wins and nothing changes
    ensures Ident(elem) != "" ==> r == Resolved(Ident(elem), elem, labels)
    // 2. non-empty attributes lose both "label" and "name"; "name" is preferred
    ensures Ident(elem) == "" && Attributes(elem) != [] ==>
              Attributes(r.elem) == PopLabelName(Attributes(elem))
              && (AttrIdentifier(Attributes(elem)) != "" ==> r.identifier == AttrIdentifier(Attributes(elem)) && r.labels == labels)
    ensures Ident(elem) == "" && Attributes(elem) == [] ==> r.elem == elem
    ensures DistinctKeys(Attributes(elem)) ==> DistinctKeys(Attributes(r.elem))
    ensures r.elem.id == elem.id && Ident(r.elem) == Ident(elem) && Classes(r.elem) == Classes(elem)
    ensures Kids(r.elem) == Kids(elem) && r.elem.Div? == elem.Div? && IsInline(r.elem) == IsInline(elem)
    // 3. a minted identifier is fresh, of the form "{block_type}-{n}", and maps to the element
    ensures Ident(elem) == "" && AttrIdentifier(Attributes(elem)) == "" && create ==>
              r.identifier !in labels && r.labels == labels[r.identifier := r.elem]
              && (exists n: nat :: n >= PrefixCount(labels, blockType) && r.identifier == Minted(blockType, n)
                    && forall j :: PrefixCount(labels, blockType) <= j < n ==> Minted(blockType, j) in labels)
    ensures Ident(elem) == "" && AttrIdentifier(Attributes(elem)) == "" && !create ==>
              r.identifier == "" && r.labels == labels
  {
    if Ident(elem) != "" then Resolved(Ident(elem), elem, labels)
    else
      var popped := if Attributes(elem) != [] then SetAttributes(elem, PopLabelName(Attributes(elem))) else elem;
      PopKeepsDistinct(Attributes(elem));
      var identifier := if Attributes(elem) != [] then AttrIdentifier(Attributes(elem)) else "";
      assert Attributes(elem) == [] ==> AttrIdentifier(Attributes(elem)) == "";
      if identifier != "" then Resolved(identifier, popped, labels)
      else if create then
        var n := FreeCounter(labels, blockType, PrefixCount(labels, blockType));
        var minted := Minted(blockType, n);
        Resolved(minted, popped, labels[minted := popped])
      else Resolved("", popped, labels)
  }
}

=== FILE: hyperlink.dfy ===
/** The Link pass (`latex_to_myst/hyperlink.py`): URL clean-up for plain links and the choice
    of a MyST cross-reference role for links that carry a `reference` attribute. */
module Hyperlink {
  import opened Wrappers
  import opened Text
  import opened Tree
  import opened Helpers

  /** The role hyperlink.py picks for a target of the given element type, tested in its
      order. "dislaymath" is in the "ref" list as hyperlink.py spells it, so a real
      "displaymath" target reaches the "eq" test. None is the fall-through after the
      error log, which no type that `get_element_type` produces reaches. */
  function RoleFor(targetType: string): (r: Option<string>)
    ensures r.Some? <==> targetType in {"figure", "subfigures", "dislaymath", "header", "amsthm", "displaymath"}
  {
    if targetType == "figure" then Some("numref")
    else if targetType in {"subfigures", "dislaymath", "header"} then Some("ref")
    else if targetType == "amsthm" then Some("prf:ref")
    else if targetType == "displaymath" then Some("eq")
    else None
  }

  /** The inline markdown for a role applied to a target: {role}`target`. */
  function RoleText(role: string, target: string): (r: string)
    ensures StartsWith(r, "{" + role + "}`") && EndsWith(r, "`")
    ensures |r| == |role| + |target| + 4
  {
    var r := "{" + role + "}`" + target + "`";
    assert r[..|role| + 3] == "{" + role + "}`";
    r
  }

  /** The role a reader of the MyST output expects for a link to `n`, stated by node kind
      alone: figures are numbered references, equations use `eq`, theorem-like blocks use
      `prf:ref`, sub-figure paragraphs and headers use the generic `ref`; anything else
      gets no role. */
  function ExpectedRole(n: Node): Option<string> {
    if n.Image? then Some("numref")
    else if n.Para? && ImagesIn(n) >= 2 then Some("ref")
    else if IsDisplayMath(n) then Some("eq")
    else if n.Div? && AnyIn(n.attr.classes, SupportedAmsthm) then Some("prf:ref")
    else if n.Header? then Some("ref")
    else None
  }

  /** Chaining the element classification with the role table gives the kind-based role; in
      particular every classified target gets a role, so the error branch is unreachable. */
  lemma RoleOfTarget(n: Node)
    ensures GetElementType(n).Some? ==> RoleFor(GetElementType(n).value) == ExpectedRole(n)
    ensures GetElementType(n).None? <==> ExpectedRole(n).None?
  {
  }

  /** The URL of a link without attributes: spaces dropped iff it mentions "http". */
  function CleanUrl(url: string): (r: string)
    ensures Contains(url, "http") ==> r == RemoveChar(url, ' ')
    ensures !Contains(url, "http") ==> r == url
  {
    if Contains(url, "http") then
      JoinSplitRemoves(url, ' ');
      Join("", Split(url, ' '))
    else url
  }

  /** A cleaned URL has no space left when it was a web address, and cleaning twice
      changes nothing more. */
  lemma CleanUrlIdempotent(url: string)
    ensures Contains(url, "http") ==> ' ' !in CleanUrl(url)
    ensures CleanUrl(CleanUrl(url)) == CleanUrl(url)
  {
  }

  /** The link after a `reference` attribute has been consumed: attributes emptied, the
      target as its URL, identifier, classes and children kept. */
  function Cleared(elem: Node, target: string): (r: Node)
    requires elem.Link?
    ensures r.Link? && r.id == elem.id && r.url == target && r.content == elem.content
    ensures r.attr.attributes == [] && r.attr.identifier == elem.attr.identifier
    ensures r.attr.classes == elem.attr.classes
  {
    Link(elem.id, elem.attr.(attributes := []), target, elem.content)
  }

  /** What hyperlink.py's rewrite of a referencing link returns, given the target. */
  function Resolve(elem: Node, target: string, ctx: Ctx): (r: Step)
    requires elem.Link?
    ensures r.ctx.levels == ctx.levels && r.ctx.labels == ctx.labels
    ensures r.ctx.sections == ctx.sections && r.ctx.substitutions == ctx.substitutions
    ensures r.ctx.nextId == ctx.nextId || r.ctx.nextId == ctx.nextId + 1
  {
    var bumped := ctx.(nextId := ctx.nextId + 1);
    if target in ctx.labels then
      match GetElementType(ctx.labels[target])
      case None => Step(Replace([Cleared(elem, target)]), ctx)
      case Some(t) =>
        (match RoleFor(t)
         case Some(role) => Step(Replace([RawInline(ctx.nextId, RoleText(role, target))]), bumped)
         case None => Step(Replace([Cleared(elem, target)]), ctx))
    else Step(Replace([RawInline(ctx.nextId, RoleText("ref", target))]), bumped)
  }

  /** The `action` of hyperlink.py. */
  function LinkAction(elem: Node, sib: Siblings, ctx: Ctx): (r: Result<Step>)
    ensures r.Success?
    ensures !elem.Link? ==> r.value == Step(Keep, ctx)
    ensures elem.Link? && elem.attr.attributes == [] ==>
              r.value == Step(Replace([Link(elem.id, elem.attr, CleanUrl(elem.url), elem.content)]), ctx)
    ensures elem.Link? && elem.attr.attributes != [] && !HasKey(elem.attr.attributes, "reference") ==>
              r.value == Step(Keep, ctx)
    ensures elem.Link? && HasKey(elem.attr.attributes, "reference") ==>
              r.value == Resolve(elem, Lookup(elem.attr.attributes, "reference").value, ctx)
  {
    if !elem.Link? then Success(Step(Keep, ctx))
    else if elem.attr.attributes == [] then
      Success(Step(Replace([Link(elem.id, elem.attr, CleanUrl(elem.url), elem.content)]), ctx))
    else
      match Lookup(elem.attr.attributes, "reference")
      case None => Success(Step(Keep, ctx))
      case Some(target) => Success(Resolve(elem, target, ctx))
  }

  /** A referencing link becomes exactly one node: a fresh role reference when its target is
      unknown or of a kind that has a role, otherwise the cleared link itself. */
  lemma {:induction false} ReferenceSpec(elem: Node, sib: Siblings, ctx: Ctx, target: string)
    requires elem.Link? && Lookup(elem.attr.attributes, "reference") == Some(target)
    ensures var s := LinkAction(elem, sib, ctx).value;
      && (target !in ctx.labels ==>
            s == Step(Replace([RawInline(ctx.nextId, RoleText("ref", target))]), ctx.(nextId := ctx.nextId + 1)))
      && (target in ctx.labels && ExpectedRole(ctx.labels[target]).Some? ==>
            s == Step(Replace([RawInline(ctx.nextId, RoleText(ExpectedRole(ctx.labels[target]).value, target))]),
                      ctx.(nextId := ctx.nextId + 1)))
      && (target in ctx.labels && ExpectedRole(ctx.labels[target]).None? ==>
            s == Step(Replace([Cleared(elem, target)]), ctx))
  {
    assert HasKey(elem.attr.attributes, "reference");
    if target in ctx.labels {
      RoleOfTarget(ctx.labels[target]);
    }
  }
}

=== FILE: legacy_directive.dfy ===
/** latex_to_myst/directive.py, the older revision of the directive builder that figures.py and
    latex_math.py import. It differs from directives.py in small ways: a Div is a directive only
    with a theorem-like class, a missing level entry leaves the element as it is, and the header
    and footer lines are written out directly instead of through a template. */
module LegacyDirective {
  import opened Wrappers
  import opened Text
  import opened Tree
  import opened Helpers
  import Nesting
  import Directives

  /** This revision's `SUPPORTED_AMSTHM_BLOCKS`: the theorem-like kinds, plus "result" and
      "center", which the book needs. */
  const SupportedLegacy: seq<string> := [
    "remark", "theorem", "example", "lemma", "definition", "proof", "axiom", "criterion",
    "conjecture", "corollary", "algorithm", "property", "observation", "proposition",
    "result", "center"]

  /** The list is the newer one plus exactly "result" and "center". */
  lemma SupportedLegacyExtends()
    ensures forall k :: k in SupportedAmsthm ==> k in SupportedLegacy
    ensures forall k :: k in SupportedLegacy ==> k in SupportedAmsthm || k == "result" || k == "center"
  {
  }

  // ---------------------------------------------------------------- classification and level

  /** `is_directive_block`: display math, a Div with a supported class, an Image, or a Para or
      Table holding at least two images. */
  function IsDirectiveBlock(n: Node): (r: bool)
    ensures r <==> IsDisplayMath(n) || (n.Div? && AnyIn(n.attr.classes, SupportedLegacy)) || n.Image?
                   || ((n.Para? || n.Table?) && ImagesIn(n) >= 2)
  {
    IsDisplayMath(n) || (n.Div? && AnyIn(n.attr.classes, SupportedLegacy)) || n.Image?
    || (n.Para? && HasMultipleFigures(n)) || (n.Table? && HasMultipleFigures(n))
  }

  /** Only Divs tell the two revisions apart: on every other node the directive tests agree,
      and a Div only counts here when one of its classes is supported. */
  lemma AgreesWithNewer(n: Node)
    ensures !n.Div? ==> (IsDirectiveBlock(n) <==> Directives.IsDirectiveBlock(n))
    ensures IsDirectiveBlock(n) ==> Directives.IsDirectiveBlock(n)
    ensures n.Div? && !AnyIn(n.attr.classes, SupportedLegacy) ==> !IsDirectiveBlock(n) && Directives.IsDirectiveBlock(n)
  {
  }

  /** `directive_level(elem, doc, starting_level)` of this revision. */
  function DirectiveLevel(n: Node, start: nat): (r: nat)
    ensures r >= start + (if IsDirectiveBlock(n) then 1 else 0)
  {
    Nesting.LevelAtLeastStart(IsDirectiveBlock, n, start);
    Nesting.Level(IsDirectiveBlock, n, start)
  }

  /** A directive node's level is strictly above that of every node on a path the calculation
      inspects below it. */
  lemma DirectiveAboveNested(n: Node, p: seq<nat>)
    requires IsDirectiveBlock(n) && Nesting.ValidPath(n, p) && |p| > 0
    ensures DirectiveLevel(n, 0) > DirectiveLevel(Nesting.NodeAt(n, p), 0)
  {
    Nesting.DirectiveAboveDescendants(IsDirectiveBlock, n, p);
  }

  /** Counting fewer Divs as directives never nests deeper than the newer revision. */
  lemma LevelNoDeeperThanNewer(n: Node, start: nat)
    ensures DirectiveLevel(n, start) <= Directives.DirectiveLevel(n, start)
  {
    forall m ensures IsDirectiveBlock(m) ==> Directives.IsDirectiveBlock(m) {
      AgreesWithNewer(m);
    }
    Nesting.LevelMonotone(IsDirectiveBlock, Directives.IsDirectiveBlock, n, start);
  }

  // ---------------------------------------------------------------- image_in_subplot

  /** `elem.ancestor(k)` for the chain of enclosing nodes, nearest first; None once the chain
      has run out. */
  function Ancestor(ancestors: seq<Node>, k: nat): (r: Option<Node>)
    requires k >= 1
    ensures r.Some? <==> k <= |ancestors|
    ensures r.Some? ==> r.value == ancestors[k - 1]
  {
    if k <= |ancestors| then Some(ancestors[k - 1]) else None
  }

  /** `elem_has_multiple_figures` on an ancestor: walking a missing one is an AttributeError. */
  function FiguresIn(a: Option<Node>): (r: Result<bool>)
    ensures a.None? <==> r == Failure(AttributeError)
    ensures a.Some? ==> r == Success(ImagesIn(a.value) >= 2)
  {
    match a
    case None => Failure(AttributeError)
    case Some(t) => Success(HasMultipleFigures(t))
  }

  function TableCellAt(ancestors: seq<Node>, k: nat): bool
    requires k >= 1
  {
    var a := Ancestor(ancestors, k);
    a.Some? && a.value.TableCell?
  }

  /** `image_in_subplot`: a parent paragraph, else the table four levels up from a parent cell,
      else the table five levels up from a grandparent cell, holds at least two images. */
  function ImageInSubplot(ancestors: seq<Node>): (r: Result<bool>)
    ensures r.Failure? <==> !(|ancestors| > 0 && ancestors[0].Para?)
                            && ((TableCellAt(ancestors, 1) && |ancestors| < 4)
                                || (!TableCellAt(ancestors, 1) && TableCellAt(ancestors, 2) && |ancestors| < 5))
    ensures r.Failure? ==> r.error == AttributeError
    ensures r == Success(true) ==> exists a :: a in ancestors && ImagesIn(a) >= 2
  {
    var parent := Ancestor(ancestors, 1);
    if parent.Some? && parent.value.Para? then FiguresIn(parent)
    else if TableCellAt(ancestors, 1) then FiguresIn(Ancestor(ancestors, 4))
    else if TableCellAt(ancestors, 2) then FiguresIn(Ancestor(ancestors, 5))
    else Success(false)
  }

  /** An image sits in a subplot exactly when the enclosing paragraph, or the table enclosing
      its cell, is itself a directive of the subfigure kind. */
  lemma SubplotIsDirective(ancestors: seq<Node>)
    ensures |ancestors| > 0 && ancestors[0].Para? ==>
              ImageInSubplot(ancestors) == Success(IsDirectiveBlock(ancestors[0]))
    ensures |ancestors| >= 4 && ancestors[0].TableCell? && ancestors[3].Table? ==>
              ImageInSubplot(ancestors) == Success(IsDirectiveBlock(ancestors[3]))
    ensures |ancestors| >= 5 && !ancestors[0].Para? && !ancestors[0].TableCell? && ancestors[1].TableCell?
            && ancestors[4].Table? ==>
              ImageInSubplot(ancestors) == Success(IsDirectiveBlock(ancestors[4]))
    ensures ((|ancestors| == 0 || !(ancestors[0].Para? || ancestors[0].TableCell?))
             && (|ancestors| < 2 || !ancestors[1].TableCell?)) ==> ImageInSubplot(ancestors) == Success(false)
  {
  }

  // ---------------------------------------------------------------- create_directive_block

  /** The opening line of a block element: the fence, the type and the label. */
  function OpeningLine(level: nat, blockType: string, argument: string): string {
    Directives.Fence(level) + "{" + blockType + "} " + argument
  }

  /** The children of the block built around `content`; wrapper, header and footer take the
      identities k, k+1 and k+2. `softBreak` is the leading node of the inline form. */
  function BlockNodes(div: bool, k: nat, level: nat, blockType: string, argument: string,
                      content: seq<Node>, softBreak: Node): seq<Node> {
    if div then
      [RawBlock(k + 1, OpeningLine(level, blockType, argument))] + content + [RawBlock(k + 2, Directives.Fence(level))]
    else
      [softBreak, RawInline(k + 1, OpeningLine(level, blockType, argument) + "\n")] + content
      + [RawInline(k + 2, "\n" + Directives.Fence(level) + "\n")]
  }

  /** `create_directive_block(elem, doc, content, block_type, create_using, label)`. An element
      that is not a directive, or that has no level entry, comes back as it is. The inline form
      lists the class `pf.SoftBreak` rather than an instance; panflute's container type check
      calls a class it is handed, so a SoftBreak node of its own (identity k+3) opens the block. */
  function CreateDirectiveBlock(elem: Node, ctx: Ctx, content: seq<Node>, blockType: string,
                                using: Directives.Wrap, argument: string): (r: Directives.Built)
    ensures !IsDirectiveBlock(elem) || elem.id !in ctx.levels ==> r == Directives.Built(elem, ctx)
    ensures IsDirectiveBlock(elem) && elem.id in ctx.levels ==> r.node.id == ctx.nextId
    ensures r.ctx == ctx.(nextId := r.ctx.nextId) && r.ctx.nextId >= ctx.nextId
  {
    if !IsDirectiveBlock(elem) || elem.id !in ctx.levels then Directives.Built(elem, ctx)
    else
      var div := using == Directives.WrapDiv;
      var cs := BlockNodes(div, ctx.nextId, ctx.levels[elem.id], blockType, argument, content, SoftBreak(ctx.nextId + 3));
      Directives.Built(Directives.Wrapped(using, ctx.nextId, cs), ctx.(nextId := ctx.nextId + (if div then 3 else 4)))
  }

  /** The Div form: a RawBlock opening with the recorded level's fence, the block type and the
      label; the content in order; a RawBlock holding exactly the same fence. The wrapper is a
      fresh Div and only the identity counter of the side tables moves. */
  lemma DivFormSpec(elem: Node, ctx: Ctx, content: seq<Node>, blockType: string, argument: string)
    requires IsDirectiveBlock(elem) && elem.id in ctx.levels
    ensures var r := CreateDirectiveBlock(elem, ctx, content, blockType, Directives.WrapDiv, argument);
            var f := Directives.Fence(ctx.levels[elem.id]);
            var ks := Kids(r.node);
            && r.node.Div? && r.node.id == ctx.nextId && r.ctx == ctx.(nextId := ctx.nextId + 3)
            && |ks| == |content| + 2 && ks[1..|content| + 1] == content
            && ks[0].RawBlock? && StartsWith(ks[0].text, f + "{" + blockType + "} ")
            && ks[0].text[|f| + |blockType| + 3..] == argument
            && ks[|content| + 1] == RawBlock(ctx.nextId + 2, f)
  {
    var f := Directives.Fence(ctx.levels[elem.id]);
    var t := OpeningLine(ctx.levels[elem.id], blockType, argument);
    assert t == (f + "{" + blockType + "} ") + argument;
  }

  /** The inline form: a line break, a RawInline holding the opening line and a
      newline, the content in order, and a RawInline holding the same fence between newlines. */
  lemma InlineFormSpec(elem: Node, ctx: Ctx, content: seq<Node>, blockType: string,
                       using: Directives.Wrap, argument: string)
    requires IsDirectiveBlock(elem) && elem.id in ctx.levels && using != Directives.WrapDiv
    ensures var r := CreateDirectiveBlock(elem, ctx, content, blockType, using, argument);
            var f := Directives.Fence(ctx.levels[elem.id]);
            var ks := Kids(r.node);
            && r.node == Directives.Wrapped(using, ctx.nextId, ks) && r.ctx == ctx.(nextId := ctx.nextId + 4)
            && |ks| == |content| + 3 && ks[2..|content| + 2] == content
            && ks[0] == SoftBreak(ctx.nextId + 3)
            && ks[1] == RawInline(ctx.nextId + 1, f + "{" + blockType + "} " + argument + "\n")
            && ks[|content| + 2] == RawInline(ctx.nextId + 2, "\n" + f + "\n")
  {
  }

  /** Whatever label either carries, a directive's fence is strictly wider than the fence of
      any directive nested in it when levels are those of `directive_level`. */
  lemma OuterFenceWider(n: Node, p: seq<nat>)
    requires IsDirectiveBlock(n) && Nesting.ValidPath(n, p) && |p| > 0
    ensures |Directives.Fence(DirectiveLevel(n, 0))| > |Directives.Fence(DirectiveLevel(Nesting.NodeAt(n, p), 0))|
  {
    DirectiveAboveNested(n, p);
  }
}

=== FILE: legacy_math.dfy ===
/** latex_to_myst/latex_math.py: the older theorem-block and display-math rewriters, built on
    the builder of directive.py. Its emphasis removal and walk-until-match scan are those of
    helpers.py and are shared with the newer revision. */
module LegacyMath {
  import opened Wrappers
  import opened Text
  import opened Tree
  import opened Helpers
  import AmsMath
  import Directives
  import LegacyDirective

  // ---------------------------------------------------------------- label spans

  /** A Span carrying a "label" attribute: how LaTeX's `\label{...}` reaches the tree. */
  predicate LabelledSpan(n: Node) {
    n.Span? && HasKey(n.attr.attributes, "label")
  }

  predicate NoLabelled(ns: seq<Node>) {
    forall i :: 0 <= i < |ns| ==> !LabelledSpan(ns[i])
  }

  lemma NoLabelledAppend(a: seq<Node>, b: seq<Node>)
    ensures NoLabelled(a + b) <==> NoLabelled(a) && NoLabelled(b)
  {
    if NoLabelled(a) && NoLabelled(b) {
      forall i | 0 <= i < |a + b| ensures !LabelledSpan((a + b)[i]) {
        if i >= |a| { assert (a + b)[i] == b[i - |a|]; }
      }
    }
    if NoLabelled(a + b) {
      forall i | 0 <= i < |a| ensures !LabelledSpan(a[i]) {
        assert (a + b)[i] == a[i];
      }
      forall i | 0 <= i < |b| ensures !LabelledSpan(b[i]) {
        assert (a + b)[|a| + i] == b[i];
      }
    }
  }

  /** The walk position of the last labelled Span: the one whose label the identifier search
      keeps, since each labelled Span it meets overwrites the previous one. */
  function LastLabelled(w: seq<Node>): (r: Option<nat>)
    ensures r.Some? ==> r.value < |w| && LabelledSpan(w[r.value])
    ensures r.Some? ==> forall j :: r.value < j < |w| ==> !LabelledSpan(w[j])
    ensures r.None? ==> NoLabelled(w)
    decreases |w|
  {
    if |w| == 0 then None
    else if LabelledSpan(w[|w| - 1]) then Some(|w| - 1)
    else LastLabelled(w[..|w| - 1])
  }

  /** The walk's `return []` for every labelled Span: each is dropped, with what it holds. */
  function DropLabelled(n: Node): (r: Node)
    decreases n, 1
  {
    if IsContainer(n) then WithKids(n, DropLabelledSeq(n.content)) else n
  }

  function DropLabelledSeq(cs: seq<Node>): seq<Node>
    decreases cs, 0
  {
    if |cs| == 0 then []
    else (if LabelledSpan(cs[0]) then [] else [DropLabelled(cs[0])]) + DropLabelledSeq(cs[1..])
  }

  lemma DropLabelledShape(n: Node)
    ensures DropLabelled(n).id == n.id && IsContainer(DropLabelled(n)) == IsContainer(n)
    ensures LabelledSpan(DropLabelled(n)) == LabelledSpan(n)
    ensures IsContainer(n) ==> DropLabelled(n).content == DropLabelledSeq(n.content)
  {
  }

  /** Below a node that is not itself a labelled Span, no labelled Span is left. */
  lemma {:induction false} DropLabelledClean(n: Node)
    requires !LabelledSpan(n)
    ensures NoLabelled(Walk(DropLabelled(n)))
    decreases n, 2
  {
    var r := DropLabelled(n);
    DropLabelledShape(n);
    if IsContainer(n) {
      DropLabelledSeqClean(n.content);
      ContainerWalk(r);
      NoLabelledAppend(WalkSeq(r.content), [r]);
    } else {
      LeafWalk(r);
    }
  }

  lemma {:induction false} DropLabelledSeqClean(cs: seq<Node>)
    ensures NoLabelled(WalkSeq(DropLabelledSeq(cs)))
    decreases cs, 0
  {
    if |cs| > 0 {
      var h: seq<Node> := if LabelledSpan(cs[0]) then [] else [DropLabelled(cs[0])];
      var t := DropLabelledSeq(cs[1..]);
      DropLabelledSeqClean(cs[1..]);
      WalkSeqAppend(h, t);
      if !LabelledSpan(cs[0]) {
        DropLabelledClean(cs[0]);
        WalkSeqSingle(DropLabelled(cs[0]));
      }
      NoLabelledAppend(WalkSeq(h), WalkSeq(t));
    }
  }

  /** A subtree without labelled Spans comes back unchanged. */
  lemma {:induction false} DropLabelledUnchanged(n: Node)
    requires NoLabelled(Walk(n))
    ensures DropLabelled(n) == n
    decreases n, 2
  {
    if IsContainer(n) {
      ContainerWalk(n);
      NoLabelledAppend(WalkSeq(n.content), [n]);
      DropLabelledSeqUnchanged(n.content);
    }
  }

  lemma {:induction false} DropLabelledSeqUnchanged(cs: seq<Node>)
    requires NoLabelled(WalkSeq(cs))
    ensures DropLabelledSeq(cs) == cs
    decreases cs, 0
  {
    if |cs| > 0 {
      var w := Walk(cs[0]);
      assert WalkSeq(cs) == w + WalkSeq(cs[1..]);
      NoLabelledAppend(w, WalkSeq(cs[1..]));
      assert w[|w| - 1] == cs[0];
      DropLabelledUnchanged(cs[0]);
      DropLabelledSeqUnchanged(cs[1..]);
      assert cs == [cs[0]] + cs[1..];
    }
  }

  /** The children that are not labelled Spans, in order. */
  function Unlabelled(cs: seq<Node>): (r: seq<Node>)
    ensures NoLabelled(r)
    ensures forall x :: x in r ==> x in cs
    ensures forall i :: 0 <= i < |cs| && !LabelledSpan(cs[i]) ==> cs[i] in r
  {
    if |cs| == 0 then []
    else
      var h := if LabelledSpan(cs[0]) then [] else [cs[0]];
      var t := Unlabelled(cs[1..]);
      NoLabelledAppend(h, t);
      assert forall i :: 1 <= i < |cs| ==> cs[i] == cs[1..][i - 1];
      h + t
  }

  /** Dropping removes exactly the labelled Spans among the children: every other child is
      kept, in order, with what it holds cleaned the same way. */
  lemma {:induction false} DropLabelledSeqKeeps(cs: seq<Node>)
    ensures |DropLabelledSeq(cs)| == |Unlabelled(cs)|
    ensures forall i :: 0 <= i < |Unlabelled(cs)| ==> DropLabelledSeq(cs)[i] == DropLabelled(Unlabelled(cs)[i])
  {
    if |cs| > 0 {
      DropLabelledSeqKeeps(cs[1..]);
    }
  }

  /** The Div after the identifier search and the identifier it found. */
  datatype Identified = Identified(elem: Node, identifier: string)

  /** Lines 146-158: a Div's own identifier when it has one; otherwise every labelled Span is
      removed and the label of the last one in walk order becomes the identifier ("" without
      any). */
  function SpanIdentifier(elem: Node): (r: Identified)
    requires elem.Div?
    ensures r.elem.Div? && r.elem.id == elem.id && r.elem.attr == elem.attr
    ensures elem.attr.identifier != "" ==> r == Identified(elem, elem.attr.identifier)
  {
    if elem.attr.identifier != "" then Identified(elem, elem.attr.identifier)
    else
      var w := Walk(elem);
      var e := Div(elem.id, elem.attr, DropLabelledSeq(elem.content));
      match LastLabelled(w)
        case None => Identified(e, "")
        case Some(i) => Identified(e, Lookup(w[i].attr.attributes, "label").value)
  }

  /** Without an identifier of its own, the Div keeps no labelled Span, every other child is
      kept in order, and the identifier is the label of the last labelled Span of the original
      walk; a Div without labelled Spans comes back unchanged with identifier "". */
  lemma SpanIdentifierSpec(elem: Node)
    requires elem.Div? && elem.attr.identifier == ""
    ensures NoLabelled(Walk(SpanIdentifier(elem).elem))
    ensures var kept := Unlabelled(elem.content);
            var cs := SpanIdentifier(elem).elem.content;
            |cs| == |kept| && forall i :: 0 <= i < |kept| ==> cs[i] == DropLabelled(kept[i])
    ensures LastLabelled(Walk(elem)).None? ==> SpanIdentifier(elem) == Identified(elem, "")
    ensures LastLabelled(Walk(elem)).None? ==> SpanIdentifier(elem).identifier == ""
    ensures LastLabelled(Walk(elem)).Some? ==>
              var s := Walk(elem)[LastLabelled(Walk(elem)).value];
              LabelledSpan(s) && Lookup(s.attr.attributes, "label") == Some(SpanIdentifier(elem).identifier)
  {
    DropLabelledClean(elem);
    DropLabelledSeqKeeps(elem.content);
    if LastLabelled(Walk(elem)).None? {
      ContainerWalk(elem);
      NoLabelledAppend(WalkSeq(elem.content), [elem]);
      DropLabelledSeqUnchanged(elem.content);
    }
  }

  // ---------------------------------------------------------------- create_amsthm_blocks

  /** Lines 170-212, for a kind other than "proof" and "center": the boilerplate is searched in
      the text of the FIRST child only (an empty Div has none: IndexError), its absence is a
      RuntimeError, and the walk prefix of the whole Div whose text matches it is removed. The
      title of the leftmost titled match is the label, "" without one. */
  function StripLegacy(e: Node, kind: string): (r: Result<(Node, string)>)
    requires e.Div?
    ensures r.Failure? <==> |e.content| == 0 || AmsMath.Boilerplate(Stringify(e.content[0]), Capitalize(kind)).None?
    ensures |e.content| == 0 ==> r == Failure(IndexError)
    ensures r.Failure? && |e.content| > 0 ==> r.error == RuntimeError
    ensures r.Success? ==> r.value.0.Div? && r.value.0.id == e.id && r.value.0.attr == e.attr
  {
    if |e.content| == 0 then Failure(IndexError)
    else
      var s := Stringify(e.content[0]);
      match AmsMath.Boilerplate(s, Capitalize(kind))
        case None => Failure(RuntimeError)
        case Some(m) =>
          var arg := if AmsMath.SearchTitled(s, Capitalize(kind), 0).Some? then m.title else "";
          match StringifyUntilMatch(Walk(e), s[m.start..m.end])
            case None => Success((e, arg))
            case Some(k) => Success((AmsMath.RemoveIds(e, IdsOf(Walk(e)[..k])), arg))
  }

  /** The label is the title of the leftmost titled match in the first child's text; the nodes
      removed are exactly the walk prefix whose text matches the boilerplate. */
  lemma StripLegacySpec(e: Node, kind: string)
    requires e.Div? && StripLegacy(e, kind).Success?
    ensures var s := Stringify(e.content[0]);
            var m := AmsMath.Boilerplate(s, Capitalize(kind)).value;
            var found := StringifyUntilMatch(Walk(e), s[m.start..m.end]);
            var r := StripLegacy(e, kind).value;
            (AmsMath.SearchTitled(s, Capitalize(kind), 0).Some? ==> r.1 == AmsMath.SearchTitled(s, Capitalize(kind), 0).value.title)
            && (AmsMath.SearchTitled(s, Capitalize(kind), 0).None? ==> r.1 == "")
            && (found.None? ==> r.0 == e)
            && (found.Some? && found.value < |Walk(e)| && UniqueIds(Walk(e)) ==>
                  Shape(Walk(r.0)) == Shape(Walk(e)[found.value..]))
            && (found.Some? && found.value == |Walk(e)| ==> r.0.content == [])
  {
    var s := Stringify(e.content[0]);
    var m := AmsMath.Boilerplate(s, Capitalize(kind)).value;
    var found := StringifyUntilMatch(Walk(e), s[m.start..m.end]);
    if found.Some? {
      AmsMath.PrefixRemoval(e, found.value, IdsOf(Walk(e)[..found.value]));
    }
  }

  /** Lines 165-212: emphasis removed, then the kind's own clean-up: a proof has its first
      "Proof." emptied (the empty Str takes identity k), a "center" block is left as it is,
      every other kind loses its boilerplate. */
  function Cleanup(e: Node, kind: string, k: nat): (r: Result<(Node, string)>)
    requires e.Div?
    ensures kind == "center" ==> r == Success((e, ""))
    ensures kind == "proof" ==> r.Success? && r.value.1 == ""
    ensures r.Success? ==> r.value.0.Div? && r.value.0.id == e.id && r.value.0.attr == e.attr
  {
    if kind == "proof" then Success((AmsMath.ReplaceKeyword(e, "Proof.", Str(k, "")), ""))
    else if kind == "center" then Success((e, ""))
    else StripLegacy(e, kind)
  }

  /** Lines 214-221: ":label: id" when there is an identifier, ":nonumber:" for a nonumber
      block, as RawBlocks with identities k and k+1. */
  function Preamble(identifier: string, nonumber: bool, k: nat): (r: seq<Node>)
    ensures |r| == (if identifier != "" then 1 else 0) + (if nonumber then 1 else 0)
    ensures identifier != "" ==> r[0] == RawBlock(k, ":label: " + identifier)
    ensures nonumber ==> r[|r| - 1] == RawBlock(k + 1, ":nonumber:")
  {
    (if identifier != "" then [RawBlock(k, ":label: " + identifier)] else [])
    + (if nonumber then [RawBlock(k + 1, ":nonumber:")] else [])
  }

  /** The Div once its identifier has been taken and its emphasis removed. */
  function Prepared(elem: Node): (r: Node)
    requires elem.Div?
    ensures r.Div? && r.id == elem.id && r.attr == elem.attr
  {
    var e := SpanIdentifier(elem).elem;
    RemoveEmphShape(e);
    RemoveEmph(e)
  }

  /** The content `create_amsthm_blocks` frames: the preamble, then the cleaned children. */
  function AmsthmContent(elem: Node, ctx: Ctx, body: Node): seq<Node>
    requires elem.Div?
  {
    Preamble(SpanIdentifier(elem).identifier, "nonumber" in elem.attr.classes, ctx.nextId + 1) + Kids(body)
  }

  /** `create_amsthm_blocks` of this revision. A Div without a supported class comes back as it
      is. Otherwise the kind is the FIRST class, whether supported or not; the block is a
      `prf:<kind>` Div over the preamble and the cleaned children, labelled with the title. The
      clean-up can fail; the builder cannot, since it is asked for a Div. */
  function CreateAmsthmBlocks(elem: Node, ctx: Ctx): (r: Result<Directives.Built>)
    requires elem.Div?
    ensures !AnyIn(elem.attr.classes, LegacyDirective.SupportedLegacy) ==> r == Success(Directives.Built(elem, ctx))
    ensures AnyIn(elem.attr.classes, LegacyDirective.SupportedLegacy) ==>
              (r.Failure? <==> Cleanup(Prepared(elem), elem.attr.classes[0], ctx.nextId).Failure?)
    ensures r.Failure? ==> r.error == Cleanup(Prepared(elem), elem.attr.classes[0], ctx.nextId).error
    ensures r.Failure? ==> r.error == IndexError || r.error == RuntimeError
  {
    if !AnyIn(elem.attr.classes, LegacyDirective.SupportedLegacy) then Success(Directives.Built(elem, ctx))
    else
      Frame(elem, ctx, Cleanup(Prepared(elem), elem.attr.classes[0], ctx.nextId))
  }

  /** Lines 214-228: a failed clean-up propagates; a cleaned Div is handed to the builder with
      the preamble, its first class as `prf:` kind and the title as label. */
  function Frame(elem: Node, ctx: Ctx, cleaned: Result<(Node, string)>): (r: Result<Directives.Built>)
    requires elem.Div? && |elem.attr.classes| > 0
    ensures cleaned.Failure? ==> r == Failure(cleaned.error)
    ensures cleaned.Success? ==>
              r == Success(LegacyDirective.CreateDirectiveBlock(cleaned.value.0, ctx.(nextId := ctx.nextId + 3),
                     AmsthmContent(elem, ctx, cleaned.value.0), "prf:" + elem.attr.classes[0], Directives.WrapDiv, cleaned.value.1))
  {
    match cleaned
      case Failure(err) => Failure(err)
      case Success((body, arg)) =>
        Success(LegacyDirective.CreateDirectiveBlock(body, ctx.(nextId := ctx.nextId + 3), AmsthmContent(elem, ctx, body),
                                                     "prf:" + elem.attr.classes[0], Directives.WrapDiv, arg))
  }

  /** The cleaned Div keeps the identity and attributes of the original. */
  lemma CleanedKeepsDiv(elem: Node, ctx: Ctx, c: (Node, string))
    requires elem.Div? && AnyIn(elem.attr.classes, LegacyDirective.SupportedLegacy)
    requires Cleanup(Prepared(elem), elem.attr.classes[0], ctx.nextId) == Success(c)
    ensures c.0.Div? && c.0.id == elem.id && c.0.attr == elem.attr
  {
  }

  lemma AmsthmIsFrame(elem: Node, ctx: Ctx)
    requires elem.Div? && AnyIn(elem.attr.classes, LegacyDirective.SupportedLegacy)
    ensures CreateAmsthmBlocks(elem, ctx) == Frame(elem, ctx, Cleanup(Prepared(elem), elem.attr.classes[0], ctx.nextId))
  {
  }

  lemma FrameBuildsDiv(elem: Node, ctx: Ctx, c: (Node, string))
    requires elem.Div? && AnyIn(elem.attr.classes, LegacyDirective.SupportedLegacy) && c.0.Div? && c.0.attr == elem.attr
    ensures Frame(elem, ctx, Success(c))
            == Success(LegacyDirective.CreateDirectiveBlock(c.0, ctx.(nextId := ctx.nextId + 3),
                         AmsthmContent(elem, ctx, c.0), "prf:" + elem.attr.classes[0], Directives.WrapDiv, c.1))
  {
  }

  /** A successful clean-up goes to the builder's Div form, past the three identities the
      clean-up and the preamble may take. */
  lemma AmsthmBuildsDiv(elem: Node, ctx: Ctx, c: (Node, string))
    requires elem.Div? && AnyIn(elem.attr.classes, LegacyDirective.SupportedLegacy)
    requires Cleanup(Prepared(elem), elem.attr.classes[0], ctx.nextId) == Success(c)
    ensures c.0.Div? && c.0.id == elem.id && c.0.attr == elem.attr
    ensures CreateAmsthmBlocks(elem, ctx)
            == Success(LegacyDirective.CreateDirectiveBlock(c.0, ctx.(nextId := ctx.nextId + 3),
                         AmsthmContent(elem, ctx, c.0), "prf:" + elem.attr.classes[0], Directives.WrapDiv, c.1))
  {
    CleanedKeepsDiv(elem, ctx, c);
    AmsthmIsFrame(elem, ctx);
    FrameBuildsDiv(elem, ctx, c);
  }

  /** When the clean-up succeeds and the Div has a level entry, the block is a fresh Div whose
      opening line carries the first class as `prf:` kind and the title as label, whose
      content is the preamble followed by the cleaned children, and whose closing line is the
      same fence. */
  lemma AmsthmBlockSpec(elem: Node, ctx: Ctx)
    requires elem.Div? && AnyIn(elem.attr.classes, LegacyDirective.SupportedLegacy) && elem.id in ctx.levels
    requires Cleanup(Prepared(elem), elem.attr.classes[0], ctx.nextId).Success?
    ensures var c := Cleanup(Prepared(elem), elem.attr.classes[0], ctx.nextId).value;
            var content := AmsthmContent(elem, ctx, c.0);
            var r := CreateAmsthmBlocks(elem, ctx);
            var level := ctx.levels[elem.id];
            var ks := Kids(r.value.node);
            && r.Success? && r.value.node.Div? && r.value.ctx == ctx.(nextId := ctx.nextId + 6)
            && |ks| == |content| + 2 && ks[1..|content| + 1] == content
            && ks[0] == RawBlock(ctx.nextId + 4, LegacyDirective.OpeningLine(level, "prf:" + elem.attr.classes[0], c.1))
            && ks[|content| + 1] == RawBlock(ctx.nextId + 5, Directives.Fence(level))
  {
    var c := Cleanup(Prepared(elem), elem.attr.classes[0], ctx.nextId).value;
    AmsthmBuildsDiv(elem, ctx, c);
    var c3 := ctx.(nextId := ctx.nextId + 3);
    var content := AmsthmContent(elem, ctx, c.0);
    var bt := "prf:" + elem.attr.classes[0];
    assert LegacyDirective.IsDirectiveBlock(c.0) && c.0.id in c3.levels;
    var b := LegacyDirective.CreateDirectiveBlock(c.0, c3, content, bt, Directives.WrapDiv, c.1);
    assert b.node == Directives.Wrapped(Directives.WrapDiv, c3.nextId,
                       LegacyDirective.BlockNodes(true, c3.nextId, ctx.levels[elem.id], bt, c.1, content, SoftBreak(c3.nextId + 3)));
  }

  lemma NonumberCapitalized()
    ensures Capitalize("nonumber") == "Nonumber"
  {
    var t := "onumber";
    assert Lower(t) == t by {
      forall i | 0 <= i < |t| ensures Lower(t)[i] == t[i] {
        assert !('A' <= t[i] <= 'Z');
      }
    }
    assert "nonumber"[1..] == t;
    assert [UpperChar('n')] + t == "Nonumber";
  }

  /** A Div whose first child's text never holds "Nonumber " has no "nonumber" boilerplate. */
  lemma NoNonumberBoilerplate(e: Node, k: nat)
    requires e.Div? && |e.content| > 0
    requires forall q :: 0 <= q <= |Stringify(e.content[0])| ==> !OccursAt(Stringify(e.content[0]), "Nonumber ", q)
    ensures Cleanup(e, "nonumber", k) == Failure(RuntimeError)
  {
    var s := Stringify(e.content[0]);
    NonumberCapitalized();
    assert "Nonumber" + " " == "Nonumber ";
    assert AmsMath.SearchUntitled(s, "Nonumber").None?;
    assert AmsMath.Boilerplate(s, Capitalize("nonumber")).None?;
    assert Cleanup(e, "nonumber", k) == StripLegacy(e, "nonumber");
  }

  /** The kind is the first class even when a later class is the supported one: a theorem Div
      whose first class is "nonumber" is searched for "Nonumber" boilerplate, which a theorem's
      text does not hold, and fails. */
  lemma FirstClassIsKind(elem: Node, ctx: Ctx)
    requires elem.Div? && |elem.attr.classes| == 2 && elem.attr.classes[0] == "nonumber"
    requires elem.attr.classes[1] == "theorem" && |Prepared(elem).content| > 0
    requires forall q :: 0 <= q <= |Stringify(Prepared(elem).content[0])| ==>
               !OccursAt(Stringify(Prepared(elem).content[0]), "Nonumber ", q)
    ensures CreateAmsthmBlocks(elem, ctx) == Failure(RuntimeError)
  {
    assert AnyIn(elem.attr.classes, LegacyDirective.SupportedLegacy) by {
      assert elem.attr.classes[1] == LegacyDirective.SupportedLegacy[1];
    }
    NoNonumberBoilerplate(Prepared(elem), ctx.nextId);
    AmsthmIsFrame(elem, ctx);
  }

  // ---------------------------------------------------------------- create_displaymath

  /** A well-formed marker always contains the `\label` that gates the search. */
  lemma MarkerMentionsLabel(text: string)
    requires SearchLabel(text, false, 0).Some?
    ensures Contains(text, "\\label")
  {
    var p := SearchLabel(text, false, 0).value.0;
    assert OccursAt(text, LabelOpen, p);
    assert text[p..p + 6] == LabelOpen[..6] == "\\label";
    assert OccursAt(text, "\\label", p);
  }

  /** Lines 246-250: the formula with every copy of the first well-formed `\label{X}` marker
      removed, and X. A `\label` without a well-formed marker leaves `re.findall` empty, and
      taking its first item is an IndexError. */
  function DisplayContent(text: string): (r: Result<(string, Option<string>)>)
    ensures r.Failure? <==> Contains(text, "\\label") && SearchLabel(text, false, 0).None?
    ensures r.Failure? ==> r.error == IndexError
    ensures r.Success? ==> r.value.0 == AmsMath.DisplayContent(text).0
    ensures r.Success? ==> (r.value.1.Some? <==> AmsMath.DisplayContent(text).1 != "")
    ensures r.Success? && r.value.1.Some? ==> r.value.1.value == AmsMath.DisplayContent(text).1
  {
    assert SearchLabel(text, false, 0).Some? ==> Contains(text, "\\label") by {
      if SearchLabel(text, false, 0).Some? { MarkerMentionsLabel(text); }
    }
    if !Contains(text, "\\label") then Success((text, None))
    else match SearchLabel(text, false, 0)
      case None => Failure(IndexError)
      case Some((p, x)) => Success((ReplaceAll(text, LabelOpen + x + "}", ""), Some(x)))
  }

  /** The ":label: X" line, or nothing. */
  function LabelLine(x: Option<string>): string {
    if x.Some? then ":label: " + x.value + "\n" else ""
  }

  /** `create_displaymath`. Anything but display math comes back as it is. The formula is split
      into its text and label; line-break nodes (identities k and k+2) go around the label line
      (k+1), then the cleaned formula (k+3); the builder's Span form wraps them, and its children
      are spliced after a newline into a fresh Span. The content list names the class
      `pf.SoftBreak`, which panflute's container type check instantiates. A malformed marker is
      an IndexError; without a level entry the builder hands the Math node back, and reading its
      missing `content` is an AttributeError. */
  function CreateDisplaymath(elem: Node, ctx: Ctx): (r: Result<Directives.Built>)
    ensures !IsDisplayMath(elem) ==> r == Success(Directives.Built(elem, ctx))
    ensures IsDisplayMath(elem) ==>
              (r.Failure? <==> DisplayContent(elem.text).Failure? || elem.id !in ctx.levels)
    ensures r.Failure? ==> r.error == IndexError || r.error == AttributeError
  {
    if !IsDisplayMath(elem) then Success(Directives.Built(elem, ctx))
    else
      var c :- DisplayContent(elem.text);
      DisplayBlock(elem, ctx, c)
  }

  /** The content `create_displaymath` hands the builder, identities from k. */
  function DisplayNodes(c: (string, Option<string>), k: nat): seq<Node> {
    [SoftBreak(k), RawInline(k + 1, LabelLine(c.1)), SoftBreak(k + 2), RawInline(k + 3, c.0)]
  }

  /** Lines 251-261 once the formula is split into its text and label `c`. */
  function DisplayBlock(elem: Node, ctx: Ctx, c: (string, Option<string>)): (r: Result<Directives.Built>)
    requires IsDisplayMath(elem)
    ensures r.Failure? <==> elem.id !in ctx.levels
    ensures r.Failure? ==> r.error == AttributeError
  {
    var k := ctx.nextId;
    var b := LegacyDirective.CreateDirectiveBlock(elem, ctx.(nextId := k + 4), DisplayNodes(c, k), "math", Directives.WrapSpan, "");
    if !IsContainer(b.node) then Failure(AttributeError)
    else
      var j := b.ctx.nextId;
      Success(Directives.Built(Span(j, NoAttr, [Str(j + 1, "\n")] + b.node.content), b.ctx.(nextId := j + 2)))
  }

  /** The display block: a Span opening with a newline, then the builder's line break
      and opening line, the label line between line breaks, the formula with its marker cut
      out, and the closing fence on a line of its own. */
  lemma DisplaymathSpec(elem: Node, ctx: Ctx)
    requires IsDisplayMath(elem) && elem.id in ctx.levels && DisplayContent(elem.text).Success?
    ensures var c := DisplayContent(elem.text).value;
            var r := CreateDisplaymath(elem, ctx);
            var f := Directives.Fence(ctx.levels[elem.id]);
            var k := ctx.nextId;
            && r.Success? && r.value.node.Span? && r.value.ctx == ctx.(nextId := k + 10)
            && r.value.node.content ==
                 [Str(k + 9, "\n"), SoftBreak(k + 7), RawInline(k + 5, LegacyDirective.OpeningLine(ctx.levels[elem.id], "math", "") + "\n"),
                  SoftBreak(k), RawInline(k + 1, LabelLine(c.1)), SoftBreak(k + 2), RawInline(k + 3, c.0),
                  RawInline(k + 6, "\n" + f + "\n")]
  {
    var c := DisplayContent(elem.text).value;
    assert CreateDisplaymath(elem, ctx) == DisplayBlock(elem, ctx, c);
    DisplayBlockSpec(elem, ctx, c);
  }

  lemma DisplayBlockSpec(elem: Node, ctx: Ctx, c: (string, Option<string>))
    requires IsDisplayMath(elem) && elem.id in ctx.levels
    ensures var r := DisplayBlock(elem, ctx, c);
            var f := Directives.Fence(ctx.levels[elem.id]);
            var k := ctx.nextId;
            && r.Success? && r.value.node.Span? && r.value.ctx == ctx.(nextId := k + 10)
            && r.value.node.content ==
                 [Str(k + 9, "\n"), SoftBreak(k + 7), RawInline(k + 5, LegacyDirective.OpeningLine(ctx.levels[elem.id], "math", "") + "\n"),
                  SoftBreak(k), RawInline(k + 1, LabelLine(c.1)), SoftBreak(k + 2), RawInline(k + 3, c.0),
                  RawInline(k + 6, "\n" + f + "\n")]
  {
    var k := ctx.nextId;
    var b := LegacyDirective.CreateDirectiveBlock(elem, ctx.(nextId := k + 4), DisplayNodes(c, k), "math", Directives.WrapSpan, "");
    DisplayBuilder(elem, ctx.(nextId := k + 4), DisplayNodes(c, k));
    assert DisplayBlock(elem, ctx, c)
           == Success(Directives.Built(Span(k + 8, NoAttr, [Str(k + 9, "\n")] + Kids(b.node)), ctx.(nextId := k + 10)));
    DisplayKids(elem, ctx.(nextId := k + 4), c, k);
  }

  lemma DisplayKids(elem: Node, c4: Ctx, c: (string, Option<string>), k: nat)
    requires IsDisplayMath(elem) && elem.id in c4.levels && c4.nextId == k + 4
    ensures var b := LegacyDirective.CreateDirectiveBlock(elem, c4, DisplayNodes(c, k), "math", Directives.WrapSpan, "");
            [Str(k + 9, "\n")] + Kids(b.node)
            == [Str(k + 9, "\n"), SoftBreak(k + 7), RawInline(k + 5, LegacyDirective.OpeningLine(c4.levels[elem.id], "math", "") + "\n"),
                SoftBreak(k), RawInline(k + 1, LabelLine(c.1)), SoftBreak(k + 2), RawInline(k + 3, c.0),
                RawInline(k + 6, "\n" + Directives.Fence(c4.levels[elem.id]) + "\n")]
  {
    var content := DisplayNodes(c, k);
    var b := LegacyDirective.CreateDirectiveBlock(elem, c4, content, "math", Directives.WrapSpan, "");
    LegacyDirective.InlineFormSpec(elem, c4, content, "math", Directives.WrapSpan, "");
    var ks := Kids(b.node);
    assert ks == [ks[0], ks[1]] + content + [ks[6]];
  }

  lemma DisplayBuilder(elem: Node, c4: Ctx, content: seq<Node>)
    requires IsDisplayMath(elem) && elem.id in c4.levels
    ensures var b := LegacyDirective.CreateDirectiveBlock(elem, c4, content, "math", Directives.WrapSpan, "");
            b.node.Span? && b.ctx == c4.(nextId := c4.nextId + 4)
  {
  }
}

=== FILE: math.dfy ===
/** latex_to_myst/math.py: theorem-like Divs and display math become MyST directive blocks. */
module AmsMath {
  import opened Wrappers
  import opened Text
  import opened Tree
  import opened Helpers
  import opened Directives

  // ---------------------------------------------------------------- `Kind 1.2 (Title).`

  /** `[0-9|\.\ ]`: a character of a theorem number. */
  predicate NumberChar(c: char) {
    '0' <= c <= '9' || c == '|' || c == '.' || c == ' '
  }

  /** End of the longest run of number characters starting at `j`. */
  function NumberEnd(s: string, j: nat): (e: nat)
    requires j <= |s|
    ensures j <= e <= |s|
    ensures forall t :: j <= t < e ==> NumberChar(s[t])
    ensures e < |s| ==> !NumberChar(s[e])
    decreases |s| - j
  {
    if j < |s| && NumberChar(s[j]) then NumberEnd(s, j + 1) else j
  }

  /** A match: where it starts and ends in the text, and its title group ("" if untitled). */
  datatype Match = Match(start: nat, end: nat, title: string)

  /** The regular expression `(Kind\ [0-9|\.\ ]*)\(([^\)]*)\)\.?` matching `m` with the opening
      parenthesis at `j` and the closing one at `k`; the optional dot is taken when present. */
  predicate TitledParts(s: string, kind: string, m: Match, j: nat, k: nat) {
    OccursAt(s, kind + " ", m.start) && m.start + |kind| + 1 <= j < k < |s|
    && (forall t :: m.start + |kind| + 1 <= t < j ==> NumberChar(s[t]))
    && s[j] == '(' && (forall t :: j < t < k ==> s[t] != ')') && s[k] == ')'
    && m.title == s[j + 1..k]
    && m.end == (if k + 1 < |s| && s[k + 1] == '.' then k + 2 else k + 1)
  }

  /** The titled pattern tried at position `i`. */
  function TitledAt(s: string, kind: string, i: nat): (r: Option<Match>)
    ensures r.Some? ==> r.value.start == i && i <= r.value.end <= |s|
  {
    if !OccursAt(s, kind + " ", i) then None
    else
      var j := NumberEnd(s, i + |kind| + 1);
      if j == |s| || s[j] != '(' then None
      else match FindChar(s, ')', j + 1)
        case None => None
        case Some(k) => Some(Match(i, if k + 1 < |s| && s[k + 1] == '.' then k + 2 else k + 1, s[j + 1..k]))
  }

  /** `TitledAt` finds exactly the regular-expression matches. */
  lemma TitledAtIsMatch(s: string, kind: string, m: Match)
    ensures TitledAt(s, kind, m.start) == Some(m) <==> exists j: nat, k: nat :: TitledParts(s, kind, m, j, k)
  {
    if TitledAt(s, kind, m.start) == Some(m) {
      TitledAtSound(s, kind, m);
    }
    if exists j: nat, k: nat :: TitledParts(s, kind, m, j, k) {
      var j: nat, k: nat :| TitledParts(s, kind, m, j, k);
      TitledAtComplete(s, kind, m, j, k);
    }
  }

  lemma TitledAtSound(s: string, kind: string, m: Match)
    requires TitledAt(s, kind, m.start) == Some(m)
    ensures TitledParts(s, kind, m, NumberEnd(s, m.start + |kind| + 1), FindChar(s, ')', NumberEnd(s, m.start + |kind| + 1) + 1).value)
  {
  }

  lemma TitledAtComplete(s: string, kind: string, m: Match, j: nat, k: nat)
    requires TitledParts(s, kind, m, j, k)
    ensures TitledAt(s, kind, m.start) == Some(m)
  {
    assert !NumberChar(s[j]);
    assert NumberEnd(s, m.start + |kind| + 1) == j;
    assert FindChar(s, ')', j + 1) == Some(k);
  }

  /** `re.search(pattern_with_title, s)` from position `i` on. */
  function SearchTitled(s: string, kind: string, i: nat): (r: Option<Match>)
    ensures r.Some? ==> i <= r.value.start && TitledAt(s, kind, r.value.start) == r
    ensures r.Some? ==> forall q :: i <= q < r.value.start ==> TitledAt(s, kind, q).None?
    ensures r.None? ==> forall q :: i <= q <= |s| ==> TitledAt(s, kind, q).None?
    decreases |s| + 1 - i
  {
    if i > |s| then None
    else if TitledAt(s, kind, i).Some? then TitledAt(s, kind, i)
    else SearchTitled(s, kind, i + 1)
  }

  /** `re.search(pattern, s)`: the first `Kind ` and the number run after it. The pattern occurs
      at all (the `re.findall` test) exactly when this is not None. */
  function SearchUntitled(s: string, kind: string): (r: Option<Match>)
    ensures r.None? ==> forall q :: 0 <= q <= |s| ==> !OccursAt(s, kind + " ", q)
    ensures r.Some? ==> OccursAt(s, kind + " ", r.value.start) && r.value.title == ""
                        && (forall q :: 0 <= q < r.value.start ==> !OccursAt(s, kind + " ", q))
                        && r.value.end == NumberEnd(s, r.value.start + |kind| + 1)
                        && r.value.start <= r.value.end <= |s|
  {
    match FindFrom(s, kind + " ", 0)
      case None => None
      case Some(p) => Some(Match(p, NumberEnd(s, p + |kind| + 1), ""))
  }

  /** The boilerplate to cut: the leftmost titled match if there is one, else the leftmost
      untitled one; None when the kind does not occur at all. */
  function Boilerplate(s: string, kind: string): (r: Option<Match>)
    ensures r.Some? ==> r.value.start <= r.value.end <= |s|
    ensures r.None? <==> SearchUntitled(s, kind).None?
    ensures SearchUntitled(s, kind).Some? && SearchTitled(s, kind, 0).Some? ==> r == SearchTitled(s, kind, 0)
    ensures SearchTitled(s, kind, 0).None? ==> r == SearchUntitled(s, kind)
  {
    if SearchUntitled(s, kind).None? then None
    else if SearchTitled(s, kind, 0).Some? then SearchTitled(s, kind, 0)
    else SearchUntitled(s, kind)
  }

  // ---------------------------------------------------------------- replace_keyword

  /** The walk position of the first Str whose text is `kw`. */
  function FirstStr(ns: seq<Node>, kw: string): (r: Option<nat>)
    ensures r.Some? ==> r.value < |ns| && ns[r.value].Str? && ns[r.value].text == kw
    ensures r.Some? ==> forall t :: 0 <= t < r.value ==> !(ns[t].Str? && ns[t].text == kw)
    ensures r.None? ==> forall t :: 0 <= t < |ns| ==> !(ns[t].Str? && ns[t].text == kw)
  {
    if |ns| == 0 then None
    else if ns[0].Str? && ns[0].text == kw then Some(0)
    else match FirstStr(ns[1..], kw)
      case None => None
      case Some(i) => Some(i + 1)
  }

  /** The tree with the node at walk position `i` replaced by `repl`. */
  function ReplaceAt(n: Node, i: nat, repl: Node): (r: Node)
    requires i < |Walk(n)|
    decreases n, 1
  {
    if IsContainer(n) && i < |WalkSeq(n.content)| then WithKids(n, ReplaceAtSeq(n.content, i, repl))
    else repl
  }

  function ReplaceAtSeq(cs: seq<Node>, i: nat, repl: Node): (r: seq<Node>)
    requires i < |WalkSeq(cs)|
    decreases cs, 0
  {
    if i < |Walk(cs[0])| then [ReplaceAt(cs[0], i, repl)] + cs[1..]
    else [cs[0]] + ReplaceAtSeq(cs[1..], i - |Walk(cs[0])|, repl)
  }

  lemma UpdateAppend<T>(a: seq<T>, b: seq<T>, i: nat, x: T)
    requires i < |a| + |b|
    ensures i < |a| ==> (a + b)[i := x] == a[i := x] + b
    ensures i >= |a| ==> (a + b)[i := x] == a + b[i - |a| := x]
  {
  }

  /** Replacing a leaf by a leaf changes the walk at that one position only. */
  lemma {:induction false} ReplaceAtShape(n: Node, i: nat, repl: Node)
    requires i < |Walk(n)| && !IsContainer(Walk(n)[i]) && !IsContainer(repl)
    ensures Shape(Walk(ReplaceAt(n, i, repl))) == Shape(Walk(n))[i := (repl.id, Piece(repl))]
    decreases n, 2
  {
    if IsContainer(n) {
      ReplaceAtInner(n, i, repl);
    } else {
      ReplaceAtLeaf(n, i, repl);
    }
  }

  lemma ReplaceAtLeaf(n: Node, i: nat, repl: Node)
    requires !IsContainer(n) && i < |Walk(n)| && !IsContainer(repl)
    ensures Shape(Walk(ReplaceAt(n, i, repl))) == Shape(Walk(n))[i := (repl.id, Piece(repl))]
  {
    LeafWalk(n);
    LeafWalk(repl);
    assert ReplaceAt(n, i, repl) == repl;
    ShapeSingle(n);
    ShapeSingle(repl);
  }

  lemma {:induction false} ReplaceAtInner(n: Node, i: nat, repl: Node)
    requires IsContainer(n) && i < |Walk(n)| && !IsContainer(Walk(n)[i]) && !IsContainer(repl)
    ensures Shape(Walk(ReplaceAt(n, i, repl))) == Shape(Walk(n))[i := (repl.id, Piece(repl))]
    decreases n, 1
  {
    ContainerWalk(n);
    var w := WalkSeq(n.content);
    assert Walk(n)[|w|] == n;
    assert i < |w|;
    var cs := ReplaceAtSeq(n.content, i, repl);
    var r := WithKids(n, cs);
    assert ReplaceAt(n, i, repl) == r;
    ContainerWalk(r);
    assert Walk(n)[i] == w[i];
    ReplaceAtSeqShape(n.content, i, repl);
    ShapeAppend(WalkSeq(cs), [r]);
    ShapeAppend(w, [n]);
    var x := (repl.id, Piece(repl));
    ShapeSingle(n);
    ShapeSingle(r);
    UpdateAppend(Shape(w), Shape([n]), i, x);
  }

  lemma ShapeSingle(n: Node)
    ensures Shape([n]) == [(n.id, Piece(n))]
  {
  }

  lemma {:induction false} ReplaceAtSeqShape(cs: seq<Node>, i: nat, repl: Node)
    requires i < |WalkSeq(cs)| && !IsContainer(WalkSeq(cs)[i]) && !IsContainer(repl)
    ensures Shape(WalkSeq(ReplaceAtSeq(cs, i, repl))) == Shape(WalkSeq(cs))[i := (repl.id, Piece(repl))]
    decreases cs, 0
  {
    var r := ReplaceAtSeq(cs, i, repl);
    var w0 := Walk(cs[0]);
    var rest := WalkSeq(cs[1..]);
    assert WalkSeq(cs) == w0 + rest;
    ShapeAppend(w0, rest);
    UpdateAppend(Shape(w0), Shape(rest), i, (repl.id, Piece(repl)));
    if i < |w0| {
      var h := ReplaceAt(cs[0], i, repl);
      assert w0[i] == WalkSeq(cs)[i];
      ReplaceAtShape(cs[0], i, repl);
      assert r[0] == h && r[1..] == cs[1..];
      assert WalkSeq(r) == Walk(h) + rest;
      ShapeAppend(Walk(h), rest);
    } else {
      var t := ReplaceAtSeq(cs[1..], i - |w0|, repl);
      assert rest[i - |w0|] == WalkSeq(cs)[i];
      ReplaceAtSeqShape(cs[1..], i - |w0|, repl);
      assert r[0] == cs[0] && r[1..] == t;
      assert WalkSeq(r) == w0 + WalkSeq(t);
      ShapeAppend(w0, WalkSeq(t));
    }
  }

  /** `replace_keyword(kw, repl, 1)` on a Div: the first Str whose text is `kw`, in walk order,
      becomes `repl`. */
  function ReplaceKeyword(n: Node, kw: string, repl: Node): (r: Node)
    requires n.Div? && !IsContainer(repl)
    ensures r.Div? && r.id == n.id && r.attr == n.attr
  {
    match FirstStr(Walk(n), kw)
      case None => n
      case Some(i) =>
        ReplaceAtRoot(n, i, repl);
        ReplaceAt(n, i, repl)
  }

  /** Only the first `kw` word changes: every other node keeps its identity and text. */
  lemma ReplaceKeywordSpec(n: Node, kw: string, repl: Node)
    requires n.Div? && !IsContainer(repl)
    ensures FirstStr(Walk(n), kw).None? ==> ReplaceKeyword(n, kw, repl) == n
    ensures FirstStr(Walk(n), kw).Some? ==>
              Shape(Walk(ReplaceKeyword(n, kw, repl))) == Shape(Walk(n))[FirstStr(Walk(n), kw).value := (repl.id, Piece(repl))]
  {
    if FirstStr(Walk(n), kw).Some? {
      ReplaceAtShape(n, FirstStr(Walk(n), kw).value, repl);
    }
  }

  /** A Str is never the root of a Div's walk, so replacing one keeps the Div. */
  lemma ReplaceAtRoot(n: Node, i: nat, repl: Node)
    requires i < |Walk(n)| && Walk(n)[i].Str?
    ensures n.Div? ==> ReplaceAt(n, i, repl) == Div(n.id, n.attr, ReplaceAtSeq(n.content, i, repl))
  {
    if n.Div? {
      ContainerWalk(n);
      assert Walk(n)[|WalkSeq(n.content)|] == n;
    }
  }

  // ---------------------------------------------------------------- remove_node

  /** `elem.walk(remove_node)`: every node whose identity is in `gone` is dropped from its
      parent; the root itself stays. */
  function RemoveIds(n: Node, gone: set<nat>): (r: Node)
    decreases n, 1
  {
    if IsContainer(n) then WithKids(n, RemoveIdsSeq(n.content, gone)) else n
  }

  function RemoveIdsSeq(cs: seq<Node>, gone: set<nat>): seq<Node>
    decreases cs, 0
  {
    if |cs| == 0 then []
    else (if cs[0].id in gone then [] else [RemoveIds(cs[0], gone)]) + RemoveIdsSeq(cs[1..], gone)
  }

  /** The first `k` nodes of `ns` are all in `gone`. */
  predicate Covered(ns: seq<Node>, gone: set<nat>, k: nat) {
    forall t :: 0 <= t < k && t < |ns| ==> ns[t].id in gone
  }

  /** No node of `ns` from position `k` on is in `gone`. */
  predicate Uncovered(ns: seq<Node>, gone: set<nat>, k: nat) {
    forall t :: k <= t < |ns| ==> ns[t].id !in gone
  }

  lemma CoverSplit(a: seq<Node>, b: seq<Node>, k: nat, gone: set<nat>)
    requires k <= |a| + |b| && Covered(a + b, gone, k) && Uncovered(a + b, gone, k)
    ensures k >= |a| ==> Covered(a, gone, |a|) && Covered(b, gone, k - |a|) && Uncovered(b, gone, k - |a|)
    ensures k < |a| ==> Covered(a, gone, k) && Uncovered(a, gone, k) && Uncovered(b, gone, 0)
  {
    if k >= |a| {
      forall t | 0 <= t < |a| ensures a[t].id in gone {
        assert (a + b)[t] == a[t];
      }
      forall t | 0 <= t < k - |a| && t < |b| ensures b[t].id in gone {
        assert (a + b)[|a| + t] == b[t];
      }
      forall t | k - |a| <= t < |b| ensures b[t].id !in gone {
        assert (a + b)[|a| + t] == b[t];
      }
    } else {
      forall t | 0 <= t < k ensures a[t].id in gone {
        assert (a + b)[t] == a[t];
      }
      forall t | k <= t < |a| ensures a[t].id !in gone {
        assert (a + b)[t] == a[t];
      }
      forall t | 0 <= t < |b| ensures b[t].id !in gone {
        assert (a + b)[|a| + t] == b[t];
      }
    }
  }

  /** Dropping the nodes of a walk prefix leaves exactly the rest of the walk (the root is
      never dropped, so the cut must fall before it). */
  lemma {:induction false} RemoveIdsShape(n: Node, gone: set<nat>, k: nat)
    requires k < |Walk(n)| && Covered(Walk(n), gone, k) && Uncovered(Walk(n), gone, k)
    ensures Shape(Walk(RemoveIds(n, gone))) == Shape(Walk(n)[k..])
    decreases n, 2
  {
    if IsContainer(n) {
      RemoveIdsInner(n, gone, k);
    } else {
      LeafWalk(n);
      assert RemoveIds(n, gone) == n;
    }
  }

  lemma {:induction false} RemoveIdsInner(n: Node, gone: set<nat>, k: nat)
    requires IsContainer(n)
    requires k < |Walk(n)| && Covered(Walk(n), gone, k) && Uncovered(Walk(n), gone, k)
    ensures Shape(Walk(RemoveIds(n, gone))) == Shape(Walk(n)[k..])
    decreases n, 1
  {
    var w := WalkSeq(n.content);
    var cs := RemoveIdsSeq(n.content, gone);
    var r := WithKids(n, cs);
    assert k <= |w| && Covered(w, gone, k) && Uncovered(w, gone, k) && Walk(n)[k..] == w[k..] + [n] by {
      ContainerWalk(n);
      CoverSplit(w, [n], k, gone);
    }
    assert Shape(WalkSeq(cs)) == Shape(w[k..]) by {
      RemoveIdsSeqShape(n.content, gone, k);
    }
    assert Shape(Walk(r)) == Shape(WalkSeq(cs)) + Shape([n]) by {
      ContainerWalk(r);
      ShapeAppend(WalkSeq(cs), [r]);
      ShapeSingle(n);
      ShapeSingle(r);
    }
    assert Shape(Walk(n)[k..]) == Shape(w[k..]) + Shape([n]) by {
      ShapeAppend(w[k..], [n]);
    }
    assert RemoveIds(n, gone) == r;
  }

  lemma {:induction false} RemoveIdsSeqShape(cs: seq<Node>, gone: set<nat>, k: nat)
    requires k <= |WalkSeq(cs)| && Covered(WalkSeq(cs), gone, k) && Uncovered(WalkSeq(cs), gone, k)
    ensures Shape(WalkSeq(RemoveIdsSeq(cs, gone))) == Shape(WalkSeq(cs)[k..])
    decreases cs, 1
  {
    if |cs| > 0 {
      var w0 := Walk(cs[0]);
      var rest := WalkSeq(cs[1..]);
      assert WalkSeq(cs) == w0 + rest;
      if k >= |w0| {
        RemoveIdsFirstGone(cs, gone, k);
      } else {
        RemoveIdsFirstKept(cs, gone, k);
      }
    }
  }

  /** The cut lies past the first child: that child is dropped whole. */
  lemma {:induction false} RemoveIdsFirstGone(cs: seq<Node>, gone: set<nat>, k: nat)
    requires |cs| > 0 && |Walk(cs[0])| <= k <= |WalkSeq(cs)|
    requires Covered(WalkSeq(cs), gone, k) && Uncovered(WalkSeq(cs), gone, k)
    ensures Shape(WalkSeq(RemoveIdsSeq(cs, gone))) == Shape(WalkSeq(cs)[k..])
    decreases cs, 0
  {
    var w0 := Walk(cs[0]);
    var rest := WalkSeq(cs[1..]);
    var tail := RemoveIdsSeq(cs[1..], gone);
    assert WalkSeq(cs) == w0 + rest;
    CoverSplit(w0, rest, k, gone);
    assert cs[0].id in gone by {
      assert w0[|w0| - 1] == cs[0];
    }
    assert RemoveIdsSeq(cs, gone) == tail;
    assert Shape(WalkSeq(tail)) == Shape(rest[k - |w0|..]) by {
      RemoveIdsSeqShape(cs[1..], gone, k - |w0|);
    }
    assert (w0 + rest)[k..] == rest[k - |w0|..];
  }

  /** The cut lies inside the first child: it is kept, with its own prefix dropped. */
  lemma {:induction false} RemoveIdsFirstKept(cs: seq<Node>, gone: set<nat>, k: nat)
    requires |cs| > 0 && k < |Walk(cs[0])|
    requires Covered(WalkSeq(cs), gone, k) && Uncovered(WalkSeq(cs), gone, k)
    ensures Shape(WalkSeq(RemoveIdsSeq(cs, gone))) == Shape(WalkSeq(cs)[k..])
    decreases cs, 0
  {
    var w0 := Walk(cs[0]);
    var rest := WalkSeq(cs[1..]);
    var h := RemoveIds(cs[0], gone);
    var tail := RemoveIdsSeq(cs[1..], gone);
    assert WalkSeq(cs) == w0 + rest;
    CoverSplit(w0, rest, k, gone);
    KeptHead(cs, gone);
    RemoveIdsShape(cs[0], gone, k);
    RemoveIdsSeqShape(cs[1..], gone, 0);
    ShapeCons(h, tail);
    ShapeSuffix(w0, rest, k);
  }

  /** A first child that is kept comes first, cleaned. */
  lemma KeptHead(cs: seq<Node>, gone: set<nat>)
    requires |cs| > 0 && Uncovered(Walk(cs[0]), gone, |Walk(cs[0])| - 1)
    ensures RemoveIdsSeq(cs, gone) == [RemoveIds(cs[0], gone)] + RemoveIdsSeq(cs[1..], gone)
  {
    assert Walk(cs[0])[|Walk(cs[0])| - 1] == cs[0];
  }

  lemma ShapeCons(h: Node, tail: seq<Node>)
    ensures Shape(WalkSeq([h] + tail)) == Shape(Walk(h)) + Shape(WalkSeq(tail))
  {
    assert ([h] + tail)[0] == h && ([h] + tail)[1..] == tail;
    ShapeAppend(Walk(h), WalkSeq(tail));
  }

  lemma ShapeSuffix(a: seq<Node>, b: seq<Node>, k: nat)
    requires k <= |a|
    ensures Shape((a + b)[k..]) == Shape(a[k..]) + Shape(b)
  {
    assert (a + b)[k..] == a[k..] + b;
    ShapeAppend(a[k..], b);
  }

  lemma WalkSeqEmpty(cs: seq<Node>)
    ensures |WalkSeq(cs)| == 0 ==> cs == []
  {
  }

  /** Distinct identities: the nodes after a walk prefix are not among the prefix's nodes. */
  lemma UniqueSplit(ns: seq<Node>, k: nat)
    requires UniqueIds(ns) && k <= |ns|
    ensures Covered(ns, IdsOf(ns[..k]), k) && Uncovered(ns, IdsOf(ns[..k]), k)
  {
    var pre := ns[..k];
    forall t | 0 <= t < k ensures ns[t].id in IdsOf(pre) {
      assert pre[t] == ns[t];
    }
    forall t | k <= t < |ns| ensures ns[t].id !in IdsOf(pre) {
      forall u | 0 <= u < |pre| ensures pre[u].id != ns[t].id {
        assert pre[u] == ns[u];
      }
    }
  }

  // ---------------------------------------------------------------- create_amsthm_blocks

  /** The theorem kind: the first class that names a supported block. */
  function FirstSupported(classes: seq<string>): (k: string)
    requires AnyIn(classes, SupportedAmsthm)
    ensures k in SupportedAmsthm
    ensures exists i :: 0 <= i < |classes| && classes[i] == k
                        && forall j :: 0 <= j < i ==> classes[j] !in SupportedAmsthm
  {
    if classes[0] in SupportedAmsthm then classes[0]
    else
      var i :| 0 <= i < |classes| && classes[i] in SupportedAmsthm;
      assert classes[1..][i - 1] == classes[i];
      var k := FirstSupported(classes[1..]);
      ghost var j :| 0 <= j < |classes[1..]| && classes[1..][j] == k
                     && forall j' :: 0 <= j' < j ==> classes[1..][j'] !in SupportedAmsthm;
      assert classes[j + 1] == k;
      k
  }

  /** The Div with the resolved identifier set on it and, for a "nonumber" class, the
      "nonumber" attribute added; its children are untouched. */
  function MarkedDiv(elem: Node, labels: map<string, Node>): (r: Node)
    requires elem.Div?
    ensures r.Div? && r.id == elem.id && r.content == elem.content && r.attr.classes == elem.attr.classes
    ensures Ident(r) == GetBlockIdentifier(elem, labels, false, "").identifier
    ensures "nonumber" in elem.attr.classes ==> Lookup(Attributes(r), "nonumber") == Some("")
  {
    var res := GetBlockIdentifier(elem, labels, false, "");
    var e1 := SetIdent(res.elem, res.identifier);
    PutLookup(Attributes(e1), "nonumber", "", "nonumber");
    if "nonumber" in elem.attr.classes then SetAttributes(e1, Put(Attributes(e1), "nonumber", "")) else e1
  }

  /** Two Divs with the same identity and children have walks of the same shape. */
  lemma SameKidsSameShape(a: Node, b: Node)
    requires a.Div? && b.Div? && a.id == b.id && a.content == b.content
    ensures Shape(Walk(a)) == Shape(Walk(b)) && Stringify(a) == Stringify(b)
  {
    ContainerWalk(a);
    ContainerWalk(b);
    ShapeAppend(WalkSeq(a.content), [a]);
    ShapeAppend(WalkSeq(b.content), [b]);
    SameShapeSameText(Walk(a), Walk(b));
  }

  /** The Div before its boilerplate is touched: marked, then every Emph turned into a Span. */
  function PreparedDiv(elem: Node, labels: map<string, Node>): (r: Node)
    requires elem.Div?
    ensures r.Div? && r.id == elem.id && r.attr == MarkedDiv(elem, labels).attr
  {
    var e := MarkedDiv(elem, labels);
    RemoveEmphShape(e);
    RemoveEmph(e)
  }

  /** Preparing a Div removes every emphasis and keeps the identity and text of every node. */
  lemma PreparedDivSpec(elem: Node, labels: map<string, Node>)
    requires elem.Div?
    ensures NoEmph(Walk(PreparedDiv(elem, labels)))
    ensures Shape(Walk(PreparedDiv(elem, labels))) == Shape(Walk(elem))
    ensures Stringify(PreparedDiv(elem, labels)) == Stringify(elem)
  {
    var e := MarkedDiv(elem, labels);
    RemoveEmphPreserves(e);
    SameKidsSameShape(e, elem);
  }

  /** The boilerplate step for a non-proof kind on the Div `e`: the title becomes the label,
      and the shortest walk prefix whose stripped text equals the stripped match is dropped. */
  function StripBoilerplate(e: Node, kind: string): (r: (Node, string))
    requires e.Div?
    ensures r.0.Div? && r.0.id == e.id && r.0.attr == e.attr
  {
    var s := Stringify(e);
    match Boilerplate(s, Capitalize(kind))
      case None => (e, "")
      case Some(m) =>
        var argument := if SearchTitled(s, Capitalize(kind), 0).Some? then m.title else "";
        match StringifyUntilMatch(Walk(e), s[m.start..m.end])
          case None => (e, argument)
          case Some(k) => (RemoveIds(e, IdsOf(Walk(e)[..k])), argument)
  }

  /** Without `Kind ` in the text nothing changes; the label is the title of the leftmost titled
      match, or "" without one. */
  lemma StripBoilerplateLabel(e: Node, kind: string)
    requires e.Div?
    ensures Boilerplate(Stringify(e), Capitalize(kind)).None? ==> StripBoilerplate(e, kind) == (e, "")
    ensures SearchTitled(Stringify(e), Capitalize(kind), 0).Some? ==>
              StripBoilerplate(e, kind).1 == SearchTitled(Stringify(e), Capitalize(kind), 0).value.title
    ensures SearchTitled(Stringify(e), Capitalize(kind), 0).None? ==> StripBoilerplate(e, kind).1 == ""
  {
  }

  /** The removal drops exactly the walk prefix the scan covered: the Div's walk then runs on
      from the first node after the match, and every node kept keeps its identity and text.
      When no prefix matches, the Div is unchanged; when the whole walk matches, it is emptied. */
  lemma StripBoilerplateRemoval(e: Node, kind: string)
    requires e.Div? && Boilerplate(Stringify(e), Capitalize(kind)).Some?
    ensures var m := Boilerplate(Stringify(e), Capitalize(kind)).value;
            var found := StringifyUntilMatch(Walk(e), Stringify(e)[m.start..m.end]);
            var r := StripBoilerplate(e, kind).0;
            (found.None? ==> r == e)
            && (found.Some? && found.value < |Walk(e)| && UniqueIds(Walk(e)) ==>
                  Shape(Walk(r)) == Shape(Walk(e)[found.value..]))
            && (found.Some? && found.value == |Walk(e)| ==> r.content == [])
  {
    var m := Boilerplate(Stringify(e), Capitalize(kind)).value;
    var found := StringifyUntilMatch(Walk(e), Stringify(e)[m.start..m.end]);
    if found.Some? {
      PrefixRemoval(e, found.value, IdsOf(Walk(e)[..found.value]));
    }
  }

  lemma PrefixRemoval(e: Node, k: nat, gone: set<nat>)
    requires e.Div? && k <= |Walk(e)| && gone == IdsOf(Walk(e)[..k])
    ensures k < |Walk(e)| && UniqueIds(Walk(e)) ==> Shape(Walk(RemoveIds(e, gone))) == Shape(Walk(e)[k..])
    ensures k == |Walk(e)| ==> RemoveIds(e, gone).content == []
  {
    if k < |Walk(e)| && UniqueIds(Walk(e)) {
      UniqueSplit(Walk(e), k);
      RemoveIdsShape(e, gone, k);
    }
    if k == |Walk(e)| {
      ContainerWalk(e);
      var w := WalkSeq(e.content);
      assert Walk(e)[..k] == w + [e];
      forall t | 0 <= t < |w| ensures w[t].id in gone {
        assert Walk(e)[..k][t] == w[t];
      }
      RemoveIdsSeqShape(e.content, gone, |w|);
      WalkSeqEmpty(RemoveIdsSeq(e.content, gone));
    }
  }

  /** The cleaned Div, the directive label and the side tables after cleaning. */
  datatype Cleaned = Cleaned(elem: Node, argument: string, ctx: Ctx)

  /** Lines 54-144 of `create_amsthm_blocks`: everything before the block is built. */
  function CleanAmsthm(elem: Node, ctx: Ctx): (r: Cleaned)
    requires elem.Div? && AnyIn(elem.attr.classes, SupportedAmsthm)
    ensures r.elem.Div? && r.elem.id == elem.id && r.elem.attr == MarkedDiv(elem, ctx.labels).attr
  {
    var e := PreparedDiv(elem, ctx.labels);
    var kind := FirstSupported(elem.attr.classes);
    if kind == "proof" then
      Cleaned(ReplaceKeyword(e, "Proof.", Str(ctx.nextId, "")), "", ctx.(nextId := ctx.nextId + 1))
    else
      var (body, argument) := StripBoilerplate(e, kind);
      Cleaned(body, argument, ctx)
  }

  /** A proof has its first "Proof." word emptied (the empty Str takes a fresh identity) and no
      label; every other kind loses its boilerplate and takes the title as label. Only the
      identity counter moves, and only for a proof. */
  lemma CleanAmsthmSpec(elem: Node, ctx: Ctx)
    requires elem.Div? && AnyIn(elem.attr.classes, SupportedAmsthm)
    ensures var r := CleanAmsthm(elem, ctx);
            r.ctx == ctx.(nextId := r.ctx.nextId)
            && (FirstSupported(elem.attr.classes) == "proof" ==>
                  r.argument == "" && r.ctx.nextId == ctx.nextId + 1
                  && r.elem == ReplaceKeyword(PreparedDiv(elem, ctx.labels), "Proof.", Str(ctx.nextId, "")))
            && (FirstSupported(elem.attr.classes) != "proof" ==>
                  r.ctx == ctx
                  && (r.elem, r.argument) == StripBoilerplate(PreparedDiv(elem, ctx.labels), FirstSupported(elem.attr.classes)))
  {
  }

  /** The kind of a theorem-like Div always makes it an "amsthm" element, so the identifier is
      written under "label", except for proofs, where it goes under "name". */
  lemma AmsthmIdentifierKey(elem: Node, blockType: string)
    requires elem.Div? && AnyIn(elem.attr.classes, SupportedAmsthm)
    ensures IdentifierKey(GetElementType(elem), blockType) == (if blockType == "prf:proof" then "name" else "label")
  {
  }

  /** `create_amsthm_blocks`: a theorem-like Div becomes a `prf:<kind>` directive over its
      cleaned content; any other Div comes back unchanged. */
  function CreateAmsthmBlocks(elem: Node, ctx: Ctx, sib: Siblings): (r: Built)
    requires elem.Div?
    ensures !AnyIn(elem.attr.classes, SupportedAmsthm) ==> r == Built(elem, ctx)
  {
    if !AnyIn(elem.attr.classes, SupportedAmsthm) then Built(elem, ctx)
    else
      var c := CleanAmsthm(elem, ctx);
      CleanAmsthmSpec(elem, ctx);
      assert IsDirectiveBlock(c.elem);
      CreateDirectiveBlock(c.elem, c.ctx, c.elem.content, "prf:" + FirstSupported(elem.attr.classes), Some(WrapDiv), c.argument, false, sib)
  }

  /** The block is a Div framing the cleaned content with a `prf:<kind>` fence labelled with the
      theorem title; the labels table is untouched, the level is recorded. */
  lemma AmsthmBlockSpec(elem: Node, ctx: Ctx, sib: Siblings)
    requires elem.Div? && AnyIn(elem.attr.classes, SupportedAmsthm)
    ensures var c := CleanAmsthm(elem, ctx);
            var r := CreateAmsthmBlocks(elem, ctx, sib);
            var level := ResolveLevel(c.elem, ctx).0;
            r.node.Div? && r.ctx.labels == ctx.labels
            && r.ctx.levels == ctx.levels[elem.id := level]
            && Framed(Kids(r.node), c.elem.content, level, "prf:" + FirstSupported(elem.attr.classes), c.argument)
  {
    var c := CleanAmsthm(elem, ctx);
    CleanAmsthmSpec(elem, ctx);
    var bt := "prf:" + FirstSupported(elem.attr.classes);
    DirectiveBlockFrame(c.elem, c.ctx, c.elem.content, bt, Some(WrapDiv), c.argument, false, sib);
    var res := GetBlockIdentifier(c.elem, c.ctx.labels, false, bt);
    assert res.labels == ctx.labels;
  }

  // ---------------------------------------------------------------- create_displaymath

  /** The formula text once the first well-formed `\label{X}` marker, and every later copy of
      the same marker, is removed; and X ("" without a marker). */
  function DisplayContent(text: string): (r: (string, string))
    ensures SearchLabel(text, false, 0).None? ==> r == (text, "")
    ensures SearchLabel(text, false, 0).Some? ==> r.1 == SearchLabel(text, false, 0).value.1 && |r.1| > 0
  {
    match SearchLabel(text, false, 0)
      case None => (text, "")
      case Some((p, x)) =>
        LabelAtIsMatch(text, p, x, false);
        (ReplaceAll(text, LabelOpen + x + "}", ""), x)
  }

  /** The text before the marker at `p`, then the rest with every copy of the marker removed. */
  function KeepBefore(text: string, p: nat, x: string): string
    requires p + |LabelOpen + x + "}"| <= |text|
  {
    text[..p] + ReplaceAll(text[p + |LabelOpen + x + "}"|..], LabelOpen + x + "}", "")
  }

  /** Everything before the first marker is kept verbatim. */
  lemma DisplayContentFirst(text: string, p: nat, x: string)
    requires SearchLabel(text, false, 0) == Some((p, x))
    ensures p + |LabelOpen + x + "}"| <= |text|
    ensures DisplayContent(text).0 == KeepBefore(text, p, x)
  {
    FirstMarkerKept(text, p, x);
    DisplayContentIsReplace(text, p, x);
  }

  lemma FirstMarkerKept(text: string, p: nat, x: string)
    requires SearchLabel(text, false, 0) == Some((p, x))
    ensures p + |LabelOpen + x + "}"| <= |text|
    ensures ReplaceAll(text, LabelOpen + x + "}", "") == KeepBefore(text, p, x)
  {
    var marker := LabelOpen + x + "}";
    assert OccursAt(text, marker, p) && forall q :: 0 <= q < p ==> !OccursAt(text, marker, q) by {
      FirstLabelOccurrence(text, p, x);
    }
    ReplaceAllFirst(text, marker, "", p);
    assert text[..p] + "" == text[..p];
  }

  lemma DisplayContentIsReplace(text: string, p: nat, x: string)
    requires SearchLabel(text, false, 0) == Some((p, x))
    ensures DisplayContent(text).0 == ReplaceAll(text, LabelOpen + x + "}", "")
  {
  }

  /** The math element with the label found in its text set as its identifier: what
      math.py:178 means to do, on the `mathId` slot the corrected builder gives Math. */
  function DisplayElem(elem: Node): (r: Node)
    requires elem.Math?
    ensures r.Math? && r.id == elem.id && r.display == elem.display && r.text == elem.text
    ensures DisplayContent(elem.text).1 != "" ==> r.mathId == DisplayContent(elem.text).1
    ensures DisplayContent(elem.text).1 == "" ==> r == elem
  {
    var x := DisplayContent(elem.text).1;
    if x != "" then Math(elem.id, elem.display, elem.text, x) else elem
  }

  /** `create_displaymath` as written. panflute's Math declares only `format` and `text` in its
      slots: with a marker, math.py:178 assigns an attribute Math cannot hold, and without one
      math.py:179 reads an attribute Math never has. Either way display math raises
      AttributeError before a block is built; other nodes come back unchanged. */
  function CreateDisplaymath(elem: Node, ctx: Ctx, sib: Siblings): (r: Result<Built>)
    ensures !IsDisplayMath(elem) ==> r == Success(Built(elem, ctx))
    ensures IsDisplayMath(elem) ==> r == Failure(AttributeError)
  {
    if !IsDisplayMath(elem) then Success(Built(elem, ctx))
    else if DisplayContent(elem.text).1 != "" then Failure(AttributeError)  // setting `identifier`
    else Failure(AttributeError)                                            // reading `identifier`
  }

  /** `create_displaymath` as evidently intended: display math becomes an inline `math`
      directive labelled with the marker's label and holding the formula with its marker cut
      out; other nodes come back unchanged. */
  function CreateDisplaymathCorrected(elem: Node, ctx: Ctx, sib: Siblings): (r: Built)
    ensures !IsDisplayMath(elem) ==> r == Built(elem, ctx)
    ensures IsDisplayMath(elem) ==> r.node.id == ctx.nextId + 1 && r.ctx.nextId == ctx.nextId + 4
  {
    if !IsDisplayMath(elem) then Built(elem, ctx)
    else
      CreateDirectiveBlock(DisplayElem(elem), ctx.(nextId := ctx.nextId + 1),
                           [RawInline(ctx.nextId, DisplayContent(elem.text).0)], "math", Some(WrapSpan), "", false, sib)
  }

  /** Every display formula, with or without a label marker, makes the builder as written raise,
      while the corrected builder frames it in a Span. */
  lemma DisplaymathRaises(elem: Node, ctx: Ctx, sib: Siblings)
    requires IsDisplayMath(elem)
    ensures CreateDisplaymath(elem, ctx, sib) == Failure(AttributeError)
    ensures CreateDisplaymathCorrected(elem, ctx, sib).node.Span?
  {
    DisplaymathSpec(elem, ctx, sib);
  }

  /** Setting the identifier does not move the element's level. */
  lemma DisplayElemLevel(elem: Node, ctx: Ctx, c1: Ctx)
    requires IsDisplayMath(elem) && c1.levels == ctx.levels
    ensures ResolveLevel(DisplayElem(elem), c1).0 == ResolveLevel(elem, ctx).0
  {
    LeafDirectiveLevel(elem, 0);
    LeafDirectiveLevel(DisplayElem(elem), 0);
  }

  /** Display math has no attributes, so its front matter is the label alone, if any. */
  lemma MathBlockAttrs(e: Node, x: string)
    requires IsDisplayMath(e)
    ensures BlockAttrs(e, "math", x) == if x != "" then [("label", x)] else []
  {
    assert GetElementType(e) == Some("displaymath");
  }

  /** The corrected block is a Span framing one raw node, with a fresh identity taken before
      the block's three, that holds the cleaned formula. */
  lemma DisplaymathSpec(elem: Node, ctx: Ctx, sib: Siblings)
    requires IsDisplayMath(elem)
    ensures var r := CreateDisplaymathCorrected(elem, ctx, sib);
            var level := ResolveLevel(elem, ctx).0;
            r.node.Span? && r.ctx.levels == ctx.levels[elem.id := level]
            && r.ctx.labels == ctx.labels
            && Framed(Kids(r.node), [RawInline(ctx.nextId, DisplayContent(elem.text).0)], level, "math", "")
  {
    var e1 := DisplayElem(elem);
    var c1 := ctx.(nextId := ctx.nextId + 1);
    DirectiveBlockFrame(e1, c1, [RawInline(ctx.nextId, DisplayContent(elem.text).0)], "math", Some(WrapSpan), "", false, sib);
    DisplayElemLevel(elem, ctx, c1);
  }

  /** In the corrected block the label found becomes the identifier and is written under
      "label" in the front matter; without one the header has no front matter. */
  lemma DisplaymathHeader(elem: Node, ctx: Ctx, sib: Siblings)
    requires IsDisplayMath(elem)
    ensures var x := DisplayContent(elem.text).1;
            var r := CreateDisplaymathCorrected(elem, ctx, sib);
            var level := ResolveLevel(elem, ctx).0;
            (x != "" ==> Kids(r.node)[0].text == HeaderText(level, "math", "", [("label", x)]) + "\n")
            && (x == "" && elem.mathId == "" ==> Kids(r.node)[0].text == HeaderText(level, "math", "", []) + "\n")
  {
    var x := DisplayContent(elem.text).1;
    var e1 := DisplayElem(elem);
    var c1 := ctx.(nextId := ctx.nextId + 1);
    DirectiveBlockHeader(e1, c1, [RawInline(ctx.nextId, DisplayContent(elem.text).0)], "math", Some(WrapSpan), "", false, sib);
    DisplayElemLevel(elem, ctx, c1);
    var res := GetBlockIdentifier(e1, c1.labels, false, "math");
    assert x != "" ==> res.identifier == x && res.elem == e1;
    assert x == "" && elem.mathId == "" ==> res.identifier == "" && res.elem == e1;
    MathBlockAttrs(e1, res.identifier);
  }

  // ---------------------------------------------------------------- action

  /** The math pass (`action`): theorem-like Divs to the amsthm path, other classed Divs to the
      generic path, display math to the display path, which raises; other math is returned as
      it is, and everything else is left alone. */
  function MathAction(elem: Node, sib: Siblings, ctx: Ctx): (r: Result<Step>)
    ensures r.Failure? <==> IsDisplayMath(elem)
    ensures r.Failure? ==> r.error == AttributeError
    ensures elem.Math? && !elem.display ==> r == Success(Step(Replace([elem]), ctx))
    ensures !elem.Math? && !(elem.Div? && |elem.attr.classes| > 0) ==> r == Success(Step(Keep, ctx))
  {
    if elem.Div? && |elem.attr.classes| > 0 then
      var b := if AnyIn(elem.attr.classes, SupportedAmsthm) then CreateAmsthmBlocks(elem, ctx, sib)
               else CreateGenericDivBlock(elem, ctx, sib);
      Success(Step(Replace([b.node]), b.ctx))
    else if elem.Math? then
      if elem.display then
        match CreateDisplaymath(elem, ctx, sib)
        case Failure(e) => Failure(e)
        case Success(b) => Success(Step(Replace([b.node]), b.ctx))
      else Success(Step(Replace([elem]), ctx))
    else Success(Step(Keep, ctx))
  }

  /** What the math pass makes of a node. A theorem-like Div is replaced by one Div framing its
      cleaned content under a `prf:<kind>` fence labelled with the theorem's title. Display math
      raises AttributeError. Any other classed Div is replaced by itself unless it is a generic
      candidate, which becomes a Div framing its children under a "div" fence labelled with its
      classes. Where the pass succeeds the labels table is untouched and exactly the rewritten
      element's level is recorded. */
  lemma MathActionSpec(elem: Node, sib: Siblings, ctx: Ctx)
    ensures elem.Div? && AnyIn(elem.attr.classes, SupportedAmsthm) ==>
              var r := MathAction(elem, sib, ctx);
              var c := CleanAmsthm(elem, ctx);
              var level := ResolveLevel(c.elem, ctx).0;
              && r.Success? && r.value.outcome.Replace? && |r.value.outcome.nodes| == 1 && r.value.outcome.nodes[0].Div?
              && r.value.ctx.labels == ctx.labels && r.value.ctx.levels == ctx.levels[elem.id := level]
              && Framed(Kids(r.value.outcome.nodes[0]), c.elem.content, level, "prf:" + FirstSupported(elem.attr.classes), c.argument)
    ensures IsDisplayMath(elem) ==> MathAction(elem, sib, ctx) == Failure(AttributeError)
    ensures elem.Div? && |elem.attr.classes| > 0 && !AnyIn(elem.attr.classes, SupportedAmsthm) ==>
              var r := MathAction(elem, sib, ctx);
              var level := ResolveLevel(elem, ctx).0;
              && r.Success?
              && (!GenericDivCandidate(elem) ==> r.value == Step(Replace([elem]), ctx))
              && (GenericDivCandidate(elem) ==>
                    r.value.outcome.Replace? && |r.value.outcome.nodes| == 1 && r.value.outcome.nodes[0].Div?
                    && r.value.ctx.labels == ctx.labels && r.value.ctx.levels == ctx.levels[elem.id := level]
                    && Framed(Kids(r.value.outcome.nodes[0]), elem.content, level, "div", Join(" ", elem.attr.classes)))
  {
    if elem.Div? && AnyIn(elem.attr.classes, SupportedAmsthm) {
      AmsthmBlockSpec(elem, ctx, sib);
    } else if elem.Div? && |elem.attr.classes| > 0 {
      GenericDivSpec(elem, ctx, sib);
    }
  }
}

=== FILE: nesting.dfy ===
/** The nesting-level calculation shared by `directive_level` (directives.py, directive.py)
    and `declarative_level` (declarative.py); each variant supplies its own directive predicate.

    latex_to_myst's code loops over an element's child slots but returns inside the loop, so only the
    FIRST slot is ever inspected: for a list slot the level is the maximum over its items, for
    a single-element slot (a table's head) it is that element's level, and an empty list gives
    the running count. */
module Nesting {
  import opened Tree

  function Max(a: nat, b: nat): nat {
    if a >= b then a else b
  }

  /** The children the level calculation descends into. */
  function Inspected(n: Node): (r: seq<Node>)
    ensures |r| <= |Kids(n)|
    ensures forall c :: c in r ==> c in Kids(n)
  {
    if !IsContainer(n) || |n.content| == 0 then []
    else if n.Table? then [n.content[0]]
    else n.content
  }

  /** `directive_level(n, doc, start)` */
  function Level(isDir: Node -> bool, n: Node, start: nat): nat
    decreases n
  {
    var s := start + (if isDir(n) then 1 else 0);
    if !IsContainer(n) || |n.content| == 0 then s
    else if n.Table? then Level(isDir, n.content[0], s)
    else MaxLevel(isDir, n.content, s)
  }

  /** `max([directive_level(item, doc, s) for item in cs])` */
  function MaxLevel(isDir: Node -> bool, cs: seq<Node>, s: nat): nat
    requires |cs| > 0
    decreases cs
  {
    if |cs| == 1 then Level(isDir, cs[0], s)
    else Max(Level(isDir, cs[0], s), MaxLevel(isDir, cs[1..], s))
  }

  /** Where the maximum is attained (the first such item). */
  function MaxIndex(isDir: Node -> bool, cs: seq<Node>, s: nat): (i: nat)
    requires |cs| > 0
    ensures i < |cs| && Level(isDir, cs[i], s) == MaxLevel(isDir, cs, s)
    decreases cs
  {
    if |cs| == 1 || Level(isDir, cs[0], s) >= MaxLevel(isDir, cs[1..], s) then 0
    else 1 + MaxIndex(isDir, cs[1..], s)
  }

  // ---------------------------------------------------------------- basic facts

  /** The running count only shifts the result. */
  lemma {:induction false} LevelShift(isDir: Node -> bool, n: Node, s: nat)
    ensures Level(isDir, n, s) == Level(isDir, n, 0) + s
    decreases n, 1
  {
    var d := if isDir(n) then 1 else 0;
    if IsContainer(n) && |n.content| > 0 {
      if n.Table? {
        LevelShift(isDir, n.content[0], s + d);
        LevelShift(isDir, n.content[0], d);
      } else {
        MaxLevelShift(isDir, n.content, s + d);
        MaxLevelShift(isDir, n.content, d);
      }
    }
  }

  lemma {:induction false} MaxLevelShift(isDir: Node -> bool, cs: seq<Node>, s: nat)
    requires |cs| > 0
    ensures MaxLevel(isDir, cs, s) == MaxLevel(isDir, cs, 0) + s
    decreases cs, 0
  {
    LevelShift(isDir, cs[0], s);
    if |cs| > 1 {
      MaxLevelShift(isDir, cs[1..], s);
    }
  }

  /** The maximum bounds every item and is attained by one of them. */
  lemma {:induction false} MaxLevelIsMax(isDir: Node -> bool, cs: seq<Node>, s: nat)
    requires |cs| > 0
    ensures forall i :: 0 <= i < |cs| ==> Level(isDir, cs[i], s) <= MaxLevel(isDir, cs, s)
    ensures exists i :: 0 <= i < |cs| && Level(isDir, cs[i], s) == MaxLevel(isDir, cs, s)
    decreases cs
  {
    if |cs| > 1 {
      MaxLevelIsMax(isDir, cs[1..], s);
      forall i | 1 <= i < |cs| ensures Level(isDir, cs[i], s) <= MaxLevel(isDir, cs, s) {
        assert cs[i] == cs[1..][i - 1];
      }
      var j :| 0 <= j < |cs[1..]| && Level(isDir, cs[1..][j], s) == MaxLevel(isDir, cs[1..], s);
      assert cs[j + 1] == cs[1..][j];
    }
  }

  /** The running count plus one for a directive node is a lower bound. */
  lemma {:induction false} LevelAtLeastStart(isDir: Node -> bool, n: Node, s: nat)
    ensures Level(isDir, n, s) >= s + (if isDir(n) then 1 else 0)
    decreases n
  {
    var d := if isDir(n) then 1 else 0;
    if IsContainer(n) && |n.content| > 0 {
      if n.Table? {
        LevelAtLeastStart(isDir, n.content[0], s + d);
      } else {
        MaxLevelIsMax(isDir, n.content, s + d);
        LevelAtLeastStart(isDir, n.content[0], s + d);
      }
    }
  }

  /** A node's level is at least each inspected child's level, plus one when the node
      itself is a directive: an outer directive is strictly above every directive below it. */
  lemma ChildBound(isDir: Node -> bool, n: Node, i: nat)
    requires i < |Inspected(n)|
    ensures Level(isDir, n, 0) >= Level(isDir, Inspected(n)[i], 0) + (if isDir(n) then 1 else 0)
  {
    var d := if isDir(n) then 1 else 0;
    LevelShift(isDir, Inspected(n)[i], d);
    if !n.Table? {
      MaxLevelIsMax(isDir, n.content, d);
    }
  }

  // ---------------------------------------------------------------- paths

  /** A downward path: each step picks one inspected child. */
  predicate ValidPath(n: Node, p: seq<nat>)
    decreases |p|
  {
    |p| == 0 || (p[0] < |Inspected(n)| && ValidPath(Inspected(n)[p[0]], p[1..]))
  }

  /** The node a valid path ends at. */
  function NodeAt(n: Node, p: seq<nat>): Node
    requires ValidPath(n, p)
    decreases |p|
  {
    if |p| == 0 then n else NodeAt(Inspected(n)[p[0]], p[1..])
  }

  /** The number of directive nodes on the path, its start included. */
  function PathCount(isDir: Node -> bool, n: Node, p: seq<nat>): nat
    requires ValidPath(n, p)
    decreases |p|
  {
    (if isDir(n) then 1 else 0) + (if |p| == 0 then 0 else PathCount(isDir, Inspected(n)[p[0]], p[1..]))
  }

  /** No downward path holds more directive nodes than the level. */
  lemma {:induction false} LevelBoundsPaths(isDir: Node -> bool, n: Node, p: seq<nat>)
    requires ValidPath(n, p)
    ensures PathCount(isDir, n, p) <= Level(isDir, n, 0)
    decreases |p|
  {
    if |p| == 0 {
      LevelAtLeastStart(isDir, n, 0);
    } else {
      LevelBoundsPaths(isDir, Inspected(n)[p[0]], p[1..]);
      ChildBound(isDir, n, p[0]);
    }
  }

  /** A path that attains the level. */
  function DeepestPath(isDir: Node -> bool, n: Node): (p: seq<nat>)
    ensures ValidPath(n, p)
    ensures PathCount(isDir, n, p) == Level(isDir, n, 0)
    decreases n
  {
    var d := if isDir(n) then 1 else 0;
    if !IsContainer(n) || |n.content| == 0 then []
    else if n.Table? then
      var q := DeepestPath(isDir, n.content[0]);
      LevelShift(isDir, n.content[0], d);
      [0] + q
    else
      var i := MaxIndex(isDir, n.content, d);
      var q := DeepestPath(isDir, n.content[i]);
      LevelShift(isDir, n.content[i], d);
      assert ([i] + q)[1..] == q;
      [i] + q
  }

  /** The level is exactly the largest number of directive nodes on a downward path. */
  lemma LevelIsDeepestPath(isDir: Node -> bool, n: Node)
    ensures forall p :: ValidPath(n, p) ==> PathCount(isDir, n, p) <= Level(isDir, n, 0)
    ensures exists p :: ValidPath(n, p) && PathCount(isDir, n, p) == Level(isDir, n, 0)
  {
    forall p | ValidPath(n, p) ensures PathCount(isDir, n, p) <= Level(isDir, n, 0) {
      LevelBoundsPaths(isDir, n, p);
    }
    var p := DeepestPath(isDir, n);
  }

  /** A predicate that holds wherever another holds counts at least as many nodes on a path. */
  lemma {:induction false} PathCountMonotone(p: Node -> bool, q: Node -> bool, n: Node, path: seq<nat>)
    requires ValidPath(n, path)
    requires forall m :: p(m) ==> q(m)
    ensures PathCount(p, n, path) <= PathCount(q, n, path)
    decreases |path|
  {
    if |path| > 0 {
      PathCountMonotone(p, q, Inspected(n)[path[0]], path[1..]);
    }
  }

  /** A wider directive predicate never gives a lower level: a revision that counts more nodes as directives nests
      its fences at least as deep. */
  lemma LevelMonotone(p: Node -> bool, q: Node -> bool, n: Node, s: nat)
    requires forall m :: p(m) ==> q(m)
    ensures Level(p, n, s) <= Level(q, n, s)
  {
    var path := DeepestPath(p, n);
    PathCountMonotone(p, q, n, path);
    LevelBoundsPaths(q, n, path);
    LevelShift(p, n, s);
    LevelShift(q, n, s);
  }

  /** A directive node lies strictly above every node its level calculation reaches. */
  lemma {:induction false} DirectiveAboveDescendants(isDir: Node -> bool, n: Node, p: seq<nat>)
    requires ValidPath(n, p) && |p| > 0
    ensures Level(isDir, n, 0) >= Level(isDir, NodeAt(n, p), 0) + (if isDir(n) then 1 else 0)
    decreases |p|
  {
    var c := Inspected(n)[p[0]];
    ChildBound(isDir, n, p[0]);
    if |p| > 1 {
      DirectiveAboveDescendants(isDir, c, p[1..]);
    }
  }
}

=== FILE: pipeline.dfy ===
/** The orchestration of `latex_to_myst/main.py`: `prepare` builds the level and label tables,
    the four passes run one after the other over the whole document, and `finalize` puts an
    anchor block in front of every recorded header. */
module Pipeline {
  import opened Wrappers
  import opened Text
  import opened Tree
  import opened Helpers
  import opened Directives
  import AmsMath
  import Hyperlink
  import Basic

  // ---------------------------------------------------------------- prepare: levels

  /** `element_levels` after `prepare` has walked the nodes `w` in order: every directive
      block is recorded under its identity with its level counted from 0. */
  function LevelTable(w: seq<Node>): map<nat, nat> {
    if |w| == 0 then map[]
    else
      var e := w[|w| - 1];
      var m := LevelTable(w[..|w| - 1]);
      if IsDirectiveBlock(e) then m[e.id := DirectiveLevel(e, 0)] else m
  }

  /** Membership in the level table: some walked directive block has that identity. */
  lemma {:induction false} LevelTableKeys(w: seq<Node>, k: nat)
    ensures k in LevelTable(w) <==> exists i :: 0 <= i < |w| && w[i].id == k && IsDirectiveBlock(w[i])
  {
    if |w| > 0 {
      var u := w[..|w| - 1];
      LevelTableKeys(u, k);
      assert forall i :: 0 <= i < |u| ==> u[i] == w[i];
    }
  }

  /** The level recorded for an identity is that of the last directive block walked under it. */
  lemma {:induction false} LevelTableLast(w: seq<Node>, k: nat)
    requires k in LevelTable(w)
    ensures exists i :: 0 <= i < |w| && w[i].id == k && IsDirectiveBlock(w[i])
              && LevelTable(w)[k] == DirectiveLevel(w[i], 0)
              && forall j :: i < j < |w| ==> !(w[j].id == k && IsDirectiveBlock(w[j]))
  {
    var u := w[..|w| - 1];
    var e := w[|w| - 1];
    if !(e.id == k && IsDirectiveBlock(e)) {
      assert k in LevelTable(u);
      LevelTableLast(u, k);
      var i :| 0 <= i < |u| && u[i].id == k && IsDirectiveBlock(u[i]) && LevelTable(u)[k] == DirectiveLevel(u[i], 0)
               && forall j :: i < j < |u| ==> !(u[j].id == k && IsDirectiveBlock(u[j]));
      PrefixAgrees(w, i);
    }
  }

  lemma PrefixAgrees(w: seq<Node>, i: nat)
    requires i < |w| - 1
    ensures w[..|w| - 1][i] == w[i] && forall j :: i < j < |w| - 1 ==> w[..|w| - 1][j] == w[j]
  {
  }

  /** With distinct identities every directive block of the walk has its own level. */
  lemma LevelOfEveryDirective(w: seq<Node>, i: nat)
    requires UniqueIds(w) && i < |w| && IsDirectiveBlock(w[i])
    ensures w[i].id in LevelTable(w) && LevelTable(w)[w[i].id] == DirectiveLevel(w[i], 0)
  {
    LevelTableKeys(w, w[i].id);
    LevelTableLast(w, w[i].id);
  }

  // ---------------------------------------------------------------- prepare: labels

  /** The keys under which `prepare` registers a node, in order: the first `\label{X}` of a
      display formula (X may be empty), then a non-empty identifier. Math nodes have no
      identifier at this point, so only attribute-carrying kinds contribute one. */
  function Registrations(e: Node): seq<string> {
    (if GetElementType(e) == Some("displaymath") then
       match SearchLabel(e.text, true, 0)
       case Some(m) => [m.1]
       case None => []
     else [])
    + (if HasAttr(e) && e.attr.identifier != "" then [e.attr.identifier] else [])
  }

  function RegisterAll(m: map<string, Node>, keys: seq<string>, e: Node): (r: map<string, Node>)
    ensures forall k :: k in r <==> k in m || k in keys
    ensures forall k :: k in r ==> r[k] == if k in keys then e else m[k]
    decreases |keys|
  {
    if |keys| == 0 then m
    else
      var r := RegisterAll(m[keys[0] := e], keys[1..], e);
      assert forall k :: k in keys <==> k == keys[0] || k in keys[1..];
      r
  }

  /** The table built by registering, in walk order, each node `w[i]` under the keys
      `keys[i]`; a later registration overwrites an earlier one. */
  function Registered(w: seq<Node>, keys: seq<seq<string>>): map<string, Node>
    requires |keys| == |w|
  {
    if |w| == 0 then map[]
    else RegisterAll(Registered(w[..|w| - 1], keys[..|w| - 1]), keys[|w| - 1], w[|w| - 1])
  }

  /** `element_labels` after `prepare` has walked the nodes `w`. */
  function LabelTable(w: seq<Node>): map<string, Node> {
    Registered(w, seq(|w|, i requires 0 <= i < |w| => Registrations(w[i])))
  }

  /** A key is registered iff some node is registered under it. */
  lemma {:induction false} RegisteredKeys(w: seq<Node>, keys: seq<seq<string>>, k: string)
    requires |keys| == |w|
    ensures k in Registered(w, keys) <==> exists i :: 0 <= i < |w| && k in keys[i]
  {
    if |w| > 0 {
      var u, ku := w[..|w| - 1], keys[..|w| - 1];
      RegisteredKeys(u, ku, k);
      assert forall i :: 0 <= i < |u| ==> ku[i] == keys[i];
    }
  }

  /** A registered key maps to the last node registered under it. */
  lemma {:induction false} RegisteredLast(w: seq<Node>, keys: seq<seq<string>>, k: string)
    requires |keys| == |w| && k in Registered(w, keys)
    ensures exists i :: 0 <= i < |w| && Registered(w, keys)[k] == w[i] && k in keys[i]
              && forall j :: i < j < |w| ==> k !in keys[j]
  {
    var u, ku := w[..|w| - 1], keys[..|w| - 1];
    if k !in keys[|w| - 1] {
      RegisteredSkip(w, keys, k);
      RegisteredLast(u, ku, k);
      var i :| 0 <= i < |u| && Registered(u, ku)[k] == u[i] && k in ku[i]
               && forall j :: i < j < |u| ==> k !in ku[j];
      WitnessLifts(w, keys, ku, i, k);
    }
  }

  /** A node registered under other keys leaves `k`'s entry as it was. */
  lemma RegisteredSkip(w: seq<Node>, keys: seq<seq<string>>, k: string)
    requires |keys| == |w| > 0 && k !in keys[|w| - 1] && k in Registered(w, keys)
    ensures k in Registered(w[..|w| - 1], keys[..|w| - 1])
    ensures Registered(w, keys)[k] == Registered(w[..|w| - 1], keys[..|w| - 1])[k]
  {
  }

  lemma WitnessLifts(w: seq<Node>, keys: seq<seq<string>>, ku: seq<seq<string>>, i: nat, k: string)
    requires |keys| == |w| > 0 && ku == keys[..|w| - 1] && i < |w| - 1 && k !in keys[|w| - 1]
    requires k in ku[i] && forall j :: i < j < |ku| ==> k !in ku[j]
    ensures k in keys[i] && w[..|w| - 1][i] == w[i] && forall j :: i < j < |w| ==> k !in keys[j]
  {
  }

  /** A key is in the label table iff some walked node registers it, and it maps to the
      last node that does. */
  lemma LabelTableSpec(w: seq<Node>, k: string)
    ensures k in LabelTable(w) <==> exists i :: 0 <= i < |w| && k in Registrations(w[i])
    ensures k in LabelTable(w) ==>
              exists i :: 0 <= i < |w| && LabelTable(w)[k] == w[i] && k in Registrations(w[i])
                && forall j :: i < j < |w| ==> k !in Registrations(w[j])
  {
    var keys := seq(|w|, i requires 0 <= i < |w| => Registrations(w[i]));
    assert forall i :: 0 <= i < |w| ==> keys[i] == Registrations(w[i]);
    RegisteredKeys(w, keys, k);
    if k in LabelTable(w) {
      RegisteredLast(w, keys, k);
      var i :| 0 <= i < |w| && Registered(w, keys)[k] == w[i] && k in keys[i]
               && forall j :: i < j < |w| ==> k !in keys[j];
      assert LabelTable(w)[k] == w[i] && k in Registrations(w[i]);
    }
  }

  /** A display formula with a `\label{X}` marker is registered under X unless a later node
      claims X. */
  lemma DisplayLabelRegistered(w: seq<Node>, i: nat, x: string)
    requires i < |w| && IsDisplayMath(w[i])
    requires SearchLabel(w[i].text, true, 0).Some? && SearchLabel(w[i].text, true, 0).value.1 == x
    requires forall j :: i < j < |w| ==> x !in Registrations(w[j])
    ensures x in LabelTable(w) && LabelTable(w)[x] == w[i]
  {
    assert x in Registrations(w[i]);
    LabelTableSpec(w, x);
  }

  /** The largest identity in `w` (0 for none): fresh identities start above it. */
  function MaxId(w: seq<Node>): (r: nat)
    ensures forall i :: 0 <= i < |w| ==> w[i].id <= r
  {
    if |w| == 0 then 0
    else
      var m := MaxId(w[1..]);
      assert forall i :: 1 <= i < |w| ==> w[i] == w[1..][i - 1];
      if w[0].id > m then w[0].id else m
  }

  /** `prepare`. */
  function Prepare(doc: seq<Node>, nextId: nat): (r: Ctx)
    ensures r.sections == [] && r.substitutions == [] && r.nextId == nextId
  {
    var w := WalkSeq(doc);
    Ctx(LevelTable(w), LabelTable(w), [], [], nextId)
  }

  // ---------------------------------------------------------------- the passes

  /** The entries of `ACTIONS`, in the order they run. The Figure entry names an action the
      figure module does not define; here it leaves every node as it is. */
  datatype Pass = MathPass | LinkPass | FigurePass | BasicPass

  const Actions: seq<Pass> := [MathPass, LinkPass, FigurePass, BasicPass]

  function Apply(p: Pass, elem: Node, sib: Siblings, ctx: Ctx): Result<Step> {
    match p
    case MathPass => AmsMath.MathAction(elem, sib, ctx)
    case LinkPass => Hyperlink.LinkAction(elem, sib, ctx)
    case FigurePass => Success(Step(Keep, ctx))
    case BasicPass => Basic.BasicAction(elem, sib, ctx)
  }

  /** A node after one pass: `self` is the node with its children rewritten (what the next
      sibling sees as its previous sibling), `out` the nodes that take its place. */
  datatype Walked = Walked(self: Node, out: seq<Node>, ctx: Ctx)

  /** A child list after one pass, and the side tables after it. */
  datatype Spliced = Spliced(nodes: seq<Node>, ctx: Ctx)

  /** panflute's `walk` for one node: the children first, then the action on the node. */
  function PassNode(p: Pass, n: Node, sib: Siblings, ctx: Ctx): Result<Walked>
    decreases n
  {
    var inner :- if IsContainer(n) then PassSeq(p, n.content, None, ctx) else Success(Spliced([], ctx));
    var self := if IsContainer(n) then WithKids(n, inner.nodes) else n;
    var step :- Apply(p, self, sib, inner.ctx);
    Success(Walked(self, if step.outcome.Keep? then [self] else step.outcome.nodes, step.ctx))
  }

  /** panflute's `walk` for a child list: each child in turn, the results spliced together. */
  function PassSeq(p: Pass, cs: seq<Node>, prev: Option<Node>, ctx: Ctx): Result<Spliced>
    decreases cs
  {
    if |cs| == 0 then Success(Spliced([], ctx))
    else
      var sib := Siblings(prev, if |cs| > 1 then Some(cs[1]) else None, if |cs| > 2 then Some(cs[2]) else None);
      var w :- PassNode(p, cs[0], sib, ctx);
      var rest :- PassSeq(p, cs[1..], Some(w.self), w.ctx);
      Success(Spliced(w.out + rest.nodes, rest.ctx))
  }

  /** `run_filters`: the passes in order over the top-level blocks. */
  function RunPasses(ps: seq<Pass>, doc: seq<Node>, ctx: Ctx): Result<Spliced>
    decreases |ps|
  {
    if |ps| == 0 then Success(Spliced(doc, ctx))
    else
      var s :- PassSeq(ps[0], doc, None, ctx);
      RunPasses(ps[1..], s.nodes, s.ctx)
  }

  // ---------------------------------------------------------------- finalize

  /** The anchor block put in front of a header: "(label)=" with the label stripped. */
  function AnchorText(name: string): string {
    "(" + Strip(name) + ")="
  }

  /** `list.index`: the first position of the node with this identity. */
  function IndexOf(ns: seq<Node>, id: nat): (r: Option<nat>)
    ensures r.Some? ==> r.value < |ns| && ns[r.value].id == id
    ensures r.Some? ==> forall j :: 0 <= j < r.value ==> ns[j].id != id
    ensures r.None? ==> forall j :: 0 <= j < |ns| ==> ns[j].id != id
  {
    if |ns| == 0 then None
    else if ns[0].id == id then Some(0)
    else match IndexOf(ns[1..], id)
      case None => None
      case Some(i) => Some(i + 1)
  }

  function InsertAt(ns: seq<Node>, i: nat, x: Node): (r: seq<Node>)
    requires i <= |ns|
    ensures |r| == |ns| + 1 && r[i] == x
    ensures forall j :: 0 <= j < i ==> r[j] == ns[j]
    ensures forall j :: i < j < |r| ==> r[j] == ns[j - 1]
  {
    ns[..i] + [x] + ns[i..]
  }

  /** The anchor `finalize` puts before the j-th recorded header. */
  function Anchor(sections: Dict<nat, string>, base: nat, j: nat): Node
    requires j < |sections|
  {
    RawBlock(base + j, AnchorText(sections[j].1))
  }

  /** `finalize` from the k-th recorded header on: in order, the anchor of each header goes
      immediately before it; a header that is not a top-level block is a ValueError. */
  function FinalizeFrom(content: seq<Node>, sections: Dict<nat, string>, k: nat, base: nat): (r: Result<seq<Node>>)
    requires k <= |sections|
    ensures r.Success? ==> |r.value| == |content| + |sections| - k
    ensures r.Failure? ==> r.error == ValueError
    decreases |sections| - k
  {
    if k == |sections| then Success(content)
    else
      match IndexOf(content, sections[k].0)
      case None => Failure(ValueError)
      case Some(i) => FinalizeFrom(InsertAt(content, i, Anchor(sections, base, k)), sections, k + 1, base)
  }

  /** `finalize`: the anchors take the fresh identities `base`, `base + 1`, ... */
  function Finalize(content: seq<Node>, sections: Dict<nat, string>, base: nat): Result<seq<Node>> {
    FinalizeFrom(content, sections, 0, base)
  }

  /** The whole conversion of a document given as its top-level blocks. Generated nodes take
      identities above every identity in the document. */
  function Convert(doc: seq<Node>): Result<seq<Node>> {
    Finished(RunPasses(Actions, doc, Prepare(doc, MaxId(WalkSeq(doc)) + 1)))
  }

  /** `finalize` applied to the outcome of the passes, whose failure it passes on. */
  function Finished(s: Result<Spliced>): Result<seq<Node>> {
    var sp :- s;
    Finalize(sp.nodes, sp.ctx.sections, sp.ctx.nextId)
  }

  // ---------------------------------------------------------------- properties of the passes

  /** An action that keeps every node leaves the whole tree, and the side tables, as they were. */
  lemma {:induction false} FigureNodeIdentity(n: Node, sib: Siblings, ctx: Ctx)
    ensures PassNode(FigurePass, n, sib, ctx) == Success(Walked(n, [n], ctx))
    decreases n
  {
    if IsContainer(n) {
      FigureSeqIdentity(n.content, None, ctx);
      assert WithKids(n, n.content) == n;
    }
  }

  lemma {:induction false} FigureSeqIdentity(cs: seq<Node>, prev: Option<Node>, ctx: Ctx)
    ensures PassSeq(FigurePass, cs, prev, ctx) == Success(Spliced(cs, ctx))
    decreases cs
  {
    if |cs| > 0 {
      var sib := Siblings(prev, if |cs| > 1 then Some(cs[1]) else None, if |cs| > 2 then Some(cs[2]) else None);
      FigureNodeIdentity(cs[0], sib, ctx);
      FigureSeqIdentity(cs[1..], Some(cs[0]), ctx);
      assert [cs[0]] + cs[1..] == cs;
    }
  }

  /** The exceptions a pass can raise: the Link and Figure actions never fail; the Math action
      fails on display math, and the Basic action when a header's next sibling has no children. */
  function PassErrors(p: Pass): (r: set<Error>)
    ensures r <= {AttributeError}
    ensures p == MathPass || p == BasicPass ==> r == {AttributeError}
  {
    if p == BasicPass || p == MathPass then {AttributeError} else {}
  }

  lemma ApplyErrors(p: Pass, elem: Node, sib: Siblings, ctx: Ctx)
    ensures Apply(p, elem, sib, ctx).Failure? ==> Apply(p, elem, sib, ctx).error in PassErrors(p)
  {
  }

  lemma {:induction false} NodeErrors(p: Pass, n: Node, sib: Siblings, ctx: Ctx)
    ensures PassNode(p, n, sib, ctx).Failure? ==> PassNode(p, n, sib, ctx).error in PassErrors(p)
    decreases n
  {
    if IsContainer(n) {
      SeqErrors(p, n.content, None, ctx);
      var inner := PassSeq(p, n.content, None, ctx);
      if inner.Success? {
        ApplyErrors(p, WithKids(n, inner.value.nodes), sib, inner.value.ctx);
      }
    } else {
      ApplyErrors(p, n, sib, ctx);
    }
  }

  lemma {:induction false} SeqErrors(p: Pass, cs: seq<Node>, prev: Option<Node>, ctx: Ctx)
    ensures PassSeq(p, cs, prev, ctx).Failure? ==> PassSeq(p, cs, prev, ctx).error in PassErrors(p)
    decreases cs
  {
    if |cs| > 0 {
      var sib := Siblings(prev, if |cs| > 1 then Some(cs[1]) else None, if |cs| > 2 then Some(cs[2]) else None);
      NodeErrors(p, cs[0], sib, ctx);
      var w := PassNode(p, cs[0], sib, ctx);
      if w.Success? {
        SeqErrors(p, cs[1..], Some(w.value.self), w.value.ctx);
      }
    }
  }

  lemma {:induction false} RunErrors(ps: seq<Pass>, doc: seq<Node>, ctx: Ctx)
    ensures RunPasses(ps, doc, ctx).Failure? ==> RunPasses(ps, doc, ctx).error == AttributeError
    decreases |ps|
  {
    if |ps| > 0 {
      SeqErrors(ps[0], doc, None, ctx);
      var s := PassSeq(ps[0], doc, None, ctx);
      if s.Success? {
        RunErrors(ps[1..], s.value.nodes, s.value.ctx);
      }
    }
  }

  /** A conversion fails only with the AttributeError of the Math or Basic pass or with
      `finalize`'s ValueError for a header that is not a top-level block. */
  lemma ConvertErrors(doc: seq<Node>)
    ensures Convert(doc).Failure? ==> Convert(doc).error in {AttributeError, ValueError}
  {
    RunErrors(Actions, doc, Prepare(doc, MaxId(WalkSeq(doc)) + 1));
  }

  /** Some node of the walk is display math. */
  predicate HasDisplayMath(w: seq<Node>) {
    exists i :: 0 <= i < |w| && IsDisplayMath(w[i])
  }

  /** The Math pass over a node fails exactly when the node's subtree holds display math: the
      walk reaches every node of the subtree before the node itself, and only display math makes
      the action raise. */
  lemma {:induction false} MathNodeFailure(n: Node, sib: Siblings, ctx: Ctx)
    ensures PassNode(MathPass, n, sib, ctx).Failure? <==> HasDisplayMath(Walk(n))
    ensures PassNode(MathPass, n, sib, ctx).Failure? ==> PassNode(MathPass, n, sib, ctx).error == AttributeError
    decreases n
  {
    if IsContainer(n) {
      MathPassFailure(n.content, None, ctx);
      var inner := PassSeq(MathPass, n.content, None, ctx);
      assert Walk(n) == WalkSeq(n.content) + [n];
      HasDisplayMathAppend(WalkSeq(n.content), [n]);
      assert !HasDisplayMath([n]) by { assert [n][0] == n; }
      if inner.Success? {
        assert !IsDisplayMath(WithKids(n, inner.value.nodes));
      }
    } else {
      assert Walk(n) == [n];
    }
  }

  lemma HasDisplayMathAppend(a: seq<Node>, b: seq<Node>)
    ensures HasDisplayMath(a + b) <==> HasDisplayMath(a) || HasDisplayMath(b)
  {
    if HasDisplayMath(a + b) {
      var i :| 0 <= i < |a + b| && IsDisplayMath((a + b)[i]);
      if i < |a| {
        assert a[i] == (a + b)[i];
      } else {
        assert b[i - |a|] == (a + b)[i];
      }
    }
    if HasDisplayMath(a) {
      var i :| 0 <= i < |a| && IsDisplayMath(a[i]);
      assert (a + b)[i] == a[i];
    }
    if HasDisplayMath(b) {
      var i :| 0 <= i < |b| && IsDisplayMath(b[i]);
      assert (a + b)[|a| + i] == b[i];
    }
  }

  /** The Math pass over a child list fails exactly when some walked node is display math, and
      then with AttributeError. */
  lemma {:induction false} MathPassFailure(cs: seq<Node>, prev: Option<Node>, ctx: Ctx)
    ensures PassSeq(MathPass, cs, prev, ctx).Failure? <==> HasDisplayMath(WalkSeq(cs))
    ensures PassSeq(MathPass, cs, prev, ctx).Failure? ==> PassSeq(MathPass, cs, prev, ctx).error == AttributeError
    decreases cs
  {
    if |cs| > 0 {
      var sib := Siblings(prev, if |cs| > 1 then Some(cs[1]) else None, if |cs| > 2 then Some(cs[2]) else None);
      MathNodeFailure(cs[0], sib, ctx);
      HasDisplayMathAppend(Walk(cs[0]), WalkSeq(cs[1..]));
      var w := PassNode(MathPass, cs[0], sib, ctx);
      if w.Success? {
        MathPassFailure(cs[1..], Some(w.value.self), w.value.ctx);
      }
    }
  }

  /** The Math pass runs first, so a document holding display math anywhere fails to convert,
      with AttributeError. */
  lemma DisplayMathFailsConversion(doc: seq<Node>)
    ensures HasDisplayMath(WalkSeq(doc)) ==> Convert(doc) == Failure(AttributeError)
  {
    var ctx := Prepare(doc, MaxId(WalkSeq(doc)) + 1);
    MathPassFailure(doc, None, ctx);
    assert Actions[0] == MathPass;
  }

  // ---------------------------------------------------------------- properties of finalize

  /** Recorded identities that are not anchor identities. */
  predicate OldKeys(sections: Dict<nat, string>, base: nat) {
    forall t :: 0 <= t < |sections| ==> sections[t].0 < base
  }

  lemma FinalizeStep(content: seq<Node>, sections: Dict<nat, string>, k: nat, base: nat)
    requires k < |sections| && FinalizeFrom(content, sections, k, base).Success?
    ensures IndexOf(content, sections[k].0).Some?
    ensures var p := IndexOf(content, sections[k].0).value;
            FinalizeFrom(content, sections, k, base)
              == FinalizeFrom(InsertAt(content, p, Anchor(sections, base, k)), sections, k + 1, base)
  {
  }

  lemma InsertIds(content: seq<Node>, i: nat, a: Node)
    requires i <= |content|
    ensures IdsOf(InsertAt(content, i, a)) == IdsOf(content) + {a.id}
  {
    var c := InsertAt(content, i, a);
    forall x | x in IdsOf(content) ensures x in IdsOf(c) {
      var t :| 0 <= t < |content| && content[t].id == x;
      if t < i { assert c[t] == content[t]; } else { assert c[t + 1] == content[t]; }
    }
    forall x | x in IdsOf(c) ensures x in IdsOf(content) + {a.id} {
      var t :| 0 <= t < |c| && c[t].id == x;
      if t < i { assert c[t] == content[t]; } else if t > i { assert c[t] == content[t - 1]; }
    }
  }

  /** `finalize` fails exactly when some recorded header is not a top-level block. */
  lemma {:induction false} FinalizeFailure(content: seq<Node>, sections: Dict<nat, string>, k: nat, base: nat)
    requires k <= |sections| && OldKeys(sections, base)
    ensures FinalizeFrom(content, sections, k, base).Failure? <==>
              exists j :: k <= j < |sections| && sections[j].0 !in IdsOf(content)
    decreases |sections| - k
  {
    if k < |sections| {
      var h := sections[k].0;
      match IndexOf(content, h)
      case None =>
        assert h !in IdsOf(content);
      case Some(i) =>
        var c := InsertAt(content, i, Anchor(sections, base, k));
        InsertIds(content, i, Anchor(sections, base, k));
        FinalizeFailure(c, sections, k + 1, base);
        MissingShift(content, c, sections, k, base);
    }
  }

  /** Adding an anchor identity does not change which recorded headers are missing, and the
      k-th one is present. */
  lemma MissingShift(content: seq<Node>, c: seq<Node>, sections: Dict<nat, string>, k: nat, base: nat)
    requires k < |sections| && OldKeys(sections, base) && IndexOf(content, sections[k].0).Some?
    requires IdsOf(c) == IdsOf(content) + {base + k}
    ensures (exists j :: k <= j < |sections| && sections[j].0 !in IdsOf(content))
            <==> (exists j :: k + 1 <= j < |sections| && sections[j].0 !in IdsOf(c))
  {
    var i := IndexOf(content, sections[k].0).value;
    assert content[i].id in IdsOf(content);
  }

  /** The blocks of `ns` whose identity is below `bound`: the document without the anchors. */
  function Unanchored(ns: seq<Node>, bound: nat): seq<Node> {
    if |ns| == 0 then []
    else (if ns[0].id < bound then [ns[0]] else []) + Unanchored(ns[1..], bound)
  }

  lemma {:induction false} UnanchoredAppend(a: seq<Node>, b: seq<Node>, bound: nat)
    ensures Unanchored(a + b, bound) == Unanchored(a, bound) + Unanchored(b, bound)
    decreases |a|
  {
    if |a| > 0 {
      AppendTail(a, b);
      UnanchoredAppend(a[1..], b, bound);
      UnanchoredCons(a + b, bound);
      UnanchoredCons(a, bound);
    } else {
      assert a + b == b;
    }
  }

  lemma UnanchoredCons(a: seq<Node>, bound: nat)
    requires |a| > 0
    ensures Unanchored(a, bound) == (if a[0].id < bound then [a[0]] else []) + Unanchored(a[1..], bound)
  {
  }

  lemma AppendTail(a: seq<Node>, b: seq<Node>)
    requires |a| > 0
    ensures (a + b)[0] == a[0] && (a + b)[1..] == a[1..] + b
  {
  }

  lemma UnanchoredInsert(content: seq<Node>, i: nat, a: Node, bound: nat)
    requires i <= |content| && a.id >= bound
    ensures Unanchored(InsertAt(content, i, a), bound) == Unanchored(content, bound)
  {
    assert InsertAt(content, i, a) == content[..i] + ([a] + content[i..]);
    UnanchoredAppend(content[..i], [a] + content[i..], bound);
    UnanchoredAppend([a], content[i..], bound);
    UnanchoredAppend(content[..i], content[i..], bound);
    assert content[..i] + content[i..] == content;
  }

  lemma {:induction false} FinalizeRestoresFrom(content: seq<Node>, sections: Dict<nat, string>, k: nat, base: nat)
    requires k <= |sections| && FinalizeFrom(content, sections, k, base).Success?
    ensures Unanchored(FinalizeFrom(content, sections, k, base).value, base) == Unanchored(content, base)
    decreases |sections| - k
  {
    if k < |sections| {
      FinalizeStep(content, sections, k, base);
      var i := IndexOf(content, sections[k].0).value;
      UnanchoredInsert(content, i, Anchor(sections, base, k), base);
      FinalizeRestoresFrom(InsertAt(content, i, Anchor(sections, base, k)), sections, k + 1, base);
    }
  }

  lemma {:induction false} UnanchoredAll(ns: seq<Node>, bound: nat)
    requires forall i :: 0 <= i < |ns| ==> ns[i].id < bound
    ensures Unanchored(ns, bound) == ns
    decreases |ns|
  {
    if |ns| > 0 {
      UnanchoredAll(ns[1..], bound);
    }
  }

  /** Taking the anchors out of the finalized document gives the document back. */
  lemma FinalizeRestores(content: seq<Node>, sections: Dict<nat, string>, base: nat)
    requires forall i :: 0 <= i < |content| ==> content[i].id < base
    requires Finalize(content, sections, base).Success?
    ensures Unanchored(Finalize(content, sections, base).value, base) == content
  {
    FinalizeRestoresFrom(content, sections, 0, base);
    UnanchoredAll(content, base);
  }

  /** The blocks `ns[i]` and `ns[i + 1]` stand next to each other in `r`, at `q` and `q + 1`. */
  predicate PairAt(r: seq<Node>, q: nat, ns: seq<Node>, i: nat) {
    i + 1 < |ns| && q + 1 < |r| && r[q] == ns[i] && r[q + 1] == ns[i + 1]
  }

  /** The anchor of the j-th recorded header stands at `q`, right before that header. */
  predicate AnchoredAt(r: seq<Node>, q: nat, sections: Dict<nat, string>, base: nat, j: nat) {
    j < |sections| && q + 1 < |r| && r[q] == Anchor(sections, base, j) && r[q + 1].id == sections[j].0
  }

  /** Later insertions never separate two adjacent blocks unless one goes right before the
      second of them. */
  lemma {:induction false} FinalizeKeepsPair(content: seq<Node>, sections: Dict<nat, string>, k: nat, base: nat, i: nat)
    requires k <= |sections| && i + 1 < |content|
    requires forall j :: k <= j < |sections| ==> sections[j].0 != content[i + 1].id
    requires FinalizeFrom(content, sections, k, base).Success?
    ensures exists q: nat :: PairAt(FinalizeFrom(content, sections, k, base).value, q, content, i)
    decreases |sections| - k
  {
    var r := FinalizeFrom(content, sections, k, base).value;
    if k == |sections| {
      assert PairAt(r, i, content, i);
    } else {
      FinalizeStep(content, sections, k, base);
      var p := IndexOf(content, sections[k].0).value;
      var c := InsertAt(content, p, Anchor(sections, base, k));
      var i' := if p <= i then i + 1 else i;
      InsertKeepsPair(content, p, Anchor(sections, base, k), i);
      FinalizeKeepsPair(c, sections, k + 1, base, i');
      var q: nat :| PairAt(r, q, c, i');
      assert PairAt(r, q, content, i);
    }
  }

  /** An insertion anywhere but between them keeps two adjacent blocks adjacent. */
  lemma InsertKeepsPair(content: seq<Node>, p: nat, x: Node, i: nat)
    requires p <= |content| && i + 1 < |content| && p != i + 1
    ensures var i' := if p <= i then i + 1 else i;
            PairAt(InsertAt(content, p, x), i', content, i)
  {
  }

  /** The j-th recorded header sits right after its anchor once the k-th has been placed. */
  lemma FinalizePlaces(content: seq<Node>, sections: Dict<nat, string>, k: nat, base: nat)
    requires DistinctKeys(sections) && k < |sections|
    requires FinalizeFrom(content, sections, k, base).Success?
    ensures exists q: nat :: AnchoredAt(FinalizeFrom(content, sections, k, base).value, q, sections, base, k)
  {
    FinalizeStep(content, sections, k, base);
    var p := IndexOf(content, sections[k].0).value;
    var c := InsertAt(content, p, Anchor(sections, base, k));
    assert c[p + 1].id == sections[k].0;
    FinalizeKeepsPair(c, sections, k + 1, base, p);
    var r := FinalizeFrom(c, sections, k + 1, base).value;
    var q: nat :| PairAt(r, q, c, p);
    assert AnchoredAt(r, q, sections, base, k);
  }

  /** Every recorded header ends up immediately after its own anchor, which carries the
      stripped label and the j-th fresh identity. */
  lemma {:induction false} FinalizeAnchors(content: seq<Node>, sections: Dict<nat, string>, k: nat, base: nat, j: nat)
    requires DistinctKeys(sections) && k <= j < |sections|
    requires FinalizeFrom(content, sections, k, base).Success?
    ensures exists q: nat :: AnchoredAt(FinalizeFrom(content, sections, k, base).value, q, sections, base, j)
    decreases |sections| - k
  {
    if j == k {
      FinalizePlaces(content, sections, k, base);
    } else {
      FinalizeStep(content, sections, k, base);
      var p := IndexOf(content, sections[k].0).value;
      var c := InsertAt(content, p, Anchor(sections, base, k));
      FinalizeAnchors(c, sections, k + 1, base, j);
      var q: nat :| AnchoredAt(FinalizeFrom(c, sections, k + 1, base).value, q, sections, base, j);
      assert AnchoredAt(FinalizeFrom(content, sections, k, base).value, q, sections, base, j);
    }
  }

  /** The anchor of every recorded header stands right before it in the finalized document. */
  lemma EveryHeaderAnchored(content: seq<Node>, sections: Dict<nat, string>, base: nat, j: nat)
    requires DistinctKeys(sections) && j < |sections| && Finalize(content, sections, base).Success?
    ensures exists q: nat :: q + 1 < |Finalize(content, sections, base).value|
              && Finalize(content, sections, base).value[q] == RawBlock(base + j, "(" + Strip(sections[j].1) + ")=")
              && Finalize(content, sections, base).value[q + 1].id == sections[j].0
  {
    FinalizeAnchors(content, sections, 0, base, j);
  }
}

=== FILE: text.dfy ===
/** String helpers standing in for the Python `str` methods latex_to_myst uses.
    Characters are Unicode scalar values; case mapping is ASCII only. */
module Text {
  import opened Wrappers

  /** The characters Python's argument-less `str.strip()` removes: those `str.isspace()` holds
      for, namely the ASCII separators and controls 9-13 and 28-31, NEL, the no-break space and
      the other Unicode space separators, and the line and paragraph separators. */
  const Whitespace: set<char> :=
    {'\t', '\n', '\U{0B}', '\U{0C}', '\r', '\U{1C}', '\U{1D}', '\U{1E}', '\U{1F}', ' ',
     '\U{85}', '\U{A0}', '\U{1680}', '\U{2000}', '\U{2001}', '\U{2002}', '\U{2003}', '\U{2004}',
     '\U{2005}', '\U{2006}', '\U{2007}', '\U{2008}', '\U{2009}', '\U{200A}', '\U{2028}',
     '\U{2029}', '\U{202F}', '\U{205F}', '\U{3000}'}

  predicate StartsWith(s: string, prefix: string) {
    |prefix| <= |s| && s[..|prefix|] == prefix
  }

  predicate EndsWith(s: string, suffix: string) {
    |suffix| <= |s| && s[|s| - |suffix|..] == suffix
  }

  /** True iff `sub` occurs in `s` starting at position `i`. */
  predicate OccursAt(s: string, sub: string, i: nat) {
    i + |sub| <= |s| && s[i..i + |sub|] == sub
  }

  predicate Contains(s: string, sub: string) {
    exists i :: 0 <= i <= |s| && OccursAt(s, sub, i)
  }

  /** `s.lstrip(cs)` */
  function LStrip(s: string, cs: set<char>): (r: string)
    ensures |r| <= |s|
  {
    if |s| > 0 && s[0] in cs then LStrip(s[1..], cs) else s
  }

  /** `s.rstrip(cs)` */
  function RStrip(s: string, cs: set<char>): (r: string)
    ensures |r| <= |s|
  {
    if |s| > 0 && s[|s| - 1] in cs then RStrip(s[..|s| - 1], cs) else s
  }

  /** `lstrip` drops exactly the leading run of characters from `cs`. */
  lemma LStripSpec(s: string, cs: set<char>)
    ensures LStrip(s, cs) == s[|s| - |LStrip(s, cs)|..]
    ensures forall i :: 0 <= i < |s| - |LStrip(s, cs)| ==> s[i] in cs
    ensures |LStrip(s, cs)| > 0 ==> LStrip(s, cs)[0] !in cs
  {
    if |s| > 0 && s[0] in cs {
      LStripSpec(s[1..], cs);
    }
  }

  /** `rstrip` drops exactly the trailing run of characters from `cs`. */
  lemma RStripSpec(s: string, cs: set<char>)
    ensures RStrip(s, cs) == s[..|RStrip(s, cs)|]
    ensures forall i :: |RStrip(s, cs)| <= i < |s| ==> s[i] in cs
    ensures |RStrip(s, cs)| > 0 ==> RStrip(s, cs)[|RStrip(s, cs)| - 1] !in cs
  {
    if |s| > 0 && s[|s| - 1] in cs {
      RStripSpec(s[..|s| - 1], cs);
    }
  }

  /** `s.strip(cs)` */
  function StripChars(s: string, cs: set<char>): string {
    RStrip(LStrip(s, cs), cs)
  }

  /** `s.strip()` */
  function Strip(s: string): string {
    StripChars(s, Whitespace)
  }

  function LowerChar(c: char): char {
    if 'A' <= c <= 'Z' then (c as int - 'A' as int + 'a' as int) as char else c
  }

  function UpperChar(c: char): char {
    if 'a' <= c <= 'z' then (c as int - 'a' as int + 'A' as int) as char else c
  }

  /** `s.lower()` */
  function Lower(s: string): (r: string)
    ensures |r| == |s|
    ensures forall i :: 0 <= i < |s| ==> r[i] == LowerChar(s[i])
  {
    if |s| == 0 then "" else [LowerChar(s[0])] + Lower(s[1..])
  }

  /** `s.capitalize()`: first character upper case, the rest lower case. */
  function Capitalize(s: string): (r: string)
    ensures |r| == |s|
  {
    if |s| == 0 then "" else [UpperChar(s[0])] + Lower(s[1..])
  }

  /** `sep.join(parts)` */
  function Join(sep: string, parts: seq<string>): string {
    if |parts| == 0 then ""
    else if |parts| == 1 then parts[0]
    else parts[0] + sep + Join(sep, parts[1..])
  }

  /** `s.split(sep)` for a one-character separator: the pieces between separators, empty ones kept. */
  function Split(s: string, sep: char): (r: seq<string>)
    ensures |r| >= 1
    ensures forall i :: 0 <= i < |r| ==> sep !in r[i]
  {
    if sep !in s then [s]
    else
      var i := FirstIndex(s, sep);
      [s[..i]] + Split(s[i + 1..], sep)
  }

  function FirstIndex(s: string, c: char): (i: nat)
    requires c in s
    ensures i < |s| && s[i] == c && c !in s[..i]
  {
    if s[0] == c then 0 else 1 + FirstIndex(s[1..], c)
  }

  /** Joining the pieces of a split with the separator gives the string back. */
  lemma {:induction false} JoinSplit(s: string, sep: char)
    ensures Join([sep], Split(s, sep)) == s
    decreases |s|
  {
    if sep in s {
      var i := FirstIndex(s, sep);
      var rest := s[i + 1..];
      JoinSplit(rest, sep);
      assert Split(s, sep) == [s[..i]] + Split(rest, sep);
      assert s == s[..i] + [sep] + rest;
    }
  }

  /** Every character of `s` that is not `c`, in order: `"".join(s.split(c))`. */
  function RemoveChar(s: string, c: char): (r: string)
    ensures c !in r
    ensures |r| <= |s|
    ensures c !in s ==> r == s
  {
    if |s| == 0 then "" else (if s[0] == c then "" else [s[0]]) + RemoveChar(s[1..], c)
  }

  lemma {:induction false} RemoveCharAppend(a: string, b: string, c: char)
    ensures RemoveChar(a + b, c) == RemoveChar(a, c) + RemoveChar(b, c)
    decreases |a|
  {
    if |a| > 0 {
      assert (a + b)[0] == a[0];
      assert (a + b)[1..] == a[1..] + b;
      RemoveCharAppend(a[1..], b, c);
    } else {
      assert a + b == b;
    }
  }

  lemma RemoveCharAt(s: string, i: nat, c: char)
    requires i < |s| && s[i] == c && c !in s[..i]
    ensures RemoveChar(s, c) == s[..i] + RemoveChar(s[i + 1..], c)
  {
    var head, rest := s[..i], s[i + 1..];
    var t := [c] + rest;
    assert s == head + t;
    assert RemoveChar(t, c) == RemoveChar(rest, c) by {
      assert t[0] == c && t[1..] == rest;
    }
    assert RemoveChar(head, c) == head;
    RemoveCharAppend(head, t, c);
  }

  /** Joining the pieces of a split with nothing in between drops every separator. */
  lemma {:induction false} JoinSplitRemoves(s: string, c: char)
    ensures Join("", Split(s, c)) == RemoveChar(s, c)
    decreases |s|
  {
    if c in s {
      var i := FirstIndex(s, c);
      var head, rest := s[..i], s[i + 1..];
      var parts := Split(rest, c);
      assert Split(s, c) == [head] + parts;
      assert Join("", [head] + parts) == head + Join("", parts) by {
        assert ([head] + parts)[1..] == parts;
      }
      JoinSplitRemoves(rest, c);
      RemoveCharAt(s, i, c);
    }
  }

  /** `s.replace(pat, repl)`: leftmost, non-overlapping occurrences replaced. */
  function ReplaceAll(s: string, pat: string, repl: string): string
    requires |pat| > 0
    decreases |s|
  {
    if |s| < |pat| then s
    else if s[..|pat|] == pat then repl + ReplaceAll(s[|pat|..], pat, repl)
    else [s[0]] + ReplaceAll(s[1..], pat, repl)
  }

  /** Without an occurrence, `replace` changes nothing. */
  lemma {:induction false} ReplaceAllNoMatch(s: string, pat: string, repl: string)
    requires |pat| > 0
    requires forall q :: 0 <= q <= |s| ==> !OccursAt(s, pat, q)
    ensures ReplaceAll(s, pat, repl) == s
    decreases |s|
  {
    if |s| >= |pat| {
      assert !OccursAt(s, pat, 0);
      forall q | 0 <= q <= |s[1..]| ensures !OccursAt(s[1..], pat, q) {
        ShiftOccurs(s, pat, q);
      }
      ReplaceAllNoMatch(s[1..], pat, repl);
    }
  }

  /** A `replace` pass copies everything before the first occurrence verbatim. */
  lemma ReplaceAllFirst(s: string, pat: string, repl: string, i: nat)
    requires |pat| > 0 && OccursAt(s, pat, i)
    requires forall q :: 0 <= q < i ==> !OccursAt(s, pat, q)
    ensures ReplaceAll(s, pat, repl) == s[..i] + repl + ReplaceAll(s[i + |pat|..], pat, repl)
  {
    ReplaceAllCopies(s, pat, repl, i);
    ReplaceAllAt(s[i..], pat, repl);
    DropDrop(s, i, |pat|);
  }

  /** An occurrence at the start is replaced. */
  lemma ReplaceAllAt(s: string, pat: string, repl: string)
    requires |pat| > 0 && OccursAt(s, pat, 0)
    ensures ReplaceAll(s, pat, repl) == repl + ReplaceAll(s[|pat|..], pat, repl)
  {
  }

  lemma DropDrop(s: string, i: nat, n: nat)
    requires i + n <= |s|
    ensures s[i..][n..] == s[i + n..]
  {
  }

  /** Positions before the first occurrence are copied one by one. */
  lemma {:induction false} ReplaceAllCopies(s: string, pat: string, repl: string, i: nat)
    requires |pat| > 0 && i <= |s|
    requires forall q :: 0 <= q < i ==> !OccursAt(s, pat, q)
    ensures ReplaceAll(s, pat, repl) == s[..i] + ReplaceAll(s[i..], pat, repl)
    decreases i
  {
    if i > 0 {
      var s1 := s[1..];
      if |s| >= |pat| {
        assert !OccursAt(s, pat, 0);
      }
      assert ReplaceAll(s, pat, repl) == [s[0]] + ReplaceAll(s1, pat, repl);
      forall q | 0 <= q < i - 1 ensures !OccursAt(s1, pat, q) {
        ShiftOccurs(s, pat, q);
      }
      ReplaceAllCopies(s1, pat, repl, i - 1);
      assert s1[i - 1..] == s[i..];
      assert s[..i] == [s[0]] + s1[..i - 1];
    }
  }

  lemma ReplaceAllSkip(s: string, pat: string, repl: string)
    requires |pat| > 0 && |s| >= |pat| && !OccursAt(s, pat, 0)
    ensures ReplaceAll(s, pat, repl) == [s[0]] + ReplaceAll(s[1..], pat, repl)
  {
  }

  lemma ShiftFirst(s: string, pat: string, i: nat)
    requires i > 0 && OccursAt(s, pat, i)
    requires forall q :: 0 <= q < i ==> !OccursAt(s, pat, q)
    ensures |s| >= |pat| && !OccursAt(s, pat, 0)
    ensures OccursAt(s[1..], pat, i - 1)
    ensures forall q :: 0 <= q < i - 1 ==> !OccursAt(s[1..], pat, q)
  {
    ShiftOccurs(s, pat, i - 1);
    forall q | 0 <= q < i - 1 ensures !OccursAt(s[1..], pat, q) {
      ShiftOccurs(s, pat, q);
    }
  }

  lemma TailSlices(s: string, i: nat, n: nat)
    requires 0 < i && i + n <= |s|
    ensures s[1..][i - 1 + n..] == s[i + n..]
    ensures s[..i] == [s[0]] + s[1..][..i - 1]
  {
  }

  lemma ShiftOccurs(s: string, pat: string, q: nat)
    requires |s| > 0
    ensures OccursAt(s[1..], pat, q) <==> OccursAt(s, pat, q + 1)
  {
    if q + 1 + |pat| <= |s| {
      assert s[1..][q..q + |pat|] == s[q + 1..q + 1 + |pat|];
    }
  }

  /** `s.find(sub, i)`, as an option: the first occurrence at or after `i`. */
  function FindFrom(s: string, sub: string, i: nat): (r: Option<nat>)
    ensures r.Some? ==> i <= r.value <= |s| && OccursAt(s, sub, r.value)
    ensures r.Some? ==> forall q :: i <= q < r.value ==> !OccursAt(s, sub, q)
    ensures r.None? ==> forall q :: i <= q <= |s| ==> !OccursAt(s, sub, q)
    decreases |s| + 1 - i
  {
    if i > |s| then None
    else if OccursAt(s, sub, i) then Some(i)
    else FindFrom(s, sub, i + 1)
  }

  /** The first position at or after `j` holding `c`. */
  function FindChar(s: string, c: char, j: nat): (r: Option<nat>)
    ensures r.Some? ==> j <= r.value < |s| && s[r.value] == c
    ensures r.Some? ==> forall t :: j <= t < r.value ==> s[t] != c
    ensures r.None? ==> forall t :: j <= t < |s| ==> s[t] != c
    decreases |s| - j
  {
    if j >= |s| then None
    else if s[j] == c then Some(j)
    else FindChar(s, c, j + 1)
  }

  /** `c * n` */
  function Repeat(c: char, n: nat): (r: string)
    ensures |r| == n
    ensures forall i :: 0 <= i < n ==> r[i] == c
  {
    if n == 0 then "" else [c] + Repeat(c, n - 1)
  }

  function DigitChar(d: nat): char
    requires d < 10
  {
    "0123456789"[d]
  }

  /** `str(n)` for a natural number. */
  function NatToString(n: nat): (r: string)
    ensures |r| >= 1
    ensures forall i :: 0 <= i < |r| ==> '0' <= r[i] <= '9'
    decreases n
  {
    if n < 10 then [DigitChar(n)] else NatToString(n / 10) + [DigitChar(n % 10)]
  }

  /** Different numbers have different numerals. */
  lemma {:induction false} NatToStringInjective(a: nat, b: nat)
    ensures NatToString(a) == NatToString(b) ==> a == b
    decreases a
  {
    if a >= 10 && b >= 10 {
      var x, y := NatToString(a), NatToString(b);
      if x == y {
        assert x[..|x| - 1] == NatToString(a / 10);
        assert y[..|y| - 1] == NatToString(b / 10);
        NatToStringInjective(a / 10, b / 10);
        assert DigitChar(a % 10) == DigitChar(b % 10);
      }
    }
  }

  function Pow10(k: nat): (r: nat)
    ensures r >= 1
  {
    if k == 0 then 1 else 10 * Pow10(k - 1)
  }

  /** A number written with at most `k` digits is below 10^k. */
  lemma {:induction false} ShortNumeralIsSmall(n: nat, k: nat)
    requires |NatToString(n)| <= k
    ensures n < Pow10(k)
    decreases n
  {
    if n >= 10 {
      ShortNumeralIsSmall(n / 10, k - 1);
    }
  }
}

=== FILE: tree.dfy ===
/** The document tree the filter rewrites, its post-order walk and the side tables
    (`element_levels`, `element_labels`, `section_labels_to_insert`, `substitutions`)
    threaded through every pass as one explicit context value. */
module Tree {
  import opened Wrappers
  import opened Text

  /** An ordered dictionary, as Python's `dict` keeps insertion order. */
  type Dict<K, V> = seq<(K, V)>

  /** Identifier, classes and ordered key/value attributes of an element. */
  datatype Attr = Attr(identifier: string, classes: seq<string>, attributes: Dict<string, string>)

  const NoAttr := Attr("", [], [])

  /** The closed set of node kinds the engine sees. `id` stands for Python object identity.
      A Table keeps all its children in `content`; its first child stands for the one
      Element-valued slot (the table head) that the level calculation inspects. */
  datatype Node =
    | Str(id: nat, text: string)
    | Space(id: nat)
    | SoftBreak(id: nat)
    | LineBreak(id: nat)
    | Emph(id: nat, content: seq<Node>)
    | Span(id: nat, attr: Attr, content: seq<Node>)
    | Link(id: nat, attr: Attr, url: string, content: seq<Node>)
    | Image(id: nat, attr: Attr, url: string, content: seq<Node>)
    | Math(id: nat, display: bool, text: string, mathId: string)
    | Para(id: nat, content: seq<Node>)
    | Div(id: nat, attr: Attr, content: seq<Node>)
    | Header(id: nat, depth: nat, attr: Attr, content: seq<Node>)
    | Table(id: nat, attr: Attr, content: seq<Node>)
    | TableRow(id: nat, content: seq<Node>)
    | TableCell(id: nat, content: seq<Node>)
    | CodeBlock(id: nat, attr: Attr, text: string)
    | RawBlock(id: nat, text: string)
    | RawInline(id: nat, text: string)

  /** The neighbours an action can see: the previous sibling (children already rewritten),
      the next sibling and the one after it (not yet visited). */
  datatype Siblings = Siblings(prev: Option<Node>, next: Option<Node>, next2: Option<Node>)

  const NoSiblings := Siblings(None, None, None)

  /** What a filter action returns for the node it is given: `None` (keep the node as the walk
      left it) or a list of nodes to splice in its place (empty: delete it). */
  datatype Outcome = Keep | Replace(nodes: seq<Node>)

  /** An action's outcome together with the side tables after it. */
  datatype Step = Step(outcome: Outcome, ctx: Ctx)

  /** The side tables of one conversion. `levels` and `sections` are keyed by node identity;
      `nextId` is the first identity not yet used by any node. */
  datatype Ctx = Ctx(
    levels: map<nat, nat>,
    labels: map<string, Node>,
    sections: Dict<nat, string>,
    substitutions: Dict<string, Node>,
    nextId: nat)

  // ---------------------------------------------------------------- node accessors

  predicate IsContainer(n: Node) {
    n.Emph? || n.Span? || n.Link? || n.Image? || n.Para? || n.Div? || n.Header?
    || n.Table? || n.TableRow? || n.TableCell?
  }

  /** Kinds that carry an identifier/classes/attributes triple. */
  predicate HasAttr(n: Node) {
    n.Span? || n.Link? || n.Image? || n.Div? || n.Header? || n.Table? || n.CodeBlock?
  }

  /** Kinds with a `text` attribute. */
  predicate HasText(n: Node) {
    n.Str? || n.Math? || n.CodeBlock? || n.RawBlock? || n.RawInline?
  }

  /** Subclasses of panflute's `Inline`. */
  predicate IsInline(n: Node) {
    n.Str? || n.Space? || n.SoftBreak? || n.LineBreak? || n.Emph? || n.Span? || n.Link?
    || n.Image? || n.Math? || n.RawInline?
  }

  predicate IsDisplayMath(n: Node) {
    n.Math? && n.display
  }

  function Kids(n: Node): seq<Node> {
    if IsContainer(n) then n.content else []
  }

  function Ident(n: Node): string {
    if HasAttr(n) then n.attr.identifier else if n.Math? then n.mathId else ""
  }

  function Classes(n: Node): seq<string> {
    if HasAttr(n) then n.attr.classes else []
  }

  function Attributes(n: Node): Dict<string, string> {
    if HasAttr(n) then n.attr.attributes else []
  }

  function SetIdent(n: Node, s: string): (r: Node)
    requires HasAttr(n) || n.Math?
    ensures Ident(r) == s && r.id == n.id && Kids(r) == Kids(n)
  {
    if n.Math? then n.(mathId := s) else n.(attr := n.attr.(identifier := s))
  }

  function SetAttributes(n: Node, a: Dict<string, string>): (r: Node)
    requires HasAttr(n)
    ensures Attributes(r) == a && Ident(r) == Ident(n) && Classes(r) == Classes(n)
    ensures r.id == n.id && Kids(r) == Kids(n) && HasAttr(r)
  {
    n.(attr := n.attr.(attributes := a))
  }

  /** The container `n` with its children replaced by `cs`; everything else about it kept. */
  function WithKids(n: Node, cs: seq<Node>): (r: Node)
    requires IsContainer(n)
    ensures IsContainer(r) && r.id == n.id && Kids(r) == cs && Piece(r) == Piece(n)
    ensures HasAttr(r) == HasAttr(n) && Ident(r) == Ident(n) && Classes(r) == Classes(n)
    ensures Attributes(r) == Attributes(n) && IsInline(r) == IsInline(n)
    ensures n.Div? ==> r == Div(n.id, n.attr, cs)
  {
    n.(content := cs)
  }

  // ---------------------------------------------------------------- post-order walk

  /** The nodes of the subtree in the order panflute's `walk` hands them to an action:
      children first (left to right), then the node itself. */
  function Walk(n: Node): (r: seq<Node>)
    ensures |r| >= 1 && r[|r| - 1] == n
    decreases n
  {
    (if IsContainer(n) then WalkSeq(n.content) else []) + [n]
  }

  function WalkSeq(cs: seq<Node>): seq<Node>
    decreases cs
  {
    if |cs| == 0 then [] else Walk(cs[0]) + WalkSeq(cs[1..])
  }

  lemma WalkSeqAppend(a: seq<Node>, b: seq<Node>)
    ensures WalkSeq(a + b) == WalkSeq(a) + WalkSeq(b)
  {
    if |a| > 0 {
      assert (a + b)[0] == a[0];
      assert (a + b)[1..] == a[1..] + b;
      WalkSeqAppend(a[1..], b);
    } else {
      assert a + b == b;
    }
  }

  lemma ContainerWalk(n: Node)
    requires IsContainer(n)
    ensures Walk(n) == WalkSeq(n.content) + [n]
  {
  }

  lemma LeafWalk(n: Node)
    requires !IsContainer(n)
    ensures Walk(n) == [n]
  {
  }

  lemma WalkSeqSingle(n: Node)
    ensures WalkSeq([n]) == Walk(n)
  {
  }

  /** Every node of the subtree has a distinct identity. */
  predicate UniqueIds(ns: seq<Node>) {
    forall i, j :: 0 <= i < j < |ns| ==> ns[i].id != ns[j].id
  }

  function IdsOf(ns: seq<Node>): set<nat> {
    set i | 0 <= i < |ns| :: ns[i].id
  }

  // ---------------------------------------------------------------- stringify

  /** The text one node contributes to `stringify`: its text, a space for horizontal
      space nodes, a blank line for a paragraph, nothing otherwise. */
  function Piece(n: Node): string {
    if HasText(n) then n.text
    else if n.Space? || n.LineBreak? || n.SoftBreak? then " "
    else if n.Para? then "\n\n"
    else ""
  }

  function Concat(ns: seq<Node>): string {
    if |ns| == 0 then "" else Piece(ns[0]) + Concat(ns[1..])
  }

  lemma ConcatAppend(a: seq<Node>, b: seq<Node>)
    ensures Concat(a + b) == Concat(a) + Concat(b)
  {
    if |a| > 0 {
      assert (a + b)[0] == a[0];
      assert (a + b)[1..] == a[1..] + b;
      ConcatAppend(a[1..], b);
    } else {
      assert a + b == b;
    }
  }

  /** `stringify`: the pieces of the walked subtree, concatenated in walk order. */
  function Stringify(n: Node): string {
    Concat(Walk(n))
  }

  /** What each walked node contributes: its identity and its text. Two walks of equal shape
      stringify alike and name the same nodes in the same order. */
  function Shape(ns: seq<Node>): (r: seq<(nat, string)>)
    ensures |r| == |ns|
  {
    seq(|ns|, i requires 0 <= i < |ns| => (ns[i].id, Piece(ns[i])))
  }

  lemma ShapeAppend(a: seq<Node>, b: seq<Node>)
    ensures Shape(a + b) == Shape(a) + Shape(b)
  {
  }

  lemma {:induction false} SameShapeSameText(a: seq<Node>, b: seq<Node>)
    requires Shape(a) == Shape(b)
    ensures Concat(a) == Concat(b)
    decreases |a|
  {
    if |a| > 0 {
      assert Shape(a)[0] == Shape(b)[0];
      assert Shape(a[1..]) == Shape(a)[1..] == Shape(b)[1..] == Shape(b[1..]);
      SameShapeSameText(a[1..], b[1..]);
    }
  }

  // ---------------------------------------------------------------- ordered dictionaries

  predicate HasKey<K(==), V>(a: Dict<K, V>, k: K) {
    exists i :: 0 <= i < |a| && a[i].0 == k
  }

  lemma HasKeyCons<K, V>(a: Dict<K, V>, k: K)
    requires |a| > 0
    ensures HasKey(a, k) <==> a[0].0 == k || HasKey(a[1..], k)
  {
    if HasKey(a[1..], k) {
      var i :| 0 <= i < |a[1..]| && a[1..][i].0 == k;
      assert a[i + 1].0 == k;
    }
    if HasKey(a, k) && a[0].0 != k {
      var i :| 0 <= i < |a| && a[i].0 == k;
      assert a[1..][i - 1].0 == k;
    }
  }

  /** `d.get(k)` */
  function Lookup<K(==), V>(a: Dict<K, V>, k: K): (r: Option<V>)
    ensures r.Some? <==> HasKey(a, k)
    ensures r.Some? ==> exists i :: 0 <= i < |a| && a[i] == (k, r.value)
  {
    if |a| == 0 then None
    else if a[0].0 == k then Some(a[0].1)
    else
      var r := Lookup(a[1..], k);
      HasKeyCons(a, k);
      assert r.Some? ==> exists i :: 0 <= i < |a| && a[i] == (k, r.value) by {
        if r.Some? {
          var i :| 0 <= i < |a[1..]| && a[1..][i] == (k, r.value);
          assert a[i + 1] == (k, r.value);
        }
      }
      r
  }

  /** `d[k] = v`: replaces the value in place, or appends a new entry. */
  function Put<K(==), V>(a: Dict<K, V>, k: K, v: V): (r: Dict<K, V>)
    ensures |r| == (if HasKey(a, k) then |a| else |a| + 1)
  {
    if |a| == 0 then [(k, v)]
    else if a[0].0 == k then [(k, v)] + a[1..]
    else
      HasKeyCons(a, k);
      [a[0]] + Put(a[1..], k, v)
  }

  lemma {:induction false} PutLookup<K, V>(a: Dict<K, V>, k: K, v: V, k': K)
    ensures Lookup(Put(a, k, v), k') == if k' == k then Some(v) else Lookup(a, k')
  {
    if |a| > 0 && a[0].0 != k {
      PutLookup(a[1..], k, v, k');
      assert ([a[0]] + Put(a[1..], k, v))[1..] == Put(a[1..], k, v);
    } else if |a| > 0 {
      assert ([(k, v)] + a[1..])[1..] == a[1..];
    }
  }

  lemma {:induction false} PutAppends<K, V>(a: Dict<K, V>, k: K, v: V)
    requires !HasKey(a, k)
    ensures Put(a, k, v) == a + [(k, v)]
  {
    if |a| > 0 {
      HasKeyCons(a, k);
      PutAppends(a[1..], k, v);
      assert a == [a[0]] + a[1..];
    }
  }

  /** `d.pop(k, None)` with the result dropped: every entry under `k` removed. */
  function Del<K(==), V>(a: Dict<K, V>, k: K): (r: Dict<K, V>)
    ensures |r| <= |a|
  {
    if |a| == 0 then []
    else if a[0].0 == k then Del(a[1..], k)
    else [a[0]] + Del(a[1..], k)
  }

  lemma {:induction false} DelLookup<K, V>(a: Dict<K, V>, k: K, k': K)
    ensures Lookup(Del(a, k), k') == if k' == k then None else Lookup(a, k')
  {
    if |a| > 0 {
      DelLookup(a[1..], k, k');
      if a[0].0 != k {
        assert ([a[0]] + Del(a[1..], k))[1..] == Del(a[1..], k);
      }
    }
  }

  /** No key occurs twice, as in a Python `dict`. */
  predicate DistinctKeys<K(==), V>(a: Dict<K, V>) {
    forall i, j :: 0 <= i < j < |a| ==> a[i].0 != a[j].0
  }

  /** `d.update(b)`: every entry of `b`, in order, assigned into `d`. */
  function PutAll<K(==), V>(a: Dict<K, V>, b: Dict<K, V>): Dict<K, V>
    decreases |b|
  {
    if |b| == 0 then a else PutAll(Put(a, b[0].0, b[0].1), b[1..])
  }

  /** After `d.update(b)` the keys of `b` hold `b`'s values and every other key is untouched. */
  lemma {:induction false} PutAllLookup<K, V>(a: Dict<K, V>, b: Dict<K, V>, k: K)
    requires DistinctKeys(b)
    ensures Lookup(PutAll(a, b), k) == if HasKey(b, k) then Lookup(b, k) else Lookup(a, k)
    decreases |b|
  {
    if |b| > 0 {
      HasKeyCons(b, k);
      assert DistinctKeys(b[1..]);
      PutAllLookup(Put(a, b[0].0, b[0].1), b[1..], k);
      PutLookup(a, b[0].0, b[0].1, k);
    }
  }

  lemma ConsDistinct<K, V>(x: (K, V), d: Dict<K, V>)
    requires DistinctKeys(d) && !HasKey(d, x.0)
    ensures DistinctKeys([x] + d)
  {
    forall i, j | 0 <= i < j < |[x] + d| ensures ([x] + d)[i].0 != ([x] + d)[j].0 {
      if i == 0 {
        assert ([x] + d)[j] == d[j - 1];
      } else {
        assert ([x] + d)[i] == d[i - 1] && ([x] + d)[j] == d[j - 1];
      }
    }
  }

  lemma DistinctHead<K, V>(a: Dict<K, V>)
    requires DistinctKeys(a) && |a| > 0
    ensures !HasKey(a[1..], a[0].0)
  {
    forall i | 0 <= i < |a[1..]| ensures a[1..][i].0 != a[0].0 {
      assert a[1..][i] == a[i + 1];
    }
  }

  lemma {:induction false} DelDistinct<K, V>(a: Dict<K, V>, k: K)
    requires DistinctKeys(a)
    ensures DistinctKeys(Del(a, k))
  {
    if |a| > 0 {
      assert DistinctKeys(a[1..]);
      DelDistinct(a[1..], k);
      if a[0].0 != k {
        DelLookup(a[1..], k, a[0].0);
        DistinctHead(a);
        ConsDistinct(a[0], Del(a[1..], k));
      }
    }
  }

  /** `d.update(b)` on a dictionary sharing no key with `b` appends `b`. */
  lemma {:induction false} PutAllAppends<K, V>(a: Dict<K, V>, b: Dict<K, V>)
    requires DistinctKeys(b)
    requires forall i :: 0 <= i < |b| ==> !HasKey(a, b[i].0)
    ensures PutAll(a, b) == a + b
    decreases |b|
  {
    if |b| > 0 {
      PutAppends(a, b[0].0, b[0].1);
      forall i | 0 <= i < |b[1..]| ensures !HasKey(a + [b[0]], b[1..][i].0) {
        assert b[1..][i] == b[i + 1];
        assert !HasKey(a, b[i + 1].0);
        forall j | 0 <= j < |a + [b[0]]| ensures (a + [b[0]])[j].0 != b[i + 1].0 {
          if j < |a| { assert (a + [b[0]])[j] == a[j]; }
        }
      }
      assert DistinctKeys(b[1..]);
      PutAllAppends(a + [b[0]], b[1..]);
      assert a + [b[0]] + b[1..] == a + b;
    }
  }
}

=== FILE: wrappers.dfy ===
/** Failure-compatible wrappers shared by every module of the model. */
module Wrappers {

  /** An optional value; `None` also stands for Python's `None` return. */
  datatype Option<+T> = None | Some(value: T) {
    predicate IsFailure() { None? }

    function PropagateFailure<U>(): Option<U>
      requires None?
    {
      None
    }

    function Extract(): T
      requires Some?
    {
      value
    }

    function GetOr(default: T): T {
      match this
      case Some(v) => v
      case None => default
    }
  }

  /** The Python exceptions the modelled code can raise and does not catch. */
  datatype Error =
    | AttributeError   // attribute access on a node kind that lacks it
    | TypeError        // wrong node kind handed to a constructor or a function
    | IndexError       // indexing an empty list
    | RuntimeError     // raised explicitly by latex_to_myst
    | AssertionError   // a failed `assert`
    | ValueError       // `list.index` of an absent element, `float` of a malformed number

  /** A result that either carries a value or the exception that ended the computation. */
  datatype Result<+T> = Success(value: T) | Failure(error: Error) {
    predicate IsFailure() { Failure? }

    function PropagateFailure<U>(): Result<U>
      requires Failure?
    {
      Failure(error)
    }

    function Extract(): T
      requires Success?
    {
      value
    }
  }
}
